=== FILE: README.md ===
# Orthodoxy card-archive pipeline, modelled in Dafny

Orthodoxy filters a JSON archive of Magic: The Gathering cards. This project
models its sequential core and proves what the code and its doc-comments
promise about it:

- **Filter operators** (`filters.py`): the seven comparison operators and their
  lookup table. On the values modelled none of them raises: a type mismatch or
  a value that `float()` cannot convert gives false. (An integer too large for
  a float, 2^1024 or more, makes Python's `float()` raise `OverflowError`;
  see "Left out".)
- **Card processing** (`cards.py`): `process_card` runs these steps in order:
  - the required-field check;
  - default values;
  - operator validation and AND-semantics filter evaluation;
  - selection of translations by language;
  - projection onto a schema.
- **The set writer** (`CardSetWriter`): a class whose state machine
  (INITIAL / SET_OPEN / SET_CLOSED), fragment buffer, counters and growing
  output sink are updated in place. It is modelled as written: switching away
  from an open set writes `}`, not `]}`.
- **The streaming file processor** (`FileProcessor`): it turns the JSON
  parser's `(path, event, value)` triples into cards and set transitions, and
  frames the output with a metadata header and a closing brace.
- **The filter parser** (`CardParser`): the desugaring of filter shorthands,
  prefix validation, and card assembly from parser events.
- **Batch processing** (`BatchProcessor`, `ParallelProcessor`,
  `BatchStatistics`): chunking, the sequential and pool paths, and the running
  statistics. The thread pool is an input that says what became of each
  future.
- **Deck extraction**:
  - the deck-list line scanner, which replaces the regular expression;
  - `CardReference` validation;
  - the exact-then-fallback card lookup;
  - the required-field walk through a nested schema;
  - the counting loop of `extract_deck_cards`.
- **Configuration versions** (`ConfigVersion`): printing, parsing, ordering and
  compatibility, plus the log-level check.

How the model is built:

- **JSON values** form a datatype whose objects are association lists, so
  Python's dictionary insertion order is kept.
- **Python `==`** is `PyEq`. Numbers compare across bool, int and float, and
  dictionaries compare as mappings.
- **`float(x)`** is `ToNumber`. It converts numbers and decimal strings.
- **`json.dumps`** is a function parameter (`dumps`). **`json.loads`** is
  replaced by its result.
- **Logging** goes to a `Logger` whose entry list the methods extend. Each
  entry is a level and the fixed text of the message.

Code that works step by step becomes methods with loop invariants. Each method
is proved equal to a specification function, and the properties are proved as
lemmas about those functions.

## Model

| member | source | states |
|---|---|---|
| `Filters.GetOperatorFunction` | src/processing/filters.py:269-320 | an operator is returned exactly for the seven names `eq`, `gt`, `lt`, `gte`, `lte`, `contains`, `in`, and it is the operator of that name; any other name gives none |
| `Filters.LookupByName` | src/processing/filters.py:269-277 | every operator is found under its own name |
| `Filters.ListContains` | src/processing/filters.py:227-230 | membership in a list holds iff some element is Python-equal to the item |
| `Filters.EqReflexive` | src/processing/filters.py:97-100 | `eq` is reflexive on every value the model represents (there is no NaN among them) |
| `Filters.NumericNeedsNumbers` | src/processing/filters.py:44-74 | a numeric operator holds only when both operands convert with `float()`; `None`, lists and dicts as either operand make it false, never an error |
| `Filters.ComparisonDuality` | src/processing/filters.py:103-196 | `gt(a, b) == lt(b, a)` and `gte(a, b) == lte(b, a)` |
| `Filters.ComparisonTrichotomy` | src/processing/filters.py:103-196 | on convertible operands exactly one of `gt`, `lt`, and `gte`-and-`lte` holds |
| `Filters.InIsFlippedContains` | src/processing/filters.py:233-265 | `in(a, b)` always equals `contains(b, a)` |
| `Filters.ContainsMeaning` | src/processing/filters.py:199-230 | `contains` is substring for strings, an equal element for lists and a key for dicts; it is false for `None` and numbers |
| `Filters.EqDoesNotConvertStrings` | src/processing/filters.py:77-100 | `eq(3, "3")` is false while `eq(True, 1)` and `eq(1, 1.0)` hold; `gte`/`lte` on 3 and "3" hold |
| `Filters.MixedStringNumberComparison` | src/processing/filters.py:151-196 | `gte(123.0, "123")` and `lte("123", 123.0)` hold, `gt("123", 123.0)` does not, and a non-numeric string compares false both ways |
| `JsonValues.Get` | src/analysis/cards.py:318 | `key in d` holds exactly when `d.get(key)` finds a value |
| `JsonValues.GetOr` | src/analysis/card_resolver.py:89 | `d.get(k, default)` is the default for a missing key and the bound value otherwise |
| `JsonValues.Set` | src/services/filter_parser.py:137 | `d[k] = v` binds `k` to `v`, leaves every other key alone, keeps the key order when `k` was present and appends it otherwise |
| `JsonValues.SetDefault` | src/analysis/cards.py:210-220 | `setdefault` changes nothing for a present key and appends the default for a missing one |
| `JsonValues.Remove` | src/analysis/cards.py:422-423 | `del d[k]` removes the key and leaves every other key's value |
| `JsonValues.RemoveAppend` | src/analysis/cards.py:422-423 | `del d[k]` keeps the remaining keys in their insertion order: removing from a concatenation removes from each part |
| `JsonValues.SetKeepsUnique` | src/services/filter_parser.py:137 | assigning a key keeps a dictionary's keys distinct |
| `JsonValues.ToNumber` | src/processing/filters.py:69-70 | `float()` converts bools, ints and floats to their value and fails on `None`, lists and dicts |
| `PyStrings.Contains` | src/processing/filters.py:227-230 | `t in s` on strings holds iff `t` is a substring of `s` |
| `PyStrings.Split` | src/services/filter_parser.py:94 | `split` gives at least one piece and no piece holds the separator |
| `PyStrings.SplitJoin` | src/core/config.py:114 | splitting a dot-join of dot-free pieces gives the pieces back |
| `PyStrings.TrimStart` | src/io/parsers/deck.py:191 | `lstrip` removes exactly a leading whitespace run |
| `PyStrings.TrimEnd` | src/io/parsers/deck.py:191 | `rstrip` removes exactly a trailing whitespace run |
| `PyStrings.Strip` | src/io/parsers/deck.py:191 | a stripped string begins and ends with non-whitespace |
| `PyStrings.StripCutsSpace` | src/io/parsers/deck.py:191 | what `strip` removes is whitespace, and only from the two ends |
| `PyStrings.NatToString` | src/core/config.py:68 | `str(n)` is a non-empty digit string whose value is `n` |
| `PyStrings.IntToString` | src/core/config.py:67-68 | `str(i)` holds no dot, so it is one component of a version string |
| `PyStrings.ParseIntToString` | src/core/config.py:119-121 | `int(str(i)) == i` |
| `PyStrings.ParseInt` | src/core/config.py:119-121 | `int(s)` succeeds only on a non-empty string |
| `PyStrings.ParseDecimalOfInt` | src/processing/filters.py:69-70 | `float(str(i))` is `i` |
| `PyStrings.WordIsNotDecimal` | src/processing/filters.py:69-70 | `float()` rejects a text that starts with neither a digit nor a sign and holds no decimal point |
| `PyStrings.NotANumberText` | src/processing/filters.py:69-70 | `float("not a number")` raises |
| `PyStrings.DecimalExamples` | src/processing/filters.py:69-70 | `float("123")` is 123.0 and `float("abc")` raises |
| `PyStrings.Upper` | src/core/config.py:229-231 | `upper` maps each character to its upper-case form and keeps the length |
| `Cards.Message` | src/analysis/cards.py:377-378 | every `ValueError` leaving `process_card` is re-raised with a message that starts with "Error processing card: " |
| `Cards.EvaluateCondition` | src/analysis/cards.py:117-129 | an unknown operator is "Invalid operator"; a numeric operator fails with "Invalid value type" exactly when `float()` rejects the card value or the filter value, which is distinct from a false match; otherwise the result is the operator's value |
| `Cards.UnconvertibleOperandFails` | src/analysis/cards.py:122-129 | filtering on a present field with `gt` and an operand `float()` rejects fails with "Invalid value type for `gt`" |
| `Cards.InvalidValueTypeIsReported` | src/analysis/cards.py:122-129 | processing a named, typed card with such a `gt` filter on one of its fields fails with "Invalid value type", whatever the schema and languages |
| `Cards.BaseCardHasDefault` | src/analysis/cards.py:207-223 | every key with a default is present in the base card, whatever the input card holds |
| `Cards.FilterValueNotNumber` | tests/test_processing.py:164-169 | a `gt` filter whose operand is not a number, on a key the base card holds, fails with "Invalid value type" |
| `Cards.NotANumberExample` | tests/test_processing.py:164-169 | `{"convertedManaCost": {"gt": "not a number"}}` makes processing of any named, typed card fail with "Invalid value type" for `gt` |
| `Cards.FirstUnknownOperator` | src/analysis/cards.py:390-393 | there is no unknown operator iff every operator name is in the table, and a reported one is not in it |
| `Cards.OperatorErrorIff` | src/analysis/cards.py:385-393 | operator validation passes exactly for well-formed filters |
| `Cards.ValidateFilterOperators` | src/analysis/cards.py:385-393 | the loop checks every operator of every field before any evaluation; `None` passes |
| `Cards.Outcomes` | src/analysis/cards.py:322-329 | the outcomes are each condition's own evaluation, in order |
| `Cards.FieldOutcomes` | src/analysis/cards.py:317-329 | the outcomes are each field's own evaluation, in order |
| `Cards.EvaluateFilters` | src/analysis/cards.py:286-331 | the early-return loop computes exactly the specified match or error |
| `Cards.ScanConjunction` | src/analysis/cards.py:317-331 | a scan of outcomes is true iff every outcome is true |
| `Cards.ConditionsConjunction` | src/analysis/cards.py:322-331 | the conditions on one value hold together iff each holds alone |
| `Cards.FieldHoldsMeaning` | src/analysis/cards.py:317-329 | a field holds iff it is on the card and each of its conditions holds |
| `Cards.FiltersConjunction` | src/analysis/cards.py:314-331 | AND semantics: the filter matches iff every field holds |
| `Cards.MissingFieldIsFalse` | src/analysis/cards.py:317-329 | when every field before a missing one evaluates without error, the missing field makes the whole filter false |
| `Cards.NonNumericFieldSucceeds` | src/analysis/cards.py:317-329 | a well-formed field whose operators are all non-numeric never raises |
| `Cards.NonNumericConditionsSucceed` | src/analysis/cards.py:322-329 | known non-numeric operators never raise |
| `Cards.SetDefaults` | src/analysis/cards.py:209-221 | the card's own fields stay first and unchanged |
| `Cards.SetDefaultsGet` | src/analysis/cards.py:209-221 | after the defaults, a key keeps its own value or takes its default |
| `Cards.SetDefaultsPresent` | src/analysis/cards.py:209-221 | defaults that are all present already change nothing |
| `Cards.CreateBaseCard` | src/analysis/cards.py:207-223 | the base card begins with the input card, unchanged and in order |
| `Cards.CreateBaseCardField` | src/analysis/cards.py:207-223 | each key keeps its value or takes its default (name/type `None`, colors [], ..., availability []), and no other key appears |
| `Cards.CreateBaseCardIdempotent` | src/analysis/cards.py:207-223 | filling in defaults twice is the same as once |
| `Cards.Selected` | src/analysis/cards.py:247-252 | the list comprehension as a reference: it keeps no more entries than it is given |
| `Cards.SelectedAppend` | src/analysis/cards.py:247-252 | selecting from a concatenation is the concatenation of the selections, so order is kept |
| `Cards.SelectEntries` | src/analysis/cards.py:247-252 | succeeds iff every entry is a dictionary, else fails with the `AttributeError` kind; the entries kept are exactly those whose language is requested |
| `Cards.SelectEntriesIsSelected` | src/analysis/cards.py:247-252 | a successful selection is the reference selection, entry for entry and in order |
| `Cards.SelectedMembers` | src/analysis/cards.py:247-252 | an entry is kept iff it is a dictionary from the list whose language is requested |
| `Cards.SelectEntriesAppend` | src/analysis/cards.py:247-252 | selecting from `a + b` gives the selection of `a` followed by that of `b` |
| `Cards.SelectEntriesSingle` | src/analysis/cards.py:247-252 | one entry: a non-dictionary fails, a requested language keeps it, any other is dropped |
| `Cards.FilterForeignData` | src/analysis/cards.py:244-252 | no languages, or no `foreignData`, gives []; a list is filtered by `SelectEntries`; it fails as not iterable iff languages are given and `foreignData` is not a list, string or dictionary; a non-empty string or dictionary fails on its first element, an empty one gives [] |
| `Cards.SelectKeys` | src/analysis/cards.py:276-284 | the projection holds exactly the listed keys the card has, with the card's values |
| `Cards.SelectKeysUnique` | src/analysis/cards.py:276-284 | the projection holds each key once |
| `Cards.ApplySchema` | src/analysis/cards.py:276-284 | no schema drops only `language`; an empty schema gives {}; otherwise exactly the schema keys the card has, with its values |
| `Cards.ApplyFilters` | src/analysis/cards.py:395-408 | no filters pass; otherwise validation runs before evaluation |
| `Cards.ProcessLanguageData` | src/analysis/cards.py:410-425 | with languages, `foreignData` becomes the selected translations; without, it is removed; every other field stays |
| `Cards.ApplyFinalSchema` | src/analysis/cards.py:427-438 | with a schema, a key other than `foreignData` is present iff the schema names it and the card has it, with the card's value; a schema naming `foreignData` always yields it, defaulting to []; no schema drops `language` and keeps every other field |
| `Cards.ProcessCard` | src/analysis/cards.py:333-378 | the method's steps compute exactly the specified result |
| `Cards.RequiredFieldsFirst` | src/analysis/cards.py:380-383 | a card missing `name` or `type` fails with "Card missing required fields", whatever the filters |
| `Cards.UnknownOperatorIsReported` | src/analysis/cards.py:404-406 | an unknown operator anywhere is reported as "Invalid operator", even when its field is missing from the card |
| `Cards.UnknownOperatorKind` | src/analysis/cards.py:390-393 | with object conditions, the only validation error is an unknown operator |
| `Cards.RejectedCardYieldsNone` | src/analysis/cards.py:364-365 | a card the filter rejects yields `None` |
| `Cards.ProcessedCardWithoutSchema` | src/analysis/cards.py:417-438 | with no schema: no `language`; no `foreignData` without languages; the selected translations with languages; every other field from the base card |
| `Cards.ProcessedCardWithSchema` | src/analysis/cards.py:410-438 | with a schema, a key other than `foreignData` is present iff the schema names it and the base card has it, with the base card's value; `foreignData` is present iff named, holding [] without languages and the selected translations with them |
| `Cards.ProcessedKeysAreSchema` | src/analysis/cards.py:427-438 | when the base card has every schema field, the output's keys are exactly the schema's |
| `Cards.RedFilterPasses` | src/analysis/cards.py:395-406 | a red card passes `{"colors": {"contains": "R"}}` |
| `Cards.SelectKeysSnoc` | src/analysis/cards.py:276-284 | projecting onto one more key adds that key when the card has it |
| `Cards.NameProjection` | src/analysis/cards.py:276-284 | the projection onto `["name"]` is the name alone |
| `Cards.NameColorsSelection` | src/analysis/cards.py:276-284 | the projection onto name and colours keeps the schema order |
| `Cards.NameColorsProjection` | src/analysis/cards.py:427-438 | the final schema step on name and colours gives both, in order |
| `Cards.BoltFromBase` | src/analysis/cards.py:364-375 | a red card filtered on colour and projected onto name and colours comes out as exactly those two fields |
| `Cards.LightningBoltExample` | src/analysis/cards.py:333-378 | the same result from the raw card |
| `Models.NewCardReference` | src/utils/models.py:187-194 | the reference is accepted iff all checks pass; otherwise the first failing check decides: empty name, set code not 3 characters, empty collector number, quantity < 1 |
| `Models.SuccessRate` | src/utils/models.py:259-261 | 0 for an empty deck; otherwise found/total × 100, within 0–100, and 100 iff every card was found |
| `Writer.Sink.Write` | src/io/writers/card.py:131-148 | a write appends the text to the sink |
| `Writer.ConcatAppend` | src/io/writers/card.py:292 | joining the buffer with one more fragment is the old join followed by the fragment |
| `Writer.InitialValid` | src/io/writers/card.py:88-94 | a new writer (INITIAL, first card, empty buffer, zero counters) satisfies the writer invariant and has written nothing |
| `Writer.FlushSpec` | src/io/writers/card.py:283-293 | a flush empties the buffer, changes nothing else, and keeps the logical output (the sink plus the buffer) |
| `Writer.TransitionSpec` | src/io/writers/card.py:163-179 | the same set is a no-op; a new set flushes and writes `}` if a set is open, then `,` if any set was opened, then the set header; the state becomes SET_OPEN with a first card pending, and `sets_processed` grows by one |
| `Writer.Message` | src/io/writers/card.py:224-227 | an invalid state gives "Invalid state: ..."; an invalid card gives "Error writing card <str(name)>: ...", with "unknown" when there is no name and "None" for a `None` name |
| `Writer.WriteSpec` | src/io/writers/card.py:205-227 | `None` changes nothing; outside SET_OPEN the write is refused and no error is counted; an invalid card counts one error and changes nothing else; a valid card is appended to the logical output, after `,` unless it is the set's first, `cards_written` grows by one, and the buffer is flushed when it reaches `buffer_size` |
| `Writer.CloseSpec` | src/io/writers/card.py:310-313 | with a set opened, close flushes, writes `]}` and enters SET_CLOSED; with none it does nothing |
| `Writer.OutputOnlyGrows` | src/io/writers/card.py:131-148 | no operation takes back text already written |
| `Writer.SameSetIsNoOp` | src/io/writers/card.py:163-164 | transitioning to the current set changes nothing, `sets_processed` included |
| `Writer.TransitionKeepsValid` | src/io/writers/card.py:163-179 | a transition keeps the writer invariant |
| `Writer.WriteKeepsValid` | src/io/writers/card.py:205-227 | a write keeps the writer invariant |
| `Writer.CloseKeepsValid` | src/io/writers/card.py:310-313 | close keeps the writer invariant |
| `Writer.StepKeepsValid` | src/io/writers/card.py:150-313 | every writer operation keeps the invariant |
| `Writer.StepFlushCommutes` | src/io/writers/card.py:167 | flushing after an operation equals flushing first and running it with a one-fragment buffer |
| `Writer.RunFlushCommutes` | src/io/writers/card.py:311 | the same for any sequence of operations |
| `Writer.RunKeepsValid` | src/io/writers/card.py:150-313 | any sequence of operations keeps the invariant |
| `Writer.SameOutputForAnyBufferSize` | src/io/writers/card.py:310-313 | once the writer is closed, the final sink contents do not depend on `buffer_size` |
| `Writer.TwoSetsExample` | src/io/writers/card.py:166-173 | set A, one card, then set B writes A's header and card, then `}`, `,` and B's header |
| `Writer.CardSetWriter.constructor` | src/io/writers/card.py:88-94 | a new writer is in INITIAL, with a first card pending, an empty buffer, zero counters and the configured buffer size |
| `Writer.CardSetWriter.FlushBuffer` | src/io/writers/card.py:283-293 | the fields after the call are the flush specification applied to the fields before |
| `Writer.CardSetWriter.HandleSetTransition` | src/io/writers/card.py:150-179 | the fields after the call are the transition specification applied to the fields before |
| `Writer.CardSetWriter.WriteProcessedCard` | src/io/writers/card.py:181-227 | the fields after the call, and the error raised, are the write specification's |
| `Writer.CardSetWriter.Close` | src/io/writers/card.py:295-313 | the fields after the call are the close specification applied to the fields before |
| `FilterParser.NormalizeFilters` | src/services/filter_parser.py:63-70 | the parsed filter has the same keys in the same order, each value desugared: str/int/float → `{"eq": v}`, list → `{"in": v}`, anything else unchanged |
| `FilterParser.ParseFilterString` | src/services/filter_parser.py:49-78 | malformed JSON is "Invalid filter JSON"; a non-object is "Error parsing filter"; each logs exactly one error; success is the object with every field's condition normalised (`NormalizeFilters`), and logs nothing; every well-formed JSON object succeeds |
| `FilterParser.ParsedFilterGet` | src/services/filter_parser.py:63-70 | looking up a field of the parsed filter finds its desugared condition |
| `FilterParser.ParseIdempotent` | src/services/filter_parser.py:63-70 | parsing a parsed filter again changes nothing |
| `FilterParser.NormalizeTwice` | src/services/filter_parser.py:63-70 | desugaring is idempotent |
| `FilterParser.NormalizeConditionTwice` | src/services/filter_parser.py:64-68 | desugaring one condition is idempotent |
| `FilterParser.ParsedConditionsShape` | src/services/filter_parser.py:64-68 | every parsed condition is an object or `null` |
| `FilterParser.ShorthandMeaning` | src/services/filter_parser.py:64-68 | to the card processor, a bare value means equality with the card's value and a list means membership in it; a missing field does not match |
| `FilterParser.ValidatePrefix` | src/services/filter_parser.py:80-101 | `None` or empty gives the "None or non-string" message; otherwise it is valid iff there are ≥ 2 segments and the first is `data`, giving the second segment or "Invalid prefix format: <prefix>" |
| `FilterParser.ValidPathNamesSet` | src/services/filter_parser.py:94-101 | any `data.<set>....` path names its set |
| `FilterParser.ValidWhenSplits` | src/services/filter_parser.py:94-101 | a path that splits into ≥ 2 segments starting with `data` is valid and names its second segment |
| `FilterParser.LastSegment` | src/services/filter_parser.py:136 | the last segment holds no dot |
| `FilterParser.CardDataStep` | src/services/filter_parser.py:120-139 | `.block` paths are ignored before validation; an invalid path fails with the validator's message; a valid one gives its set; at a `.cards.item` path `start_map` starts a fresh card and `end_map` keeps the current one, and only `start_map` there starts a card; a value is assigned exactly when the path is valid, is not one of those two events at `.cards.item`, and lies under `data.<set>.cards.item.` |
| `FilterParser.FieldPathJoin` | src/services/filter_parser.py:135 | a card field path is the dot-join of its five segments |
| `FilterParser.CardEventsAtItem` | src/services/filter_parser.py:130-133 | at `data.<set>.cards.item`, `start_map` starts an empty card and `end_map` hands back the current card, both under that set |
| `FilterParser.FieldEventAssigns` | src/services/filter_parser.py:135-137 | a field event under a card assigns that field, whatever the event kind |
| `FilterParser.CardDict.constructor` | src/services/filter_parser.py:103 | a card dictionary holds the given items |
| `FilterParser.CardParser.constructor` | src/services/filter_parser.py:40-47 | the parser logs to the container's logging service |
| `FilterParser.CardParser.ProcessCardData` | src/services/filter_parser.py:103-145 | an invalid path logs its message once and fails with the card unchanged; `start_map` hands back a new empty card; a field event assigns into the caller's card in place and returns it |
| `FileStream.DataPathSplits` | src/services/file_stream.py:148-152 | a path under `data.` splits into ≥ 2 segments, the first `data` |
| `FileStream.SetNameOf` | src/services/file_stream.py:152 | the set name is the second dot segment and holds no dot |
| `FileStream.CardStepOf` | src/services/file_stream.py:108-117 | a processor error fails; a rejected card is dropped; a returned card is written, and a writer error fails with that error |
| `FileStream.HandleSpec` | src/services/file_stream.py:147-175 | paths outside `data.` and `.block` paths change nothing; a failure is logged as its prefix's failure log and carries that prefix; success logs nothing |
| `FileStream.MetaOrEmpty` | src/services/file_stream.py:240 | `meta or {}` |
| `FileStream.CardStepKeepsValid` | src/services/file_stream.py:108-113 | processing a card keeps the writer invariant |
| `FileStream.HandleKeepsValid` | src/services/file_stream.py:147-171 | every event keeps the writer invariant |
| `FileStream.CardStepGrowsOutput` | src/services/file_stream.py:108-113 | processing a card only grows the sink and keeps the writer state |
| `FileStream.HandleGrowsOutput` | src/services/file_stream.py:147-171 | every event only grows the sink and never closes an open set |
| `FileStream.RunGrowsOutput` | src/services/file_stream.py:245-252 | the event loop only grows the sink and never closes the writer |
| `FileStream.FailureLoggedTwice` | src/services/file_stream.py:114-117 | a failed run logged exactly its failure (a processor failure once per layer); a successful one logged nothing |
| `FileStream.FailureStopsStream` | src/services/file_stream.py:172-175 | events after a failing one are never processed |
| `FileStream.StreamFraming` | src/services/file_stream.py:231-265 | the output begins with `{"meta":` + the first `meta` value or `{}` + `,"data":{}`, and a run without failure ends with the writer's text and one `}`; the last set's `]}` is never written |
| `FileStream.NoDataEvents` | src/services/file_stream.py:246-252 | events outside `data.` change nothing |
| `FileStream.EmptyArchive` | src/services/file_stream.py:231-265 | an archive with no `data.` event gives the header and `}` |
| `FileStream.WriteErrorIgnoresBuffer` | src/io/writers/card.py:209-210 | whether a write fails does not depend on the buffer |
| `FileStream.CardStepFlushCommutes` | src/services/file_stream.py:108-113 | processing a card commutes with flushing |
| `FileStream.HandleFlushCommutes` | src/services/file_stream.py:147-171 | an event commutes with flushing |
| `FileStream.RunFlushCommutesStream` | src/services/file_stream.py:245-252 | the event loop commutes with flushing |
| `FileStream.CloseAfterFlush` | src/io/writers/card.py:310-313 | closing writes the same text whether or not the buffer was flushed first |
| `FileStream.ClosedStreamAnyBufferSize` | src/services/file_stream.py:212 | with the writer closed at the end, the output does not depend on the buffer size |
| `FileStream.CardPathFacts` | src/services/file_stream.py:148-154 | a card path is under `data.`, is no `.block` path, ends in `.cards.item` and names its set |
| `FileStream.FieldPathFacts` | src/services/file_stream.py:169-170 | a card field path is under its set's card and its last segment is the field |
| `FileStream.CardStartSwitchesSet` | src/services/file_stream.py:154-159 | a card's `start_map` in a new set resets the card, switches the writer and remembers the set |
| `FileStream.FieldEventStores` | src/services/file_stream.py:169-171 | a field event stores its value under the field |
| `FileStream.CardEndWrites` | src/services/file_stream.py:160-168 | a card's `end_map` processes and writes the card |
| `FileStream.FirstCardOfSet` | src/io/writers/card.py:212-220 | a set's first card is buffered without a comma and reaches the sink at once only with a one-fragment buffer |
| `FileStream.RunStep` | src/services/file_stream.py:245-252 | an event that raises nothing moves the loop on |
| `FileStream.OneCardAssembled` | src/services/file_stream.py:245-252 | a one-card archive reaches its `end_map` with the set open and the card assembled |
| `FileStream.OneCardStartView` | src/services/file_stream.py:231-240 | an archive without `meta` gets the header of `{}` |
| `FileStream.OneCardFields` | src/services/file_stream.py:169-171 | the field events fill the card in order |
| `FileStream.BufferedCardIsLost` | src/services/file_stream.py:265 | as written, a one-card archive's card is output only with a one-fragment buffer and `]}` never is; closing the writer outputs both |
| `FileStream.StreamState.constructor` | src/services/file_stream.py:218-223 | the state starts with meta not written, an empty card, no set and no meta value |
| `FileStream.FileProcessor.constructor` | src/services/file_stream.py:59-67 | the processor logs to the container's logging service |
| `FileStream.FileProcessor.ProcessCard` | src/services/file_stream.py:86-117 | the writer after the call and the failure are the card step's; a failure logs "Failed to process card" once |
| `FileStream.FileProcessor.WriteProcessed` | src/services/file_stream.py:112-117 | the same, given the processor's answer |
| `FileStream.FileProcessor.HandlePrefix` | src/services/file_stream.py:119-175 | the state, the writer, the error and the log after one event are the event specification's |
| `FileStream.FileProcessor.WriteMetadata` | src/services/file_stream.py:177-195 | appends `{"meta":` + the serialised value + `,"data":{}` |
| `FileStream.FileProcessor.ProcessFileStream` | src/services/file_stream.py:201-265 | the sink, the error and the log are the stream specification's |
| `Batch.SingleCard` | src/processing/batch.py:470-480 | `(r, r is None, False)` on success and `(None, False, True)` on an error, which logs once |
| `Batch.LoggedPlusAssoc` | src/processing/batch.py:602-606 | adding counts and logs is associative |
| `Batch.LoggedPlusUnit` | src/processing/batch.py:602-606 | zero counts with an empty log are the unit |
| `Batch.Tally` | src/processing/batch.py:519-524 | one well-formed triple accounts for exactly one card |
| `Batch.SequentialStep` | src/processing/batch.py:515-524 | one more card adds its tally and log |
| `Batch.SequentialLoopStep` | src/processing/batch.py:515-524 | one pass of the sequential loop keeps the counters and log equal to the prefix's specification |
| `Batch.SurvivorsAppend` | src/processing/batch.py:519-520 | the processed cards of two lists are concatenated |
| `Batch.SequentialAccounting` | src/processing/batch.py:510-526 | processed + filtered + failed equals the chunk length, and the results keep input order |
| `Batch.FutureSpec` | src/processing/batch.py:307-350 | a cancelled or raising future, `None` or a malformed value counts as one failure; a triple is tallied and logs nothing; every log line is an error |
| `Batch.SingleFutureSpec` | src/processing/batch.py:316-350 | on its own, a cancelled future raises from `result()` and is logged as a failure |
| `Batch.CompletedAppend` | src/processing/batch.py:307-312 | classifying two lists of futures adds their results |
| `Batch.CompletedCons` | src/processing/batch.py:307-312 | the first future, then the rest |
| `Batch.CompletedStep` | src/processing/batch.py:307-312 | one more future classified |
| `Batch.MovedPart` | src/processing/batch.py:307 | adding the same part elsewhere keeps results equal up to order |
| `Batch.CompletedOrderIrrelevant` | src/processing/batch.py:307 | whatever the iteration order of `done`, the counts and the multisets of cards and log lines are the same |
| `Batch.RemoveOne` | src/processing/batch.py:307 | removing the same future from two permutations leaves permutations |
| `Batch.CompletedSplit` | src/processing/batch.py:307-312 | the classification of a list split around one future |
| `Batch.ProcessFuturesSpec` | src/processing/batch.py:253-281 | a failing `wait` counts the whole chunk failed with an empty list and one error; otherwise the done futures are classified and the running ones count as failed under one warning |
| `Batch.CompletedLogsNoWarning` | src/processing/batch.py:307-350 | classifying futures logs no warning |
| `Batch.NotDoneFrom` | src/processing/batch.py:268 | at most the remaining cards are still running |
| `Batch.DoneAccounting` | src/processing/batch.py:268-276 | every done future is counted once, and done plus running make up the chunk |
| `Batch.DoneFinishes` | src/processing/batch.py:251 | a finished future ran `process_single_card` on its card |
| `Batch.AllFinishedIsSequential` | src/processing/batch.py:529-539 | with every future finished, the pool gives exactly what the loop gives |
| `Batch.SequentialFrom` | src/processing/batch.py:515-524 | the loop over a suffix: its first card, then the rest |
| `Batch.SequentialCons` | src/processing/batch.py:515-524 | the loop from the front |
| `Batch.SequentialAppend` | src/processing/batch.py:515-524 | the loop over two lists in a row adds their results |
| `Batch.SequentialSingle` | src/processing/batch.py:515-524 | the loop over one card |
| `Batch.SequentialLast` | src/processing/batch.py:515-524 | the loop over a non-empty list: the front, then the last card |
| `Batch.PoolSize` | src/processing/batch.py:538 | `min(len(chunk), 10)` is at most 10 and at most the chunk, and is more than 5 on the pool path |
| `Batch.ChunkAccounting` | src/processing/batch.py:482-539 | a chunk raises only when the pool fails; otherwise it accounts for each card once, and cards running at the timeout count as failed under exactly one warning |
| `Batch.DoneLogsNoWarning` | src/processing/batch.py:470-480 | the workers log no warning |
| `Batch.ParallelMatchesSequential` | src/processing/batch.py:296-314 | on the pool path, the counts and the returned cards up to order do not depend on the order `done` is read in |
| `Batch.CompletedLogsEmpty` | src/processing/batch.py:307-350 | finished futures of the card processor log nothing when classified |
| `Batch.UpdateStats` | src/processing/batch.py:116-128 | the three counters grow by the given amounts and the total stays |
| `Batch.ChunkYield` | src/processing/batch.py:592-613 | each chunk adds its length to the counters, whether it succeeded or raised (then every card counts as failed), and the counters never decrease |
| `Batch.BatchStep` | src/processing/batch.py:590-613 | one chunk's yield, then the rest |
| `Batch.BatchLoopStep` | src/processing/batch.py:590-613 | one pass of the chunk loop keeps the yields and log equal to the whole run |
| `Batch.BatchLoopEnd` | src/processing/batch.py:590 | past the end nothing is left to yield |
| `Batch.BatchFromMonotone` | src/processing/batch.py:590-613 | one yield per remaining chunk, with counters that never fall |
| `Batch.MonotoneCons` | src/processing/batch.py:602-608 | a yield that starts no lower keeps the run monotone |
| `Batch.BatchFromProgress` | src/processing/batch.py:590-613 | after the k-th yield the counters account for exactly the cards of the first k chunks |
| `Batch.ProgressCons` | src/processing/batch.py:590-591 | the counts of a run are those of its rest, shifted by one chunk |
| `Batch.BatchAccounting` | src/processing/batch.py:584-613 | empty input yields nothing; otherwise one yield per chunk, in order, with `total_cards` fixed, counters never decreasing, and every card counted after the last yield |
| `Batch.ProcessingResults.constructor` | src/processing/batch.py:283-294 | empty results |
| `Batch.ParallelProcessor.constructor` | src/processing/batch.py:202-208 | the pool processor reports through the given logger |
| `Batch.ParallelProcessor.UpdateResults` | src/processing/batch.py:352-370 | each flag and the card are applied independently |
| `Batch.ParallelProcessor.ProcessSingleFuture` | src/processing/batch.py:316-350 | the results and log grow by the single-future specification |
| `Batch.ParallelProcessor.HandleCompletedFutures` | src/processing/batch.py:296-314 | fresh results equal to the classification of `done` in iteration order |
| `Batch.ParallelProcessor.HandleCompletedFuture` | src/processing/batch.py:308-312 | one pass of that loop: a cancelled future fails without a log line |
| `Batch.ParallelProcessor.HandleTimeout` | src/processing/batch.py:372-385 | returns the number still running, with one warning when it is not zero |
| `Batch.ParallelProcessor.ProcessFutures` | src/processing/batch.py:253-281 | the counts and the log are the futures specification's |
| `Batch.ParallelProcessor.ProcessParallel` | src/processing/batch.py:210-233 | `None` when the pool raised, with nothing logged; otherwise the pool specification's counts and log |
| `Batch.ParallelProcessor.SubmitTasks` | src/processing/batch.py:235-251 | every card is submitted; the finished futures are done in submission order, and the rest are counted as running |
| `Batch.BatchStatistics.constructor` | src/processing/batch.py:99-114 | the total is given and the counters are zero |
| `Batch.BatchStatistics.Update` | src/processing/batch.py:116-128 | the counters grow as `UpdateStats` says |
| `Batch.BatchProcessor.constructor` | src/processing/batch.py:437-447 | the processor keeps its card processor and logger and owns a new pool processor on the same logger |
| `Batch.BatchProcessor.ProcessSingleCard` | src/processing/batch.py:449-480 | the triple and the log are the single-card specification's |
| `Batch.BatchProcessor.ProcessBatchChunk` | src/processing/batch.py:482-539 | at most five cards run in the loop and larger chunks go to the pool, as the chunk specification says |
| `Batch.BatchProcessor.ProcessSequentially` | src/processing/batch.py:510-526 | the loop's counts and log are the sequential specification's |
| `Batch.BatchProcessor.ProcessChunk` | src/processing/batch.py:591-613 | one chunk updates the statistics and yields them as they now stand |
| `Batch.BatchProcessor.ProcessBatch` | src/processing/batch.py:541-613 | the yields and log are the batch specification's; a zero batch size fails before any chunk |
| `Batch.BatchProcessor.ProcessChunks` | src/processing/batch.py:590-613 | the `for` loop yields exactly the specified sequence |
| `Deck.SpanEnd` | src/io/parsers/deck.py:138 | the end of a run lies between its start and the end of the line |
| `Deck.SpanEndStops` | src/io/parsers/deck.py:138 | the run satisfies the character class and the next character does not |
| `Deck.SpanEndAt` | src/io/parsers/deck.py:138 | a run is determined by where it stops |
| `Deck.NameGroup` | src/io/parsers/deck.py:138 | the lazy name group is never empty |
| `Deck.ScanFindsCuts` | src/io/parsers/deck.py:138 | a line of the pattern is cut in exactly one way, the scanner's |
| `Deck.MatchCardLineIff` | src/io/parsers/deck.py:138 | the scanner matches exactly the lines the card pattern describes, with the groups between the cuts |
| `Deck.NameGroupTrims` | src/io/parsers/deck.py:210 | the name group and the whole gap strip to the same name |
| `Deck.StripEmptyAllSpace` | src/io/parsers/deck.py:191-193 | only whitespace strips to nothing |
| `Deck.StripUnpadded` | src/io/parsers/deck.py:210-212 | `strip` leaves text with no whitespace at its ends alone |
| `Deck.AllSpaceStrips` | src/io/parsers/deck.py:191-193 | an all-whitespace line strips to nothing |
| `Deck.TrimStartAt` | src/io/parsers/deck.py:191 | `lstrip` drops exactly the leading whitespace |
| `Deck.TrimEndAt` | src/io/parsers/deck.py:191 | `rstrip` drops exactly the trailing whitespace |
| `Deck.StripPadded` | src/io/parsers/deck.py:191 | padded text strips to the text |
| `Deck.TrimEndPadded` | src/io/parsers/deck.py:191 | `rstrip` of a suffix drops its trailing whitespace |
| `Deck.ParseLine` | src/io/parsers/deck.py:164-216 | an empty stripped line is "Empty line"; a section header is rejected and logged as exactly one error, the only case that logs; an accepted reference is valid |
| `Deck.FormatLine` | src/io/parsers/deck.py:167-168 | the documented line format has the pieces' length plus five |
| `Deck.FormatLineAt` | src/io/parsers/deck.py:167-168 | each piece sits at its position in a formatted line |
| `Deck.FormatCuts` | src/io/parsers/deck.py:138 | a formatted line is cut around its pieces |
| `Deck.SliceRun` | src/io/parsers/deck.py:138 | a slice's character class holds in the line |
| `Deck.FormatRuns` | src/io/parsers/deck.py:138 | a formatted line has the pattern's runs: digits, no `(`, set-code characters, letters and digits |
| `Deck.FormatGroups` | src/io/parsers/deck.py:138 | the groups of a formatted line are its pieces |
| `Deck.FormatMatches` | src/io/parsers/deck.py:138 | the card pattern matches a formatted line with its own pieces |
| `Deck.CutsMatch` | src/io/parsers/deck.py:138 | a line cut as the pattern says is matched with the groups between the cuts |
| `Deck.FormatGroupsAt` | src/io/parsers/deck.py:138 | the groups of a formatted line, the name padded |
| `Deck.NameGroupPadded` | src/io/parsers/deck.py:138 | a name between single spaces is captured as it is |
| `Deck.ParseLineFormat` | src/io/parsers/deck.py:202-216 | a formatted line parses to its own pieces; acceptance is then the reference validation's |
| `Deck.PiecesUnpadded` | src/io/parsers/deck.py:210-213 | the pieces have nothing to strip and the quantity is its digits' value |
| `Deck.FormatStripped` | src/io/parsers/deck.py:191-199 | a formatted line has nothing to strip and is no section header |
| `Deck.ParseLineMatched` | src/io/parsers/deck.py:207-216 | a matched line gives the reference of its stripped groups, or "Invalid card reference data" |
| `Deck.ParseLineRoundTrip` | src/io/parsers/deck.py:164-216 | a reference written in the documented format, with a 3-character set code and quantity ≥ 1, parses back to itself |
| `Deck.BoltExample` | src/io/parsers/deck.py:164-216 | `2 Lightning Bolt (LEA) 168` parses as written |
| `Deck.BoltPieces` | src/io/parsers/deck.py:167-168 | that line is in the documented format |
| `Deck.SplitCardExample` | src/io/parsers/deck.py:164-216 | a split card's name with ` // ` is kept whole |
| `Deck.SplitCardPieces` | src/io/parsers/deck.py:167-168 | that line is in the documented format |
| `Deck.ShortSetCode` | src/io/parsers/deck.py:207-216 | a 2-character set code matches the pattern but fails reference validation |
| `Deck.ShortSetCodePieces` | src/io/parsers/deck.py:167-168 | that line is in the documented format |
| `Deck.HeaderAndBlank` | src/io/parsers/deck.py:190-199 | `Sideboard:` is rejected as a section header and logged once; an empty line is rejected silently |
| `Deck.HeaderPieces` | src/io/parsers/deck.py:139 | `Sideboard:` strips to itself and is a header |
| `Deck.SideboardIsHeader` | src/io/parsers/deck.py:139 | `Sideboard:` matches the section pattern |
| `Deck.ParseLineUnmatched` | src/io/parsers/deck.py:202-204 | a line the pattern does not match is "Invalid line format: <line>" |
| `Deck.DotInQuantity` | src/io/parsers/deck.py:202-204 | `1.5 Card (SET) 123` is an invalid line format |
| `Deck.SignInQuantity` | src/io/parsers/deck.py:202-204 | `-1 Card (SET) 123` is an invalid line format |
| `Deck.BlankIsAllSpace` | src/io/parsers/deck.py:311 | a blank line is all whitespace |
| `Deck.BlankIffStripEmpty` | src/io/parsers/deck.py:311 | a line is skipped iff it strips to nothing |
| `Deck.ParseLineContract` | src/io/parsers/deck.py:164-216 | `parse_line` gives valid references and logs errors only for section headers |
| `Deck.LinesAccounting` | src/io/parsers/deck.py:307-320 | every non-blank line gives one reference or one warning, and errors are logged exactly for section headers |
| `Deck.LinesValid` | src/io/parsers/deck.py:311-314 | every reference kept is valid |
| `Deck.ValidSnoc` | src/io/parsers/deck.py:314 | appending a valid reference keeps all valid |
| `Deck.AddLineCounts` | src/io/parsers/deck.py:311-318 | a non-blank line adds one reference or one warning |
| `Deck.LinesInOrder` | src/io/parsers/deck.py:307-325 | the references are those of the accepted lines, in file order |
| `Deck.TracedSnoc` | src/io/parsers/deck.py:308-318 | one more line keeps the trace, adding its reference when accepted |
| `Deck.TracedAccepted` | src/io/parsers/deck.py:313-314 | an accepted line's reference is appended |
| `Deck.TracedSkipped` | src/io/parsers/deck.py:315-318 | a rejected line adds nothing |
| `Deck.DeckFileSpec` | src/io/parsers/deck.py:307-325 | the references of the accepted lines, or EmptyDeckError exactly when no line is accepted |
| `Deck.DeckListParser.constructor` | src/io/parsers/deck.py:141-162 | the parser logs to the given logger |
| `Deck.DeckFileAccounting` | src/io/parsers/deck.py:307-325 | the references are valid, references and warnings account for the non-blank lines, and errors for the headers |
| `Deck.DeckListSpec` | src/io/parsers/deck.py:259-262 | an empty deck surfaces as ValueError "No valid card references found in deck list", with one more error logged |
| `Deck.DeckListParser.ParseDeckListFile` | src/io/parsers/deck.py:268-325 | the file loop's result and log are the file specification's |
| `Deck.DeckListParser.ParseDeckList` | src/io/parsers/deck.py:218-266 | the result and log are the deck-list specification's |
| `Deck.LineLoopStep` | src/io/parsers/deck.py:308-320 | one pass of the file loop keeps the references and log equal to the prefix's specification |
| `CardResolver.MatchingNames` | src/analysis/card_resolver.py:44 | a matching name starts with the reference; `front // back` matches `front`; a name matches itself |
| `CardResolver.MatchesCardNameExamples` | src/analysis/card_resolver.py:44 | "Test Card" and "Test Card // Side B" match "Test Card"; "Different Card" does not |
| `CardResolver.NameOf` | src/analysis/card_resolver.py:89 | a card without `name` has the name "" |
| `CardResolver.CardsOf` | src/analysis/card_resolver.py:46-55 | a set without `cards` has no cards |
| `CardResolver.FirstWhereIsFirst` | src/analysis/card_resolver.py:88-95 | the first search finds the lowest-index card with the property, and none iff no card has it |
| `CardResolver.FirstWhereSnoc` | src/analysis/card_resolver.py:88-95 | a card at the end changes the first match only when there was none |
| `CardResolver.ExactAt` | src/analysis/card_resolver.py:88-95 | the first card whose name matches and whose `str(number)` is the collector number is the exact match |
| `CardResolver.NoExact` | src/analysis/card_resolver.py:88-95 | with no such card there is no exact match |
| `CardResolver.Candidates` | src/analysis/card_resolver.py:111-114 | the fallback visits the cards of every set but the requested one, in archive order |
| `CardResolver.KeepStep` | src/analysis/card_resolver.py:114-126 | one card of the fallback loop |
| `CardResolver.SetStep` | src/analysis/card_resolver.py:111-126 | one set of the fallback loop; the requested set is skipped |
| `CardResolver.FallbackDone` | src/analysis/card_resolver.py:128-132 | after the last set the loop has computed the fallback |
| `CardResolver.KeepAllAppend` | src/analysis/card_resolver.py:114-126 | the fallback loop over two lists in a row |
| `CardResolver.NameMatchNotEmpty` | src/analysis/card_resolver.py:124 | for a non-empty reference name a matching card is never the empty dict |
| `CardResolver.KeepAllIsFirst` | src/analysis/card_resolver.py:124-126 | the loop keeps the first matching card |
| `CardResolver.FallbackIsFirstNameMatch` | src/analysis/card_resolver.py:97-132 | the fallback is the first name match in archive order outside the requested set, and none iff no such card exists |
| `CardResolver.SetsOf` | src/analysis/card_resolver.py:111 | `archive["data"]` is a dictionary of readable sets |
| `CardResolver.FoundLog` | src/analysis/card_resolver.py:93 | a found card logs at most one line, never a warning |
| `CardResolver.NoDataSection` | src/analysis/card_resolver.py:149-151 | an archive without `data` gives `None` and one warning |
| `CardResolver.ExactTakesPrecedence` | src/analysis/card_resolver.py:154-156 | an exact match wins over any fallback |
| `CardResolver.FindCardIsExactThenFallback` | src/analysis/card_resolver.py:134-162 | the result is the exact match if any, else the fallback; it is `None` iff neither search finds a card |
| `CardResolver.CardMatcher.constructor` | src/analysis/card_resolver.py:24-30 | the matcher logs to the given logger |
| `CardResolver.CardMatcher.FindExactMatch` | src/analysis/card_resolver.py:77-95 | the loop returns the exact match and logs one debug line when it finds it |
| `CardResolver.CardMatcher.FindFallbackMatch` | src/analysis/card_resolver.py:97-132 | the loops return the fallback match and log one debug line when it is used |
| `CardResolver.CardMatcher.FindCard` | src/analysis/card_resolver.py:134-162 | the result and log are the lookup specification's |
| `Schema.Walk` | src/analysis/schema.py:49-75 | a walk that gets through any key ends on a truthy value |
| `Schema.GetRequiredFields` | src/analysis/schema.py:36-79 | a `None` schema gives `None` |
| `Schema.WalkAppend` | src/analysis/schema.py:49-75 | walking a path in two parts is walking the first, then the second |
| `Schema.BrokenLevel` | src/analysis/schema.py:49-79 | a level that is not a dict, or whose next key is missing or empty, gives `None` |
| `Schema.Nest` | src/analysis/schema.py:49-75 | a nest along a non-empty path is a non-empty dict |
| `Schema.WalkNest` | src/analysis/schema.py:49-75 | walking the path a nest was built from reaches its content |
| `Schema.RequiredRoundTrip` | src/analysis/schema.py:49-77 | the `required` value at the card items is the result |
| `Schema.ItemsWithoutRequired` | src/analysis/schema.py:77 | card items without `required` give [] |
| `Schema.NoPropertiesExamples` | src/analysis/schema.py:49-51 | no `properties`, an empty one or a string one gives `None` |
| `Config.DefaultVersion` | src/core/config.py:63-65 | the default version prints as 1.0.0 |
| `Config.ToString` | src/core/config.py:67-68 | `str(v)` is `major.minor.patch` and splits back into the three components |
| `Config.FromStr` | src/core/config.py:114-124 | a string is accepted iff it has exactly three dot-separated integers, which become the components |
| `Config.FromStrToString` | src/core/config.py:114-122 | `from_str(str(v)) == v` |
| `Config.FromStrExample` | src/core/config.py:114-122 | `from_str("1.2.3")` is 1.2.3 |
| `Config.TwoComponentsRejected` | src/core/config.py:115-116 | `1.2` is rejected |
| `Config.NoDotsRejected` | src/core/config.py:115-116 | `invalid` is rejected |
| `Config.WordComponentRejected` | src/core/config.py:118-124 | `1.2.three` is rejected |
| `Config.NotAnInteger` | src/core/config.py:119-121 | `int("three")` raises |
| `Config.SplitThree` | src/core/config.py:114 | three dot-free pieces joined by dots split back into them |
| `Config.Le` | src/core/config.py:82-85 | `<=` is `<` or `==` |
| `Config.Gt` | src/core/config.py:87-90 | `a > b` iff `b < a` |
| `Config.Ge` | src/core/config.py:92-95 | `a >= b` iff `b <= a` |
| `Config.OrderIsTotal` | src/core/config.py:70-95 | the ordering is a strict total order consistent with `==` |
| `Config.OrderExamples` | tests/test_config.py:48-74 | the ordering comparisons the tests make around 1.2.3, and that a version is not below itself |
| `Config.CompatibleMeansNotOlder` | src/core/config.py:140-142 | compatibility needs the same major; for major ≠ 0 it is `>=` on (major, minor); for major 0 any minor will do |
| `Config.CompatibleIgnoresPatch` | src/core/config.py:140-142 | patch is ignored, and every version is compatible with itself |
| `Config.CompatibleExamples` | src/core/config.py:140-142 | 1.2 is compatible with 1.0 and 1.1; 1.0 is not compatible with 1.1; majors 1 and 2 are incompatible both ways |
| `Config.ValidateLogLevel` | src/core/config.py:228-231 | accepted iff the upper-cased level is DEBUG, INFO, WARNING, ERROR or CRITICAL, returning it upper-cased |
| `Config.UpperIdempotent` | src/core/config.py:229-231 | upper-casing twice is upper-casing once |
| `Config.SettingsLogLevel` | src/core/config.py:207-231 | the setting strips surrounding whitespace, then is accepted iff the upper-cased level is standard; an unpadded level validates as `validate_log_level` alone |
| `Config.PaddedLevel` | src/core/config.py:207-231 | a level with a leading space and a trailing newline validates exactly as the bare level |
| `Config.ValidateLogLevelIdempotent` | src/core/config.py:228-231 | a validated level validates to itself |
| `Config.LogLevelExamples` | src/core/config.py:228-231 | `debug` and `DEBUG` give `DEBUG`; `INVALID` is rejected |
| `Decks.SchemaKeys` | src/analysis/decks.py:101 | the required fields, as names, in order |
| `Decks.WithQuantity` | src/analysis/decks.py:125 | `quantity` becomes the reference's quantity and no other field changes |
| `Decks.ProcessedOutcome` | src/analysis/decks.py:116-127 | a processing error fails; a truthy processed card is extracted with its quantity; otherwise the card is dropped |
| `Decks.LookupOf` | src/analysis/decks.py:111-130 | a reference is missing iff no truthy card is found; an extracted card carries the reference's quantity |
| `Decks.LookupMissing` | src/analysis/decks.py:128-130 | a reference with no truthy card is missing |
| `Decks.LookupFound` | src/analysis/decks.py:114-127 | a found card's outcome is what processing made of it |
| `Decks.Lookups` | src/analysis/decks.py:111 | one lookup per reference, in deck-list order |
| `Decks.RunSnoc` | src/analysis/decks.py:111-130 | the loop over one more reference |
| `Decks.AdvanceStep` | src/analysis/decks.py:111-130 | one pass of the loop moves the cards, counts, error and log on by one reference |
| `Decks.CountMissing` | src/analysis/decks.py:128-129 | at most one missing per reference |
| `Decks.Kept` | src/analysis/decks.py:123-126 | at most one kept reference per reference |
| `Decks.RunCounts` | src/analysis/decks.py:114-129 | `cards_found` equals the number of extracted cards, and found + missing ≤ total |
| `Decks.ErrorSticks` | src/analysis/decks.py:116-121 | once processing raised, later references change nothing |
| `Decks.MissingCounted` | src/analysis/decks.py:128-129 | `cards_missing` is the number of references with no card |
| `Decks.QuantitiesInOrder` | src/analysis/decks.py:123-126 | each extracted card carries its reference's quantity, in deck-list order |
| `Decks.ExtractQuantities` | src/analysis/decks.py:111-130 | over the whole deck: missing and found counts and the quantities of the extracted cards |
| `Decks.MissingAreNotFound` | src/analysis/decks.py:112-114 | the missing references are exactly those without a truthy card |
| `Decks.ProcessedFields` | src/analysis/decks.py:116-125 | with a required-field list, a processed card holds those fields the base card has, with its values, plus `quantity`, and nothing else |
| `Decks.QuantityAdds` | src/analysis/decks.py:125 | adding `quantity` adds that field and changes no other key's presence |
| `Decks.LookupFields` | src/analysis/decks.py:114-126 | an extracted card holds `quantity`, every required field the base card always has, and nothing outside the list |
| `Decks.RunFields` | src/analysis/decks.py:111-130 | the loop keeps only such cards |
| `Decks.ExtractFields` | src/analysis/decks.py:116-126 | every extracted card holds `quantity` and each listed default field, and no key outside the list and `quantity` |
| `Decks.ExtractKeysExactly` | src/analysis/decks.py:116-126 | when every listed field is a base-card field, each extracted card's keys are exactly the list plus `quantity` |
| `Decks.NameTypeColorsAreDefaults` | src/analysis/cards.py:207-221 | `name`, `type` and `colors` are base-card fields, so extracting with them gives exactly those keys and `quantity` |
| `Decks.NothingFound` | src/analysis/decks.py:128-130 | with no card found, every reference is missing and nothing is extracted |
| `Decks.DeckExtractorService.constructor` | src/analysis/decks.py:42-53 | zero statistics and a matcher that shares the service's logger |
| `Decks.DeckExtractorService.Advance` | src/analysis/decks.py:111-130 | one pass of the loop: the cards, the statistics and the log move on by one reference |
| `Decks.DeckExtractorService.ExtractDeckCards` | src/analysis/decks.py:94-130 | the statistics are reset, `total_cards` is the number of references, and the counts, log and cards are those of the loop over them (or its processing error) |
| `Decks.DeckExtractorService.ExtractCards` | src/analysis/decks.py:105-130 | the loop's statistics, log and cards are the specification's |

## Left out

- I/O is left out:
  - the CLI (`src/interface/cli.py`);
  - dependency wiring (`src/utils/container.py`);
  - service orchestration (`src/services/analysis.py`);
  - archive loading (`src/analysis/archive.py`) and the deck writer (`src/analysis/writer.py`);
  - configuration loading and saving, YAML, JSON and environment variables.
  These open files or talk to the environment.
- The JSON parser is an input: its events are a sequence, read once for the metadata and once for the cards. Stream seeking, tqdm progress and ijson's `JSONError` (src/services/file_stream.py:256-259) are left out.
- `json.dumps` is a function parameter and `json.loads` is replaced by its result. Their text formats are not modelled.
- A failure of `json.dumps` inside `_write_metadata` (MetadataError) and the catch-all `FileProcessorError` are left out, because `dumps` is total here.
- The thread pool is left out: the executor, `wait` with a timeout, and `future.cancel`. Each chunk's pool run is an input: the pool failed, `wait` failed, or each future finished or was still running.
- Logging handlers and message formatting are left out. A log entry is a level and the fixed prefix of the message.
- The fallback-candidate and other `_print_debug` lines of the card matcher are not modelled. Neither is the missing-card listing printed by `extract_deck_cards` (src/analysis/decks.py:133-136). Both are console output.
- `Decks.DeckExtractorService.ExtractDeckCards`: takes the parsed references and the loaded archive as parameters and returns the cards. Reading the files and `DeckWriter.write_deck` are left out. A deck list that fails to parse raises before the loop, and that path is not modelled.
- `Decks.DeckExtractorService.ExtractDeckCards`: requires the `required` list to be a list of strings, because the card processor is given names.
- The string-path branch of `get_required_fields` reads a file, so it is left out.
- `ExtractDeckCards` always uses the pipeline's own card processor (`process_card` of `cards.py`).
- `CardResolver.CardMatcher.FindCard` requires a readable archive. `data` must be a dict of sets, each with a list of dict cards whose `name` is a string and whose `number` is a string, int, bool or `None`. A malformed archive raises in Python, and that is not modelled.
- `JsonValues.PyStr`: `str()` of a float, list or dict is not modelled; a card `number` of those kinds is outside the matcher's readable archive.
- `Writer.Message`: a card `name` that is a float, list or dict is shown as an empty string instead of its `str()` text.
- `Writer.CardSetWriter.GetStats` returns a copy of the counters, while `get_stats` returns the live `WriterStats` object, which later writes keep changing.
- `Filters.EqReflexive`: NaN is not modelled. `json.loads` accepts `NaN`, and Python's `eq` is false on it, so `eq` is not reflexive on every value Python decodes.
- `JsonValues.ToNumber`: numbers are exact reals. Rounding to a double is not modelled, so ordering comparisons on integers above 2^53 (such as 9007199254740993 against 9007199254740992) can differ from Python's `float()` results. Nor is overflow: `float()` of an integer of 2^1024 or more raises `OverflowError`, which src/processing/filters.py:67-73 does not catch (it catches only `TypeError` and `ValueError`), so it escapes `safe_numeric_comparison` and src/analysis/cards.py:124-129 re-raises it as the `ValueError` "Error applying operator …". The model converts such integers exactly and compares them.
- `Models.SuccessRate` computes in exact rationals; Python computes `found / total * 100` in floats. "100 exactly when every card was found" holds here because the arithmetic is exact; float rounding is not modelled.
- `FileStream.CardStepOf`: `dumps` is total here. With ijson, a non-integer number arrives as a `Decimal`, `json.dumps` raises `TypeError` at src/io/writers/card.py:212, which the handler at line 224 does not catch (no error is counted), and the stream fails through src/services/file_stream.py:114-117; that failure is not modelled.
- `Batch.BatchProcessor.ProcessChunk` yields a snapshot of the statistics. src/processing/batch.py:608 and :613 yield the same mutable `stats` object each time, so a caller holding an earlier yield sees later updates; that aliasing is not modelled.
- `JsonValues.ToNumber` accepts an optional sign, digits and an optional decimal point. `float()` quirks are not modelled: exponents, surrounding whitespace, underscores, `inf` and `nan`.
- `PyStrings.ParseInt` accepts an optional sign and ASCII digits. Python `int()` leniency beyond that (surrounding whitespace, `"1_0"`, non-ASCII digits) is not modelled.
- `PyStrings.Upper` upper-cases ASCII letters only. Unicode case mapping is not modelled.
- `Deck.ParseLine`: the regular expression's `\d` is taken as ASCII digits; Python's Unicode `\d` is wider. `\s` uses the whitespace set of `str.strip` (`PyStrings.IsSpace`).
- `Deck.DeckListParser.ParseDeckList` starts from the lines of a file that opened. The file-not-found and read-error branches (src/io/parsers/deck.py:255-258, 263-266) are left out.
- The catch-all warning of `parse_deck_list_file` (src/io/parsers/deck.py:319-320) is left out, because `parse_line` raises nothing else here.
- The catch-all "Error processing card data" branch of `process_card_data` (src/services/filter_parser.py:142-145) is left out, because assigning into a dictionary cannot fail.
- The `dict` branch of `ConfigVersion.from_str` (pydantic construction) is left out.
- The text-versus-binary dispatch of the writer's `_write` is left out: the sink is a string. IOError from the sink, and `__enter__`/`__exit__`, are left out as well.
- `FilterParser.ValidatePrefix`: a non-string prefix is represented by `None`.

## Findings

| source | as written | input that shows it | evidently intended | confidence | as-written member | corrected member |
|---|---|---|---|---|---|---|
| src/services/file_stream.py:212 | `process_file_stream` creates the `CardSetWriter` but never calls `close`. When the stream ends, buffered cards are never flushed and the last set's `]}` is never written (src/services/file_stream.py:265 writes only `}`). | An archive with one set holding one card that passes the filters, with `buffer_size` ≥ 2: the card stays in the buffer, and the output is the header, the set header and `}`. | Close the writer before the final `}`, so every accepted card reaches the sink and the output does not depend on `buffer_size`. | not executed | `FileStream.BufferedCardIsLost` | `FileStream.ClosedStreamAnyBufferSize` |

=== FILE: batch.dfy ===
/**
 * Batch accounting: a list of cards is cut into chunks; a small chunk is
 * processed card by card, a larger one through a thread pool whose futures
 * are then classified. Every card ends up counted exactly once as
 * processed, filtered or failed, and the running totals are handed out
 * after each chunk.
 *
 * The thread pool is not modelled: what it did to a chunk is an input
 * (`PoolRun`), down to the fate of each card's future.
 */
module Batch {
  import opened Wrappers
  import opened PyStrings
  import opened JsonValues
  import opened Logging
  import Cards

  /** The card processor with its filters, schema and languages bound in: a card, `None` (filtered) or an error. */
  type CardFunction = Record -> Result<Option<Record>, Cards.CardError>

  /** `(card_result, is_filtered, is_failed)`. */
  datatype Triple = Triple(card: Option<Record>, isFiltered: bool, isFailed: bool)

  const CardErrorMessage := "Error processing card "
  const BatchErrorMessage := "Batch processing error: "

  function TimeoutWarning(count: int): string
  {
    IntToString(count) + " cards did not complete processing within timeout"
  }

  /** Exactly one of the three: a card came back, it was filtered, it failed. */
  predicate OneOutcome(t: Triple)
  {
    (t.card.Some? && !t.isFiltered && !t.isFailed) || (t.card.None? && t.isFiltered != t.isFailed)
  }

  /** `process_single_card`: the processor's answer as a triple; an error is logged and counts as failed. */
  function SingleCard(processed: Result<Option<Record>, Cards.CardError>): (r: Logged<Triple>)
    ensures OneOutcome(r.value)
    ensures r.value.isFailed <==> processed.Failure?
    ensures r.value.isFiltered <==> processed == Success(None)
    ensures r.value.card.Some? <==> processed.Success? && processed.value.Some?
    ensures r.value.card.Some? ==> processed == Success(r.value.card)
    ensures |r.log| == (if processed.Failure? then 1 else 0)
  {
    match processed
    case Success(c) => Logged(Triple(c, c.None?, false), [])
    case Failure(_) => Logged(Triple(None, false, true), [LogEntry(Error, CardErrorMessage)])
  }

  // ---------------------------------------------------------------------
  // Counting

  /** The cards a chunk returns with its filtered and failed counts. */
  datatype Counts = Counts(cards: seq<Record>, filtered: nat, failed: nat)

  const NoCounts := Counts([], 0, 0)

  function Plus(a: Counts, b: Counts): Counts
  {
    Counts(a.cards + b.cards, a.filtered + b.filtered, a.failed + b.failed)
  }

  function LoggedPlus(a: Logged<Counts>, b: Logged<Counts>): Logged<Counts>
  {
    Logged(Plus(a.value, b.value), a.log + b.log)
  }

  lemma LoggedPlusAssoc(p: Logged<Counts>, q: Logged<Counts>, r: Logged<Counts>)
    ensures LoggedPlus(LoggedPlus(p, q), r) == LoggedPlus(p, LoggedPlus(q, r))
  {
    assert (p.value.cards + q.value.cards) + r.value.cards == p.value.cards + (q.value.cards + r.value.cards);
    assert (p.log + q.log) + r.log == p.log + (q.log + r.log);
  }

  lemma LoggedPlusUnit(p: Logged<Counts>)
    ensures LoggedPlus(Logged(NoCounts, []), p) == p && LoggedPlus(p, Logged(NoCounts, [])) == p
  {
    assert [] + p.value.cards == p.value.cards && p.value.cards + [] == p.value.cards;
    assert [] + p.log == p.log && p.log + [] == p.log;
  }

  /** How many cards the counts account for. */
  function Accounted(c: Counts): nat
  {
    |c.cards| + c.filtered + c.failed
  }

  /** What one triple adds: the card if there is one, one filtered or one failed. */
  function Tally(t: Triple): (c: Counts)
    ensures OneOutcome(t) ==> Accounted(c) == 1
  {
    Counts(if t.card.Some? then [t.card.value] else [], if t.isFiltered then 1 else 0, if t.isFailed then 1 else 0)
  }

  // ---------------------------------------------------------------------
  // The sequential path

  /** The loop over a small chunk, card by card, in order. */
  function SequentialSpec(cards: seq<Record>, process: CardFunction): Logged<Counts>
    decreases |cards|
  {
    if cards == [] then Logged(NoCounts, [])
    else
      var single := SingleCard(process(cards[|cards| - 1]));
      LoggedPlus(SequentialSpec(cards[..|cards| - 1], process), Logged(Tally(single.value), single.log))
  }

  /** One more card through the loop. */
  lemma SequentialStep(cards: seq<Record>, i: nat, process: CardFunction)
    requires i < |cards|
    ensures var single := SingleCard(process(cards[i]));
            SequentialSpec(cards[..i + 1], process)
            == LoggedPlus(SequentialSpec(cards[..i], process), Logged(Tally(single.value), single.log))
  {
    assert cards[..i + 1][..i] == cards[..i];
  }

  /** One pass of the sequential loop keeps its counters and log equal to the specification of the prefix. */
  lemma SequentialLoopStep(cards: seq<Record>, i: nat, process: CardFunction,
                           processed: seq<Record>, filtered: nat, failed: nat,
                           start: seq<LogEntry>, entries: seq<LogEntry>)
    requires i < |cards|
    requires Counts(processed, filtered, failed) == SequentialSpec(cards[..i], process).value
    requires entries == start + SequentialSpec(cards[..i], process).log
    ensures var single := SingleCard(process(cards[i]));
            var t := single.value;
            && Counts(if t.card.Some? then processed + [t.card.value] else processed,
                      if t.isFiltered then filtered + 1 else filtered,
                      if t.isFailed then failed + 1 else failed)
               == SequentialSpec(cards[..i + 1], process).value
            && entries + single.log == start + SequentialSpec(cards[..i + 1], process).log
  {
    var single := SingleCard(process(cards[i]));
    SequentialStep(cards, i, process);
    AppendAssoc(start, SequentialSpec(cards[..i], process).log, single.log);
  }

  /** The cards the processor returns, in input order: an independent description of what the loop keeps. */
  function Survivors(cards: seq<Record>, process: CardFunction): seq<Record>
    decreases |cards|
  {
    if cards == [] then []
    else
      match process(cards[0])
      case Success(Some(c)) => [c] + Survivors(cards[1..], process)
      case _ => Survivors(cards[1..], process)
  }

  lemma {:induction false} SurvivorsAppend(cards: seq<Record>, card: Record, process: CardFunction)
    ensures Survivors(cards + [card], process) == Survivors(cards, process) + Survivors([card], process)
    decreases |cards|
  {
    if cards != [] {
      assert (cards + [card])[1..] == cards[1..] + [card];
      SurvivorsAppend(cards[1..], card, process);
    }
  }

  /**
   * The sequential path accounts for every card exactly once, and returns
   * the processed cards in input order.
   */
  lemma {:induction false} SequentialAccounting(cards: seq<Record>, process: CardFunction)
    ensures Accounted(SequentialSpec(cards, process).value) == |cards|
    ensures SequentialSpec(cards, process).value.cards == Survivors(cards, process)
    decreases |cards|
  {
    if cards != [] {
      var front := cards[..|cards| - 1];
      var last := cards[|cards| - 1];
      SequentialAccounting(front, process);
      assert cards == front + [last];
      SurvivorsAppend(front, last, process);
      assert Survivors([last], process) == Tally(SingleCard(process(last)).value).cards by {
        assert [last][1..] == [];
      }
    }
  }

  // ---------------------------------------------------------------------
  // The parallel path: classifying futures

  /** What a finished future holds: `None`, something that is not a 3-tuple, or a triple. */
  datatype TaskValue = NoResult | WrongShape | Returned(triple: Triple)

  /** A future in the `done` set. */
  datatype FutureOutcome = Cancelled | Raised | Completed(value: TaskValue)

  /**
   * `_process_single_future` after the `cancelled()` check: a cancelled
   * future, one that raised, `None` or a malformed value count as failed
   * (the raise and the malformed value are logged); a triple is tallied.
   */
  function FutureSpec(o: FutureOutcome): (r: Logged<Counts>)
    ensures !(o.Completed? && o.value.Returned?) ==> r.value == Counts([], 0, 1)
    ensures o.Completed? && o.value.Returned? && OneOutcome(o.value.triple) ==> Accounted(r.value) == 1 && r.log == []
    ensures forall k :: 0 <= k < |r.log| ==> r.log[k].level == Error
  {
    match o
    case Cancelled => Logged(Counts([], 0, 1), [])
    case Raised => Logged(Counts([], 0, 1), [LogEntry(Error, CardErrorMessage)])
    case Completed(NoResult) => Logged(Counts([], 0, 1), [])
    case Completed(WrongShape) => Logged(Counts([], 0, 1), [LogEntry(Error, CardErrorMessage)])
    case Completed(Returned(t)) => Logged(Tally(t), [])
  }

  /**
   * `_process_single_future` on its own: there, a cancelled future raises
   * from `result()` like one whose task raised.
   */
  function SingleFutureSpec(o: FutureOutcome): (r: Logged<Counts>)
    ensures !o.Cancelled? ==> r == FutureSpec(o)
    ensures o.Cancelled? ==> r.value == Counts([], 0, 1) && r.log == [LogEntry(Error, CardErrorMessage)]
  {
    if o.Cancelled? then FutureSpec(Raised) else FutureSpec(o)
  }

  /** `_handle_completed_futures`: the futures of `done` in iteration order. */
  function CompletedSpec(done: seq<FutureOutcome>): Logged<Counts>
    decreases |done|
  {
    if done == [] then Logged(NoCounts, [])
    else LoggedPlus(CompletedSpec(done[..|done| - 1]), FutureSpec(done[|done| - 1]))
  }

  lemma {:induction false} CompletedAppend(a: seq<FutureOutcome>, b: seq<FutureOutcome>)
    ensures CompletedSpec(a + b) == LoggedPlus(CompletedSpec(a), CompletedSpec(b))
    decreases |b|
  {
    if b == [] {
      assert a + b == a;
      LoggedPlusUnit(CompletedSpec(a));
    } else {
      var front, x := b[..|b| - 1], b[|b| - 1];
      assert (a + b)[..|a + b| - 1] == a + front && (a + b)[|a + b| - 1] == x;
      CompletedAppend(a, front);
      LoggedPlusAssoc(CompletedSpec(a), CompletedSpec(front), FutureSpec(x));
    }
  }

  /** The first future, then the rest. */
  lemma CompletedCons(f: FutureOutcome, rest: seq<FutureOutcome>)
    ensures CompletedSpec([f] + rest) == LoggedPlus(FutureSpec(f), CompletedSpec(rest))
  {
    CompletedAppend([f], rest);
    assert CompletedSpec([f]) == LoggedPlus(Logged(NoCounts, []), FutureSpec(f)) by {
      assert [f][..0] == [];
    }
    LoggedPlusUnit(FutureSpec(f));
  }

  /** One more future classified. */
  lemma CompletedStep(done: seq<FutureOutcome>, i: nat)
    requires i < |done|
    ensures CompletedSpec(done[..i + 1]) == LoggedPlus(CompletedSpec(done[..i]), FutureSpec(done[i]))
  {
    assert done[..i + 1][..i] == done[..i];
  }

  /** Two results equal up to the order of their cards and log lines. */
  predicate SameUpToOrder(x: Logged<Counts>, y: Logged<Counts>)
  {
    x.value.filtered == y.value.filtered && x.value.failed == y.value.failed
    && multiset(x.value.cards) == multiset(y.value.cards) && multiset(x.log) == multiset(y.log)
  }

  /** Adding the same part in another place keeps two results the same up to order. */
  lemma MovedPart(f: Logged<Counts>, p: Logged<Counts>, x: Logged<Counts>, q: Logged<Counts>)
    requires SameUpToOrder(f, LoggedPlus(p, q))
    ensures SameUpToOrder(LoggedPlus(f, x), LoggedPlus(LoggedPlus(p, x), q))
  {
    assert multiset(f.value.cards) == multiset(p.value.cards) + multiset(q.value.cards);
    assert multiset(f.log) == multiset(p.log) + multiset(q.log);
  }

  /**
   * `done` is a set, so its iteration order is not fixed; whatever the
   * order, the counts, the multiset of returned cards and the multiset of
   * log lines are the same.
   */
  lemma {:induction false} CompletedOrderIrrelevant(a: seq<FutureOutcome>, b: seq<FutureOutcome>)
    requires multiset(a) == multiset(b)
    ensures SameUpToOrder(CompletedSpec(a), CompletedSpec(b))
    decreases |a|
  {
    if a == [] {
      assert |multiset(b)| == 0;
      assert b == [];
    } else {
      var front, x := a[..|a| - 1], a[|a| - 1];
      assert x in multiset(b) by {
        assert a == front + [x];
        assert x in multiset(a);
      }
      var j :| 0 <= j < |b| && b[j] == x;
      var before, after := b[..j], b[j + 1..];
      RemoveOne(a, b, j);
      CompletedOrderIrrelevant(front, before + after);
      CompletedSplit(before, x, after);
      assert CompletedSpec(b) == LoggedPlus(LoggedPlus(CompletedSpec(before), FutureSpec(x)), CompletedSpec(after));
      assert CompletedSpec(a) == LoggedPlus(CompletedSpec(front), FutureSpec(x));
      MovedPart(CompletedSpec(front), CompletedSpec(before), FutureSpec(x), CompletedSpec(after));
    }
  }

  /** Taking the last future of `a` and the same future out of `b` leaves two permutations of each other. */
  lemma RemoveOne(a: seq<FutureOutcome>, b: seq<FutureOutcome>, j: nat)
    requires |a| > 0 && j < |b| && b[j] == a[|a| - 1] && multiset(a) == multiset(b)
    ensures b == b[..j] + [b[j]] + b[j + 1..]
    ensures multiset(a[..|a| - 1]) == multiset(b[..j] + b[j + 1..])
  {
    var front, x := a[..|a| - 1], a[|a| - 1];
    var rest := b[..j] + b[j + 1..];
    assert a == front + [x];
    assert b == (b[..j] + [x]) + b[j + 1..];
    assert multiset(front) == multiset(a) - multiset{x};
    assert multiset(b) == multiset(rest) + multiset{x};
  }

  /** The classification of `before + [x] + after`, and of `before + after`, piece by piece. */
  lemma CompletedSplit(before: seq<FutureOutcome>, x: FutureOutcome, after: seq<FutureOutcome>)
    ensures CompletedSpec(before + [x] + after)
            == LoggedPlus(LoggedPlus(CompletedSpec(before), FutureSpec(x)), CompletedSpec(after))
    ensures CompletedSpec(before + after) == LoggedPlus(CompletedSpec(before), CompletedSpec(after))
  {
    CompletedAppend(before + [x], after);
    CompletedAppend(before, [x]);
    assert CompletedSpec([x]) == LoggedPlus(Logged(NoCounts, []), FutureSpec(x)) by {
      assert [x][..0] == [];
    }
    LoggedPlusUnit(FutureSpec(x));
    CompletedAppend(before, after);
  }

  /** What `wait` reports: it raised, or the finished futures and the number still running. */
  datatype WaitOutcome = WaitFailed | Waited(done: seq<FutureOutcome>, notDone: nat)

  /**
   * `_process_futures`: the finished futures are classified, the ones still
   * running count as failed under a single warning; if `wait` itself
   * raises, the whole chunk fails with an empty result.
   */
  function ProcessFuturesSpec(w: WaitOutcome, futureCount: nat): (r: Logged<Counts>)
    ensures w.WaitFailed? ==> r.value == Counts([], 0, futureCount) && r.log == [LogEntry(Error, BatchErrorMessage)]
    ensures w.Waited? ==> r.value.cards == CompletedSpec(w.done).value.cards
                          && r.value.filtered == CompletedSpec(w.done).value.filtered
                          && r.value.failed == CompletedSpec(w.done).value.failed + w.notDone
    ensures w.Waited? ==> CountLevel(r.log, Warning) == CountLevel(CompletedSpec(w.done).log, Warning)
                                                      + (if w.notDone > 0 then 1 else 0)
  {
    match w
    case WaitFailed => Logged(Counts([], 0, futureCount), [LogEntry(Error, BatchErrorMessage)])
    case Waited(done, notDone) =>
      var c := CompletedSpec(done);
      var warning := if notDone > 0 then [LogEntry(Warning, TimeoutWarning(notDone))] else [];
      CountLevelAppend(c.log, warning, Warning);
      Logged(c.value.(failed := c.value.failed + notDone), c.log + warning)
  }

  /** Classifying futures logs only errors: the only warning is the timeout warning. */
  lemma {:induction false} CompletedLogsNoWarning(done: seq<FutureOutcome>)
    ensures CountLevel(CompletedSpec(done).log, Warning) == 0
    decreases |done|
  {
    if done != [] {
      CompletedLogsNoWarning(done[..|done| - 1]);
      var f := FutureSpec(done[|done| - 1]);
      CountLevelAppend(CompletedSpec(done[..|done| - 1]).log, f.log, Warning);
    }
  }

  // ---------------------------------------------------------------------
  // The parallel path: what the pool did to a chunk

  /** The fate of one card's future. */
  datatype Fate = Finishes | CancelledEarly | RaisesInPool | StillRunning

  /**
   * What the pool did to a chunk: creating it or submitting to it raised,
   * `wait` raised, or `wait` returned with each card's future in the given
   * state (indexed by the card's position in the chunk).
   */
  datatype PoolRun = PoolFailed | WaitFailedInPool | PoolWaited(fate: nat -> Fate)

  /** The future of card `i` once `wait` returns, when it is done. */
  function FutureOf(card: Record, process: CardFunction, fate: Fate): FutureOutcome
  {
    match fate
    case CancelledEarly => Cancelled
    case RaisesInPool => Raised
    case _ => Completed(Returned(SingleCard(process(card)).value))
  }

  /** The `done` futures of cards `i..`, in chunk order, and the log lines their workers wrote. */
  function DoneFrom(cards: seq<Record>, process: CardFunction, fate: nat -> Fate, i: nat): (r: Logged<seq<FutureOutcome>>)
    requires i <= |cards|
    decreases |cards| - i
  {
    if i == |cards| then Logged([], [])
    else
      var rest := DoneFrom(cards, process, fate, i + 1);
      if fate(i) == StillRunning then rest
      else
        var workerLog := if fate(i) == Finishes then SingleCard(process(cards[i])).log else [];
        Logged([FutureOf(cards[i], process, fate(i))] + rest.value, workerLog + rest.log)
  }

  /** The number of cards from `i` on whose future is still running at the timeout. */
  function NotDoneFrom(cards: seq<Record>, fate: nat -> Fate, i: nat): (n: nat)
    requires i <= |cards|
    ensures n <= |cards| - i
    decreases |cards| - i
  {
    if i == |cards| then 0
    else (if fate(i) == StillRunning then 1 else 0) + NotDoneFrom(cards, fate, i + 1)
  }

  /**
   * `process_parallel`: `None` when the pool itself raised (the exception
   * leaves the chunk); otherwise the workers' log lines followed by what
   * `_process_futures` makes of the wait.
   */
  function ParallelSpec(cards: seq<Record>, process: CardFunction, run: PoolRun): Option<Logged<Counts>>
  {
    match run
    case PoolFailed => None
    case WaitFailedInPool => Some(ProcessFuturesSpec(WaitFailed, |cards|))
    case PoolWaited(fate) =>
      var done := DoneFrom(cards, process, fate, 0);
      var r := ProcessFuturesSpec(Waited(done.value, NotDoneFrom(cards, fate, 0)), |cards|);
      Some(Logged(r.value, done.log + r.log))
  }

  /** Every done future is counted once: together with the running ones they make up the chunk. */
  lemma {:induction false} DoneAccounting(cards: seq<Record>, process: CardFunction, fate: nat -> Fate, i: nat)
    requires i <= |cards|
    ensures var done := DoneFrom(cards, process, fate, i).value;
            Accounted(CompletedSpec(done).value) == |done| && |done| + NotDoneFrom(cards, fate, i) == |cards| - i
    decreases |cards| - i
  {
    if i < |cards| {
      var rest := DoneFrom(cards, process, fate, i + 1).value;
      assert Accounted(CompletedSpec(rest).value) == |rest| && |rest| + NotDoneFrom(cards, fate, i + 1) == |cards| - i - 1 by {
        DoneAccounting(cards, process, fate, i + 1);
      }
      if fate(i) != StillRunning {
        var f := FutureOf(cards[i], process, fate(i));
        assert Accounted(FutureSpec(f).value) == 1 by {
          if fate(i) == Finishes {
            assert OneOutcome(SingleCard(process(cards[i])).value);
          }
        }
        calc {
          Accounted(CompletedSpec(DoneFrom(cards, process, fate, i).value).value);
          { assert DoneFrom(cards, process, fate, i).value == [f] + rest; }
          Accounted(CompletedSpec([f] + rest).value);
          { CompletedCons(f, rest); }
          Accounted(FutureSpec(f).value) + Accounted(CompletedSpec(rest).value);
          |[f] + rest|;
        }
      }
    }
  }

  /** A card whose future finishes: its future is done and its worker's log lines come first. */
  lemma DoneFinishes(cards: seq<Record>, process: CardFunction, fate: nat -> Fate, i: nat)
    requires i < |cards| && fate(i) == Finishes
    ensures var single := SingleCard(process(cards[i]));
            var rest := DoneFrom(cards, process, fate, i + 1);
            DoneFrom(cards, process, fate, i) == Logged([Completed(Returned(single.value))] + rest.value, single.log + rest.log)
  {
  }

  /** With every future finished, the parallel path gives exactly what the sequential path gives, logs included. */
  lemma {:induction false} AllFinishedIsSequential(cards: seq<Record>, process: CardFunction, fate: nat -> Fate, i: nat)
    requires i <= |cards|
    requires forall k :: i <= k < |cards| ==> fate(k) == Finishes
    ensures NotDoneFrom(cards, fate, i) == 0
    ensures var done := DoneFrom(cards, process, fate, i);
            Logged(CompletedSpec(done.value).value, done.log) == SequentialSpec(cards[i..], process)
    decreases |cards| - i
  {
    if i == |cards| {
      assert cards[i..] == [];
    } else {
      var rest := DoneFrom(cards, process, fate, i + 1);
      var single := SingleCard(process(cards[i]));
      var first := Logged(Tally(single.value), single.log);
      var f := Completed(Returned(single.value));
      assert NotDoneFrom(cards, fate, i + 1) == 0 by {
        AllFinishedIsSequential(cards, process, fate, i + 1);
      }
      calc {
        Logged(CompletedSpec(DoneFrom(cards, process, fate, i).value).value, DoneFrom(cards, process, fate, i).log);
        { DoneFinishes(cards, process, fate, i); }
        Logged(CompletedSpec([f] + rest.value).value, single.log + rest.log);
        { assert FutureSpec(f) == Logged(Tally(single.value), []);
          CompletedCons(f, rest.value); }
        LoggedPlus(first, Logged(CompletedSpec(rest.value).value, rest.log));
        { AllFinishedIsSequential(cards, process, fate, i + 1); }
        LoggedPlus(first, SequentialSpec(cards[i + 1..], process));
        { SequentialFrom(cards, i, process); }
        SequentialSpec(cards[i..], process);
      }
    }
  }

  /** The loop over a suffix: the suffix's first card, then the rest. */
  lemma SequentialFrom(cards: seq<Record>, i: nat, process: CardFunction)
    requires i < |cards|
    ensures var single := SingleCard(process(cards[i]));
            SequentialSpec(cards[i..], process)
            == LoggedPlus(Logged(Tally(single.value), single.log), SequentialSpec(cards[i + 1..], process))
  {
    var tail := cards[i + 1..];
    assert cards[i..] == [cards[i]] + tail;
    SequentialCons(cards[i], tail, process);
  }

  /** The sequential loop read from the front: the first card's tally, then the rest. */
  lemma SequentialCons(card: Record, cards: seq<Record>, process: CardFunction)
    ensures var single := SingleCard(process(card));
            SequentialSpec([card] + cards, process) ==
            LoggedPlus(Logged(Tally(single.value), single.log), SequentialSpec(cards, process))
  {
    var single := SingleCard(process(card));
    var first := Logged(Tally(single.value), single.log);
    SequentialAppend([card], cards, process);
    SequentialSingle(card, process);
    LoggedPlusUnit(first);
  }

  /** The loop over two lists in a row: the first list's counts and log, then the second's. */
  lemma {:induction false} SequentialAppend(a: seq<Record>, b: seq<Record>, process: CardFunction)
    ensures SequentialSpec(a + b, process) == LoggedPlus(SequentialSpec(a, process), SequentialSpec(b, process))
    decreases |b|
  {
    if b == [] {
      assert a + b == a;
      LoggedPlusUnit(SequentialSpec(a, process));
    } else {
      var front, last := b[..|b| - 1], b[|b| - 1];
      var t := SingleCard(process(last));
      var tail := Logged(Tally(t.value), t.log);
      calc {
        SequentialSpec(a + b, process);
        { SequentialLast(a + b, process);
          assert (a + b)[..|a + b| - 1] == a + front; }
        LoggedPlus(SequentialSpec(a + front, process), tail);
        { SequentialAppend(a, front, process); }
        LoggedPlus(LoggedPlus(SequentialSpec(a, process), SequentialSpec(front, process)), tail);
        { LoggedPlusAssoc(SequentialSpec(a, process), SequentialSpec(front, process), tail); }
        LoggedPlus(SequentialSpec(a, process), LoggedPlus(SequentialSpec(front, process), tail));
        { SequentialLast(b, process); }
        LoggedPlus(SequentialSpec(a, process), SequentialSpec(b, process));
      }
    }
  }

  /** The loop over one card. */
  lemma SequentialSingle(card: Record, process: CardFunction)
    ensures var single := SingleCard(process(card));
            SequentialSpec([card], process) == LoggedPlus(Logged(Tally(single.value), single.log), Logged(NoCounts, []))
  {
    var single := SingleCard(process(card));
    var first := Logged(Tally(single.value), single.log);
    calc {
      SequentialSpec([card], process);
      { SequentialLast([card], process); }
      LoggedPlus(SequentialSpec([card][..0], process), first);
      { assert [card][..0] == []; }
      LoggedPlus(Logged(NoCounts, []), first);
      { LoggedPlusUnit(first); }
      LoggedPlus(first, Logged(NoCounts, []));
    }
  }

  /** The loop over a non-empty list: everything before the last card, then the last card. */
  lemma SequentialLast(cards: seq<Record>, process: CardFunction)
    requires cards != []
    ensures var single := SingleCard(process(cards[|cards| - 1]));
            SequentialSpec(cards, process)
            == LoggedPlus(SequentialSpec(cards[..|cards| - 1], process), Logged(Tally(single.value), single.log))
  {
  }

  // ---------------------------------------------------------------------
  // A chunk

  /** Chunks of at most this many cards are processed without the pool. */
  const SequentialLimit := 5

  /** The pool never has more workers than this. */
  const MaxWorkers := 10

  /** `min(len(cards), 10)`: on the parallel path the pool is never empty. */
  function PoolSize(chunkLength: nat): (size: nat)
    ensures size <= MaxWorkers && size <= chunkLength
    ensures size == chunkLength || size == MaxWorkers
    ensures chunkLength > SequentialLimit ==> size > SequentialLimit
  {
    if chunkLength < MaxWorkers then chunkLength else MaxWorkers
  }

  /** `process_batch_chunk`: card by card up to five cards, through the pool beyond; `None` when the pool raised. */
  function ChunkSpec(cards: seq<Record>, process: CardFunction, run: PoolRun): Option<Logged<Counts>>
  {
    if |cards| <= SequentialLimit then Some(SequentialSpec(cards, process))
    else ParallelSpec(cards, process, run)
  }

  /**
   * A chunk either raises (only when the pool itself fails) or accounts for
   * each of its cards exactly once; on the pool path, the cards still
   * running at the timeout are failures and draw exactly one warning.
   */
  lemma ChunkAccounting(cards: seq<Record>, process: CardFunction, run: PoolRun)
    ensures var r := ChunkSpec(cards, process, run);
            (r.None? <==> |cards| > SequentialLimit && run.PoolFailed?)
            && (r.Some? ==> Accounted(r.value.value) == |cards|)
    ensures |cards| > SequentialLimit && run.PoolWaited? ==>
              var r := ChunkSpec(cards, process, run).value;
              var notDone := NotDoneFrom(cards, run.fate, 0);
              r.value.failed >= notDone && CountLevel(r.log, Warning) == (if notDone > 0 then 1 else 0)
  {
    if |cards| <= SequentialLimit {
      SequentialAccounting(cards, process);
    } else if run.PoolWaited? {
      var done := DoneFrom(cards, process, run.fate, 0);
      DoneAccounting(cards, process, run.fate, 0);
      CompletedLogsNoWarning(done.value);
      DoneLogsNoWarning(cards, process, run.fate, 0);
      var w := ProcessFuturesSpec(Waited(done.value, NotDoneFrom(cards, run.fate, 0)), |cards|);
      CountLevelAppend(done.log, w.log, Warning);
    }
  }

  /** The workers log only errors. */
  lemma {:induction false} DoneLogsNoWarning(cards: seq<Record>, process: CardFunction, fate: nat -> Fate, i: nat)
    requires i <= |cards|
    ensures CountLevel(DoneFrom(cards, process, fate, i).log, Warning) == 0
    decreases |cards| - i
  {
    if i < |cards| {
      DoneLogsNoWarning(cards, process, fate, i + 1);
      var rest := DoneFrom(cards, process, fate, i + 1);
      if fate(i) != StillRunning {
        var workerLog := if fate(i) == Finishes then SingleCard(process(cards[i])).log else [];
        CountLevelAppend(workerLog, rest.log, Warning);
      }
    }
  }

  /**
   * On the pool path a chunk gives the same counts, and the same returned
   * cards up to order, whatever order the `done` set is read in; with
   * every future finished, it gives exactly what the card-by-card loop gives.
   */
  lemma ParallelMatchesSequential(cards: seq<Record>, process: CardFunction, fate: nat -> Fate,
                                  order: seq<FutureOutcome>)
    requires forall k :: 0 <= k < |cards| ==> fate(k) == Finishes
    requires multiset(order) == multiset(DoneFrom(cards, process, fate, 0).value)
    ensures ParallelSpec(cards, process, PoolWaited(fate)) == Some(SequentialSpec(cards, process))
    ensures SameUpToOrder(CompletedSpec(order), Logged(SequentialSpec(cards, process).value, []))
  {
    var done := DoneFrom(cards, process, fate, 0);
    AllFinishedIsSequential(cards, process, fate, 0);
    assert cards[0..] == cards;
    CompletedLogsEmpty(cards, process, fate, 0);
    var w := ProcessFuturesSpec(Waited(done.value, 0), |cards|);
    assert w.log == [] + [];
    assert done.log + w.log == done.log;
    CompletedOrderIrrelevant(order, done.value);
  }

  /** Finished futures of the card processor log nothing when classified. */
  lemma {:induction false} CompletedLogsEmpty(cards: seq<Record>, process: CardFunction, fate: nat -> Fate, i: nat)
    requires i <= |cards|
    requires forall k :: i <= k < |cards| ==> fate(k) == Finishes
    ensures CompletedSpec(DoneFrom(cards, process, fate, i).value).log == []
    decreases |cards| - i
  {
    if i < |cards| {
      var rest := DoneFrom(cards, process, fate, i + 1).value;
      var f := FutureOf(cards[i], process, Finishes);
      assert DoneFrom(cards, process, fate, i).value == [f] + rest;
      CompletedLogsEmpty(cards, process, fate, i + 1);
      CompletedCons(f, rest);
      assert FutureSpec(f).log == [];
    }
  }

  // ---------------------------------------------------------------------
  // The batch

  /** The running totals handed out with every chunk. */
  datatype Stats = Stats(totalCards: int, processedCards: int, filteredCards: int, failedCards: int)

  function StatsAccounted(s: Stats): int
  {
    s.processedCards + s.filteredCards + s.failedCards
  }

  /** `BatchStatistics.update`: the three counters grow by the given amounts. */
  function UpdateStats(s: Stats, processed: nat, filtered: nat, failed: nat): (r: Stats)
    ensures r.totalCards == s.totalCards
    ensures StatsAccounted(r) == StatsAccounted(s) + processed + filtered + failed
    ensures NoLess(s, r)
  {
    Stats(s.totalCards, s.processedCards + processed, s.filteredCards + filtered, s.failedCards + failed)
  }

  /** `t` has the same total as `s` and no counter below `s`'s. */
  predicate NoLess(s: Stats, t: Stats)
  {
    t.totalCards == s.totalCards && s.processedCards <= t.processedCards
    && s.filteredCards <= t.filteredCards && s.failedCards <= t.failedCards
  }

  /** One `yield`: the chunk's returned cards and the totals at that point. */
  datatype Yield = Yield(cards: seq<Record>, stats: Stats)

  /**
   * One pass of the chunk loop: the chunk's result updates the totals; a
   * chunk that raised is logged and all of its cards count as failed.
   */
  function ChunkYield(chunk: seq<Record>, process: CardFunction, run: PoolRun, stats: Stats): (r: Logged<Yield>)
    ensures NoLess(stats, r.value.stats)
    ensures StatsAccounted(r.value.stats) == StatsAccounted(stats) + |chunk|
    ensures r.value.stats.processedCards == stats.processedCards + |r.value.cards|
  {
    ChunkAccounting(chunk, process, run);
    match ChunkSpec(chunk, process, run)
    case None => Logged(Yield([], UpdateStats(stats, 0, 0, |chunk|)), [LogEntry(Error, BatchErrorMessage)])
    case Some(r) =>
      Logged(Yield(r.value.cards, UpdateStats(stats, |r.value.cards|, r.value.filtered, r.value.failed)), r.log)
  }

  function Min(a: int, b: int): int
  {
    if a <= b then a else b
  }

  /** The chunks starting at offset `i`, `batchSize` cards each; `schedule(i)` is what the pool did to the chunk at `i`. */
  function BatchFrom(cards: seq<Record>, process: CardFunction, batchSize: nat, schedule: nat -> PoolRun, i: nat,
                     stats: Stats): Logged<seq<Yield>>
    requires batchSize > 0
    decreases |cards| - i
  {
    if i >= |cards| then Logged([], [])
    else
      var y := ChunkYield(cards[i..Min(i + batchSize, |cards|)], process, schedule(i), stats);
      var rest := BatchFrom(cards, process, batchSize, schedule, i + batchSize, y.value.stats);
      Logged([y.value] + rest.value, y.log + rest.log)
  }

  /** One chunk, then the chunks after it. */
  lemma BatchStep(cards: seq<Record>, process: CardFunction, batchSize: nat, schedule: nat -> PoolRun, i: nat,
                  stats: Stats)
    requires batchSize > 0 && i < |cards|
    ensures var y := ChunkYield(cards[i..Min(i + batchSize, |cards|)], process, schedule(i), stats);
            var rest := BatchFrom(cards, process, batchSize, schedule, i + batchSize, y.value.stats);
            BatchFrom(cards, process, batchSize, schedule, i, stats) == Logged([y.value] + rest.value, y.log + rest.log)
  {
  }

  /** What one pass of the chunk loop keeps: the yields so far and the ones still to come make up the whole run. */
  lemma BatchLoopStep(cards: seq<Record>, process: CardFunction, batchSize: nat, schedule: nat -> PoolRun, i: nat,
                      stats: Stats, ys: seq<Yield>, entries: seq<LogEntry>, start: seq<LogEntry>, all: Logged<seq<Yield>>,
                      i': nat, stats': Stats, ys': seq<Yield>, entries': seq<LogEntry>)
    requires batchSize > 0 && i < |cards|
    requires ys + BatchFrom(cards, process, batchSize, schedule, i, stats).value == all.value
    requires entries + BatchFrom(cards, process, batchSize, schedule, i, stats).log == start + all.log
    requires var c := ChunkYield(cards[i..Min(i + batchSize, |cards|)], process, schedule(i), stats);
             i' == i + batchSize && stats' == c.value.stats && ys' == ys + [c.value] && entries' == entries + c.log
    ensures ys' + BatchFrom(cards, process, batchSize, schedule, i', stats').value == all.value
    ensures entries' + BatchFrom(cards, process, batchSize, schedule, i', stats').log == start + all.log
  {
    var c := ChunkYield(cards[i..Min(i + batchSize, |cards|)], process, schedule(i), stats);
    var rest := BatchFrom(cards, process, batchSize, schedule, i + batchSize, c.value.stats);
    BatchStep(cards, process, batchSize, schedule, i, stats);
    AppendAssoc(ys, [c.value], rest.value);
    AppendAssoc(entries, c.log, rest.log);
  }

  /** Past the end of the list nothing is left to yield. */
  lemma BatchLoopEnd(cards: seq<Record>, process: CardFunction, batchSize: nat, schedule: nat -> PoolRun, i: nat,
                     stats: Stats, ys: seq<Yield>, entries: seq<LogEntry>, start: seq<LogEntry>, all: Logged<seq<Yield>>)
    requires batchSize > 0 && i >= |cards|
    requires ys + BatchFrom(cards, process, batchSize, schedule, i, stats).value == all.value
    requires entries + BatchFrom(cards, process, batchSize, schedule, i, stats).log == start + all.log
    ensures ys == all.value && entries == start + all.log
  {
    assert ys + [] == ys && entries + [] == entries;
  }

  /** `range` refuses a zero step. */
  datatype BatchError = ZeroBatchSize

  /**
   * `process_batch`: nothing for an empty list; otherwise the totals start
   * at the list's length and zero, and each chunk yields once. A zero batch
   * size raises when the chunks are first asked for; a negative one gives
   * no chunk at all.
   */
  function BatchSpec(cards: seq<Record>, process: CardFunction, batchSize: int, schedule: nat -> PoolRun)
    : Result<Logged<seq<Yield>>, BatchError>
  {
    if |cards| == 0 then Success(Logged([], []))
    else if batchSize == 0 then Failure(ZeroBatchSize)
    else if batchSize < 0 then Success(Logged([], []))
    else Success(BatchFrom(cards, process, batchSize, schedule, 0, Stats(|cards|, 0, 0, 0)))
  }

  /**
   * From offset `i`: one yield per remaining chunk, whose totals keep their
   * total, never fall below the totals it started from and never decrease
   * from one yield to the next.
   */
  lemma {:induction false} BatchFromMonotone(cards: seq<Record>, process: CardFunction, batchSize: nat,
                                             schedule: nat -> PoolRun, i: nat, stats: Stats)
    requires batchSize > 0
    ensures var ys := BatchFrom(cards, process, batchSize, schedule, i, stats).value;
            && (|ys| == 0 <==> i >= |cards|)
            && (forall k :: 0 <= k < |ys| ==> NoLess(stats, ys[k].stats))
            && (forall k :: 0 <= k < |ys| - 1 ==> NoLess(ys[k].stats, ys[k + 1].stats))
    decreases |cards| - i
  {
    if i < |cards| {
      var y := ChunkYield(cards[i..Min(i + batchSize, |cards|)], process, schedule(i), stats).value;
      var rest := BatchFrom(cards, process, batchSize, schedule, i + batchSize, y.stats).value;
      BatchStep(cards, process, batchSize, schedule, i, stats);
      BatchFromMonotone(cards, process, batchSize, schedule, i + batchSize, y.stats);
      MonotoneCons(stats, y, rest);
    }
  }

  /** Putting a yield whose totals are no less than `stats` in front of a monotone run keeps it monotone. */
  lemma MonotoneCons(stats: Stats, y: Yield, rest: seq<Yield>)
    requires NoLess(stats, y.stats)
    requires forall k :: 0 <= k < |rest| ==> NoLess(y.stats, rest[k].stats)
    requires forall k :: 0 <= k < |rest| - 1 ==> NoLess(rest[k].stats, rest[k + 1].stats)
    ensures var ys := [y] + rest;
            && (forall k :: 0 <= k < |ys| ==> NoLess(stats, ys[k].stats))
            && (forall k :: 0 <= k < |ys| - 1 ==> NoLess(ys[k].stats, ys[k + 1].stats))
  {
    var ys := [y] + rest;
    forall k | 0 <= k < |ys| ensures NoLess(stats, ys[k].stats) {
      if k > 0 {
        assert ys[k] == rest[k - 1];
      }
    }
    forall k | 0 <= k < |ys| - 1 ensures NoLess(ys[k].stats, ys[k + 1].stats) {
      assert ys[k + 1] == rest[k];
      if k > 0 {
        assert ys[k] == rest[k - 1];
      }
    }
  }

  /**
   * From offset `i`: after the `k`-th yield the totals account for exactly
   * the cards up to the end of chunk `k`; the last yield reaches the end of
   * the list.
   */
  lemma {:induction false} BatchFromProgress(cards: seq<Record>, process: CardFunction, batchSize: nat,
                                             schedule: nat -> PoolRun, i: nat, stats: Stats)
    requires batchSize > 0
    ensures var ys := BatchFrom(cards, process, batchSize, schedule, i, stats).value;
            && (forall k :: 0 <= k < |ys| ==>
                  StatsAccounted(ys[k].stats) == StatsAccounted(stats) + Min(i + (k + 1) * batchSize, |cards|) - i)
            && (|ys| > 0 ==> StatsAccounted(ys[|ys| - 1].stats) == StatsAccounted(stats) + |cards| - i)
    decreases |cards| - i
  {
    if i < |cards| {
      var j := i + batchSize;
      var y := ChunkYield(cards[i..Min(j, |cards|)], process, schedule(i), stats).value;
      var rest := BatchFrom(cards, process, batchSize, schedule, j, y.stats).value;
      BatchStep(cards, process, batchSize, schedule, i, stats);
      BatchFromProgress(cards, process, batchSize, schedule, j, y.stats);
      BatchFromMonotone(cards, process, batchSize, schedule, j, y.stats);
      ProgressCons(StatsAccounted(stats), y, rest, i, batchSize, |cards|);
    }
  }

  /**
   * Putting the yield of the chunk at `i` in front of the yields from
   * `i + batchSize` on: the counts of the whole run are those of the rest,
   * shifted by one chunk.
   */
  lemma ProgressCons(base: int, y: Yield, rest: seq<Yield>, i: nat, batchSize: nat, n: nat)
    requires batchSize > 0 && i < n
    requires StatsAccounted(y.stats) == base + Min(i + batchSize, n) - i
    requires forall k :: 0 <= k < |rest| ==>
               StatsAccounted(rest[k].stats) == StatsAccounted(y.stats) + Min(i + batchSize + (k + 1) * batchSize, n) - (i + batchSize)
    requires |rest| > 0 ==> StatsAccounted(rest[|rest| - 1].stats) == StatsAccounted(y.stats) + n - (i + batchSize)
    requires |rest| == 0 <==> i + batchSize >= n
    ensures var ys := [y] + rest;
            && (forall k :: 0 <= k < |ys| ==> StatsAccounted(ys[k].stats) == base + Min(i + (k + 1) * batchSize, n) - i)
            && StatsAccounted(ys[|ys| - 1].stats) == base + n - i
  {
    var ys := [y] + rest;
    forall k | 0 <= k < |ys|
      ensures StatsAccounted(ys[k].stats) == base + Min(i + (k + 1) * batchSize, n) - i
    {
      if k > 0 {
        assert ys[k] == rest[k - 1];
        assert i + batchSize + k * batchSize == i + (k + 1) * batchSize by {
          MulSucc(k, batchSize);
        }
      }
    }
    if |rest| > 0 {
      assert ys[|ys| - 1] == rest[|rest| - 1];
    }
  }

  lemma MulSucc(k: int, b: int)
    ensures (k + 1) * b == k * b + b
  {
  }

  /**
   * What a consumer of `process_batch` sees: nothing for an empty list; one
   * yield per chunk of `batchSize` cards, in order, whose totals keep the
   * list's length as total, never decrease, and account for exactly the
   * cards of the chunks so far; after the last yield every card is counted.
   */
  lemma BatchAccounting(cards: seq<Record>, process: CardFunction, batchSize: int, schedule: nat -> PoolRun)
    ensures |cards| == 0 ==> BatchSpec(cards, process, batchSize, schedule) == Success(Logged([], []))
    ensures |cards| > 0 && batchSize == 0 ==> BatchSpec(cards, process, batchSize, schedule) == Failure(ZeroBatchSize)
    ensures |cards| > 0 && batchSize > 0 ==>
              var ys := BatchSpec(cards, process, batchSize, schedule).value.value;
              && |ys| > 0
              && (forall k :: 0 <= k < |ys| ==> ys[k].stats.totalCards == |cards|)
              && (forall k :: 0 <= k < |ys| - 1 ==> NoLess(ys[k].stats, ys[k + 1].stats))
              && (forall k :: 0 <= k < |ys| ==> StatsAccounted(ys[k].stats) == Min((k + 1) * batchSize, |cards|))
              && StatsAccounted(ys[|ys| - 1].stats) == |cards|
  {
    if |cards| > 0 && batchSize > 0 {
      var ys := BatchSpec(cards, process, batchSize, schedule).value.value;
      BatchFromMonotone(cards, process, batchSize, schedule, 0, Stats(|cards|, 0, 0, 0));
      BatchFromProgress(cards, process, batchSize, schedule, 0, Stats(|cards|, 0, 0, 0));
    }
  }

  // ---------------------------------------------------------------------
  // The objects

  /** `ProcessingResults`: what the classification of the `done` futures accumulates. */
  class ProcessingResults {
    var processedCards: seq<Record>
    var filteredCount: nat
    var failedCount: nat

    constructor()
      ensures Snapshot() == NoCounts
    {
      processedCards := [];
      filteredCount := 0;
      failedCount := 0;
    }

    function Snapshot(): Counts
      reads this
    {
      Counts(processedCards, filteredCount, failedCount)
    }
  }

  /** `ParallelProcessor`: submits a chunk to the pool and classifies the futures. */
  class ParallelProcessor {
    const logger: Logger

    constructor(logger: Logger)
      ensures this.logger == logger
    {
      this.logger := logger;
    }

    /** `_update_results`: each flag and the card, independently. */
    method UpdateResults(t: Triple, results: ProcessingResults)
      modifies results
      ensures results.Snapshot() == Plus(old(results.Snapshot()), Tally(t))
    {
      if t.isFailed {
        results.failedCount := results.failedCount + 1;
      }
      if t.isFiltered {
        results.filteredCount := results.filteredCount + 1;
      }
      if t.card.Some? {
        results.processedCards := results.processedCards + [t.card.value];
      }
    }

    /**
     * `_process_single_future`: a future whose `result()` raises (a
     * cancelled one included) or whose value is malformed is logged and
     * counted as failed; `None` is counted as failed silently.
     */
    method ProcessSingleFuture(future: FutureOutcome, results: ProcessingResults)
      modifies results, logger
      ensures results.Snapshot() == Plus(old(results.Snapshot()), SingleFutureSpec(future).value)
      ensures logger.entries == old(logger.entries) + SingleFutureSpec(future).log
    {
      match future
      case Cancelled =>
        logger.Log(Error, CardErrorMessage);
        results.failedCount := results.failedCount + 1;
      case Raised =>
        logger.Log(Error, CardErrorMessage);
        results.failedCount := results.failedCount + 1;
      case Completed(NoResult) =>
        results.failedCount := results.failedCount + 1;
      case Completed(WrongShape) =>
        logger.Log(Error, CardErrorMessage);
        results.failedCount := results.failedCount + 1;
      case Completed(Returned(t)) =>
        UpdateResults(t, results);
    }

    /** `_handle_completed_futures`: every future of `done`, in iteration order. */
    method HandleCompletedFutures(done: seq<FutureOutcome>) returns (results: ProcessingResults)
      modifies logger
      ensures fresh(results)
      ensures results.Snapshot() == CompletedSpec(done).value
      ensures logger.entries == old(logger.entries) + CompletedSpec(done).log
    {
      results := new ProcessingResults();
      ghost var acc := Logged(NoCounts, []);
      var i := 0;
      while i < |done|
        invariant i <= |done|
        invariant acc == CompletedSpec(done[..i])
        invariant results.Snapshot() == acc.value
        invariant logger.entries == old(logger.entries) + acc.log
      {
        ghost var f := FutureSpec(done[i]);
        HandleCompletedFuture(done[i], results);
        AppendAssoc(old(logger.entries), acc.log, f.log);
        CompletedStep(done, i);
        acc := LoggedPlus(acc, f);
        i := i + 1;
      }
      assert acc == CompletedSpec(done) by {
        assert done[..i] == done;
      }
      assert done[..i] == done;
    }

    /** The body of `_handle_completed_futures`' loop: a cancelled future fails without a log line. */
    method HandleCompletedFuture(future: FutureOutcome, results: ProcessingResults)
      modifies results, logger
      ensures results.Snapshot() == Plus(old(results.Snapshot()), FutureSpec(future).value)
      ensures logger.entries == old(logger.entries) + FutureSpec(future).log
    {
      if future.Cancelled? {
        results.failedCount := results.failedCount + 1;
        assert logger.entries == old(logger.entries) + [];
      } else {
        ProcessSingleFuture(future, results);
      }
    }

    /** `_handle_timeout`: one warning naming how many futures are still running, which all count as failed. */
    method HandleTimeout(notDone: nat) returns (count: nat)
      modifies logger
      ensures count == notDone
      ensures logger.entries == old(logger.entries) + (if notDone > 0 then [LogEntry(Warning, TimeoutWarning(notDone))] else [])
    {
      if notDone > 0 {
        logger.Log(Warning, TimeoutWarning(notDone));
        return notDone;
      }
      return 0;
    }

    /** `_process_futures`. */
    method ProcessFutures(w: WaitOutcome, futureCount: nat) returns (r: Counts)
      modifies logger
      ensures r == ProcessFuturesSpec(w, futureCount).value
      ensures logger.entries == old(logger.entries) + ProcessFuturesSpec(w, futureCount).log
    {
      match w
      case WaitFailed =>
        logger.Log(Error, BatchErrorMessage);
        r := Counts([], 0, futureCount);
      case Waited(done, notDone) =>
        var results := HandleCompletedFutures(done);
        var failedFromTimeout := HandleTimeout(notDone);
        r := Counts(results.processedCards, results.filteredCount, results.failedCount + failedFromTimeout);
    }

    /**
     * `process_parallel`: `None` when the pool raised. Otherwise every
     * card is submitted; a future that finishes runs `process_single_card`
     * on its card, whose log lines land before the classification's.
     */
    method ProcessParallel(cards: seq<Record>, process: CardFunction, run: PoolRun) returns (r: Option<Counts>)
      modifies logger
      ensures var s := ParallelSpec(cards, process, run);
              (r.None? <==> s.None?)
              && (r.None? ==> logger.entries == old(logger.entries))
              && (r.Some? ==> r.value == s.value.value && logger.entries == old(logger.entries) + s.value.log)
    {
      match run
      case PoolFailed =>
        return None;
      case WaitFailedInPool =>
        var c := ProcessFutures(WaitFailed, |cards|);
        return Some(c);
      case PoolWaited(fate) =>
        var done, notDone := SubmitTasks(cards, process, fate);
        ghost var w := ProcessFuturesSpec(Waited(done, notDone), |cards|);
        AppendAssoc(old(logger.entries), DoneFrom(cards, process, fate, 0).log, w.log);
        var c := ProcessFutures(Waited(done, notDone), |cards|);
        return Some(c);
    }

    /**
     * `_submit_tasks` and the pool's workers: every card is submitted; a
     * future that finishes ran `process_single_card` on its card, and
     * `wait` reports it done, in submission order, while the ones still
     * running are only counted.
     */
    method SubmitTasks(cards: seq<Record>, process: CardFunction, fate: nat -> Fate)
      returns (done: seq<FutureOutcome>, notDone: nat)
      modifies logger
      ensures done == DoneFrom(cards, process, fate, 0).value
      ensures notDone == NotDoneFrom(cards, fate, 0)
      ensures logger.entries == old(logger.entries) + DoneFrom(cards, process, fate, 0).log
    {
      done, notDone := [], 0;
      var i := 0;
      while i < |cards|
        invariant i <= |cards|
        invariant done + DoneFrom(cards, process, fate, i).value == DoneFrom(cards, process, fate, 0).value
        invariant logger.entries + DoneFrom(cards, process, fate, i).log
                  == old(logger.entries) + DoneFrom(cards, process, fate, 0).log
        invariant notDone + NotDoneFrom(cards, fate, i) == NotDoneFrom(cards, fate, 0)
      {
        ghost var rest := DoneFrom(cards, process, fate, i + 1);
        if fate(i) == StillRunning {
          notDone := notDone + 1;
        } else {
          if fate(i) == Finishes {
            var single := SingleCard(process(cards[i]));
            AppendAssoc(logger.entries, single.log, rest.log);
            logger.Append(single.log);
          } else {
            assert [] + rest.log == rest.log;
          }
          var f := FutureOf(cards[i], process, fate(i));
          AppendAssoc(done, [f], rest.value);
          done := done + [f];
        }
        i := i + 1;
      }
      assert done + [] == done && logger.entries + [] == logger.entries;
    }
  }

  /** `BatchStatistics`: the totals object `process_batch` updates and yields. */
  class BatchStatistics {
    var totalCards: int
    var processedCards: int
    var filteredCards: int
    var failedCards: int

    constructor(total: int)
      ensures Snapshot() == Stats(total, 0, 0, 0)
    {
      totalCards := total;
      processedCards := 0;
      filteredCards := 0;
      failedCards := 0;
    }

    function Snapshot(): Stats
      reads this
    {
      Stats(totalCards, processedCards, filteredCards, failedCards)
    }

    /** `update`: the counters grow, the total stays. */
    method Update(processed: nat, filtered: nat, failed: nat)
      modifies this
      ensures Snapshot() == UpdateStats(old(Snapshot()), processed, filtered, failed)
    {
      processedCards := processedCards + processed;
      filteredCards := filteredCards + filtered;
      failedCards := failedCards + failed;
    }
  }

  /** `BatchProcessor`, with the card processor's filters, schema and languages bound into `process`. */
  class BatchProcessor {
    const process: CardFunction
    const logger: Logger
    const parallel: ParallelProcessor

    /** The parallel processor reports through the same logger. */
    ghost predicate Valid()
      reads this
    {
      parallel.logger == logger
    }

    constructor(process: CardFunction, logger: Logger)
      ensures Valid() && this.process == process && this.logger == logger && fresh(parallel)
    {
      this.process := process;
      this.logger := logger;
      parallel := new ParallelProcessor(logger);
    }

    /** `process_single_card`. */
    method ProcessSingleCard(card: Record) returns (t: Triple)
      modifies logger
      ensures t == SingleCard(process(card)).value
      ensures logger.entries == old(logger.entries) + SingleCard(process(card)).log
    {
      var processed := process(card);
      if processed.Failure? {
        logger.Log(Error, CardErrorMessage);
        return Triple(None, false, true);
      }
      return Triple(processed.value, processed.value.None?, false);
    }

    /** `process_batch_chunk`: a loop over at most five cards, the pool beyond. */
    method ProcessBatchChunk(cards: seq<Record>, run: PoolRun) returns (r: Option<Counts>)
      requires Valid()
      modifies logger
      ensures var s := ChunkSpec(cards, process, run);
              (r.None? <==> s.None?)
              && (r.None? ==> logger.entries == old(logger.entries))
              && (r.Some? ==> r.value == s.value.value && logger.entries == old(logger.entries) + s.value.log)
    {
      if |cards| <= SequentialLimit {
        var c := ProcessSequentially(cards);
        return Some(c);
      }
      assert ChunkSpec(cards, process, run) == ParallelSpec(cards, process, run);
      r := parallel.ProcessParallel(cards, process, run);
    }

    /** The small-chunk branch of `process_batch_chunk`: card by card, in order. */
    method ProcessSequentially(cards: seq<Record>) returns (c: Counts)
      modifies logger
      ensures c == SequentialSpec(cards, process).value
      ensures logger.entries == old(logger.entries) + SequentialSpec(cards, process).log
    {
      var processedCards: seq<Record> := [];
      var filteredCount: nat := 0;
      var failedCount: nat := 0;
      for i := 0 to |cards|
        invariant Counts(processedCards, filteredCount, failedCount) == SequentialSpec(cards[..i], process).value
        invariant logger.entries == old(logger.entries) + SequentialSpec(cards[..i], process).log
      {
        ghost var e0 := logger.entries;
        var t := ProcessSingleCard(cards[i]);
        SequentialLoopStep(cards, i, process, processedCards, filteredCount, failedCount, old(logger.entries), e0);
        if t.card.Some? {
          processedCards := processedCards + [t.card.value];
        }
        if t.isFiltered {
          filteredCount := filteredCount + 1;
        }
        if t.isFailed {
          failedCount := failedCount + 1;
        }
      }
      assert cards[..|cards|] == cards;
      return Counts(processedCards, filteredCount, failedCount);
    }

    /**
     * One pass of `process_batch`'s loop, on the chunk at offset `i`: the
     * chunk's counts update the totals; if the chunk raises, the error is
     * logged and all of its cards count as failed. The yield carries the
     * totals as they now stand.
     */
    method ProcessChunk(cards: seq<Record>, batchSize: nat, schedule: nat -> PoolRun, i: nat, stats: BatchStatistics)
      returns (y: Yield)
      requires Valid() && batchSize > 0 && i < |cards|
      modifies logger, stats
      ensures var c := ChunkYield(cards[i..Min(i + batchSize, |cards|)], process, schedule(i), old(stats.Snapshot()));
              y == c.value && stats.Snapshot() == y.stats && logger.entries == old(logger.entries) + c.log
    {
      var chunk := cards[i..Min(i + batchSize, |cards|)];
      var counts := ProcessBatchChunk(chunk, schedule(i));
      match counts
      case None =>
        logger.Log(Error, BatchErrorMessage);
        stats.Update(0, 0, |chunk|);
        y := Yield([], stats.Snapshot());
      case Some(k) =>
        stats.Update(|k.cards|, k.filtered, k.failed);
        y := Yield(k.cards, stats.Snapshot());
    }

    /**
     * `process_batch`, run to the end: the yields in order. A zero batch
     * size fails before any chunk; the totals are yielded as they stand
     * after each chunk.
     */
    method ProcessBatch(cards: seq<Record>, batchSize: int, schedule: nat -> PoolRun)
      returns (r: Result<seq<Yield>, BatchError>)
      requires Valid()
      modifies logger
      ensures var s := BatchSpec(cards, process, batchSize, schedule);
              (r.Failure? <==> s.Failure?)
              && (r.Failure? ==> r.error == s.error && logger.entries == old(logger.entries))
              && (r.Success? ==> r.value == s.value.value && logger.entries == old(logger.entries) + s.value.log)
    {
      if |cards| == 0 {
        return Success([]);
      }
      var stats := new BatchStatistics(|cards|);
      if batchSize == 0 {
        return Failure(ZeroBatchSize);
      }
      if batchSize < 0 {
        return Success([]);
      }
      var ys := ProcessChunks(cards, batchSize, schedule, stats);
      return Success(ys);
    }

    /** The `for` loop of `process_batch`: one chunk of `batchSize` cards per pass, from offset 0. */
    method ProcessChunks(cards: seq<Record>, batchSize: nat, schedule: nat -> PoolRun, stats: BatchStatistics)
      returns (ys: seq<Yield>)
      requires Valid() && batchSize > 0
      modifies logger, stats
      ensures var all := BatchFrom(cards, process, batchSize, schedule, 0, old(stats.Snapshot()));
              ys == all.value && logger.entries == old(logger.entries) + all.log
    {
      ghost var all := BatchFrom(cards, process, batchSize, schedule, 0, stats.Snapshot());
      ys := [];
      var i: nat := 0;
      while i < |cards|
        invariant ys + BatchFrom(cards, process, batchSize, schedule, i, stats.Snapshot()).value == all.value
        invariant logger.entries + BatchFrom(cards, process, batchSize, schedule, i, stats.Snapshot()).log
                  == old(logger.entries) + all.log
        decreases |cards| - i
      {
        ghost var i0, s0, ys0, e0 := i, stats.Snapshot(), ys, logger.entries;
        var yielded := ProcessChunk(cards, batchSize, schedule, i, stats);
        ys := ys + [yielded];
        i := i + batchSize;
        BatchLoopStep(cards, process, batchSize, schedule, i0, s0, ys0, e0, old(logger.entries), all,
                      i, stats.Snapshot(), ys, logger.entries);
      }
      BatchLoopEnd(cards, process, batchSize, schedule, i, stats.Snapshot(), ys, logger.entries, old(logger.entries), all);
    }
  }
}

=== FILE: card_resolver.dfy ===
/**
 * Finding a deck-list card in the archive (`CardMatcher`): first an exact
 * match by name and collector number in the requested set, then the first
 * card of the same name in any other set, in archive order.
 */
module CardResolver {
  import opened Wrappers
  import opened PyStrings
  import opened JsonValues
  import opened Logging
  import opened Models

  // ---------------------------------------------------------------------
  // Names and numbers

  /** `_matches_card_name`: the same name, or a two-faced card whose front face has it. */
  predicate MatchesCardName(cardName: string, referenceName: string)
  {
    StartsWith(cardName, referenceName + " //") || cardName == referenceName
  }

  /** A matching name starts with the reference name; a face name matches the whole card's name. */
  lemma MatchingNames(cardName: string, front: string, back: string)
    ensures MatchesCardName(cardName, front) ==> StartsWith(cardName, front)
    ensures MatchesCardName(front + " // " + back, front)
    ensures MatchesCardName(front, front)
  {
    if StartsWith(cardName, front + " //") {
      assert cardName[..|front|] == (front + " //")[..|front|];
    }
    assert (front + " // " + back)[..|front + " //"|] == front + " //";
  }

  /** The name cases the tests check. */
  lemma MatchesCardNameExamples()
    ensures MatchesCardName("Test Card", "Test Card")
    ensures MatchesCardName("Test Card // Side B", "Test Card")
    ensures !MatchesCardName("Different Card", "Test Card")
  {
    MatchingNames("Test Card", "Test Card", "Side B");
    assert "Test Card" + " // " + "Side B" == "Test Card // Side B";
    assert "Different Card"[0] != "Test Card"[0];
  }

  /** A card the matcher can read: a string name and a printable number, when present. */
  predicate WellFormedCard(card: Record)
  {
    && (HasKey(card, "name") ==> Get(card, "name").value.Str?)
    && (HasKey(card, "number") ==> Printable(Get(card, "number").value))
  }

  /** `card.get("name", "")`. */
  function NameOf(card: Record): (name: string)
    requires WellFormedCard(card)
    ensures !HasKey(card, "name") ==> name == ""
  {
    match GetOr(card, "name", Str(""))
    case Str(s) => s
    case _ => ""
  }

  /** `str(card.get("number", ""))`. */
  function NumberOf(card: Record): string
    requires WellFormedCard(card)
  {
    PyStr(GetOr(card, "number", Str("")))
  }

  /** A set the matcher can read: a dictionary whose `cards`, when present, is a list of readable cards. */
  predicate WellFormedSet(setData: Json)
  {
    && setData.Obj?
    && (HasKey(setData.fields, "cards") ==>
          var cards := Get(setData.fields, "cards").value;
          cards.Arr? && forall i :: 0 <= i < |cards.items| ==> cards.items[i].Obj? && WellFormedCard(cards.items[i].fields))
  }

  /** `_get_cards_from_set`: the set's cards, none when it has no `cards`. */
  function CardsOf(setData: Json): (cards: seq<Record>)
    requires WellFormedSet(setData)
    ensures forall i :: 0 <= i < |cards| ==> WellFormedCard(cards[i])
    ensures !HasKey(setData.fields, "cards") ==> cards == []
  {
    if !HasKey(setData.fields, "cards") then []
    else
      var items := Get(setData.fields, "cards").value.items;
      seq(|items|, i requires 0 <= i < |items| => items[i].fields)
  }

  /** The archive's sets: a dictionary of readable sets. */
  predicate WellFormedSets(data: Record)
  {
    UniqueKeys(data) && forall i :: 0 <= i < |data| ==> WellFormedSet(data[i].1)
  }

  /** An archive the matcher can read; one without `data` is handled, not rejected. */
  predicate WellFormedArchive(archive: Record)
  {
    HasKey(archive, "data") ==> Get(archive, "data").value.Obj? && WellFormedSets(Get(archive, "data").value.fields)
  }

  // ---------------------------------------------------------------------
  // First match

  /** The first card with property `p`, in list order. */
  function FirstWhere(cards: seq<Record>, p: Record -> bool): Option<Record>
    decreases |cards|
  {
    if cards == [] then None
    else if p(cards[0]) then Some(cards[0])
    else FirstWhere(cards[1..], p)
  }

  /** `FirstWhere` finds the card at the lowest index with the property, and nothing when no card has it. */
  lemma {:induction false} FirstWhereIsFirst(cards: seq<Record>, p: Record -> bool)
    ensures FirstWhere(cards, p).None? <==> forall k :: 0 <= k < |cards| ==> !p(cards[k])
    ensures forall i :: 0 <= i < |cards| && p(cards[i]) && (forall k :: 0 <= k < i ==> !p(cards[k])) ==>
              FirstWhere(cards, p) == Some(cards[i])
    ensures FirstWhere(cards, p).Some? ==> p(FirstWhere(cards, p).value)
    decreases |cards|
  {
    if cards != [] {
      FirstWhereIsFirst(cards[1..], p);
      assert forall k :: 1 <= k < |cards| ==> cards[k] == cards[1..][k - 1];
      forall i | 1 <= i < |cards| && p(cards[i]) && (forall k :: 0 <= k < i ==> !p(cards[k]))
        ensures FirstWhere(cards, p) == Some(cards[i])
      {
        assert cards[1..][i - 1] == cards[i];
        assert forall k :: 0 <= k < i - 1 ==> !p(cards[1..][k]) by {
          forall k | 0 <= k < i - 1 ensures !p(cards[1..][k]) {
            assert cards[1..][k] == cards[k + 1];
          }
        }
      }
    }
  }

  /** Adding a card at the end changes the first match only when there was none. */
  lemma {:induction false} FirstWhereSnoc(cards: seq<Record>, x: Record, p: Record -> bool)
    ensures FirstWhere(cards + [x], p)
            == if FirstWhere(cards, p).Some? then FirstWhere(cards, p) else if p(x) then Some(x) else None
    decreases |cards|
  {
    if cards == [] {
      assert cards + [x] == [x];
    } else {
      assert (cards + [x])[0] == cards[0] && (cards + [x])[1..] == cards[1..] + [x];
      FirstWhereSnoc(cards[1..], x, p);
    }
  }

  // ---------------------------------------------------------------------
  // The exact match

  /** A card of the requested set with the reference's name and collector number. */
  predicate IsExact(ref: CardReference, card: Record)
  {
    WellFormedCard(card) && MatchesCardName(NameOf(card), ref.name) && NumberOf(card) == ref.collectorNumber
  }

  /** What `_find_exact_match` returns. */
  function ExactMatch(ref: CardReference, cards: seq<Record>): Option<Record>
  {
    FirstWhere(cards, card => IsExact(ref, card))
  }

  function ExactMessage(ref: CardReference): string
  {
    "Found exact match for " + ref.name + " in requested set " + ref.setCode
  }

  /** A card that is exact, with none before it, is the exact match. */
  lemma ExactAt(ref: CardReference, cards: seq<Record>, i: nat)
    requires i < |cards| && IsExact(ref, cards[i]) && forall k :: 0 <= k < i ==> !IsExact(ref, cards[k])
    ensures ExactMatch(ref, cards) == Some(cards[i])
  {
    FirstWhereIsFirst(cards, card => IsExact(ref, card));
  }

  /** With no exact card there is no exact match. */
  lemma NoExact(ref: CardReference, cards: seq<Record>)
    requires forall k :: 0 <= k < |cards| ==> !IsExact(ref, cards[k])
    ensures ExactMatch(ref, cards).None?
  {
    FirstWhereIsFirst(cards, card => IsExact(ref, card));
  }

  // ---------------------------------------------------------------------
  // The fallback match

  /** A card of another set with the reference's name. */
  predicate IsNameMatch(ref: CardReference, card: Record)
  {
    WellFormedCard(card) && MatchesCardName(NameOf(card), ref.name)
  }

  /** The cards the fallback search visits: those of every set but the requested one, in archive order. */
  function Candidates(ref: CardReference, data: Record): (cards: seq<Record>)
    requires forall i :: 0 <= i < |data| ==> WellFormedSet(data[i].1)
    ensures forall i :: 0 <= i < |cards| ==> WellFormedCard(cards[i])
    decreases |data|
  {
    if data == [] then []
    else
      var front, last := data[..|data| - 1], data[|data| - 1];
      Candidates(ref, front) + (if last.0 == ref.setCode then [] else CardsOf(last.1))
  }

  /**
   * One step of the fallback loop: a matching card is kept when nothing
   * truthy is kept yet (`if not fallback_match`), so an empty card is
   * replaced by a later match.
   */
  function Keep(ref: CardReference, kept: Option<Record>, card: Record): Option<Record>
  {
    if IsNameMatch(ref, card) && (kept.None? || kept.value == []) then Some(card) else kept
  }

  /** The fallback loop over `cards`, starting from `kept`. */
  function KeepAll(ref: CardReference, cards: seq<Record>, kept: Option<Record>): Option<Record>
    decreases |cards|
  {
    if cards == [] then kept else Keep(ref, KeepAll(ref, cards[..|cards| - 1], kept), cards[|cards| - 1])
  }

  /** One card of the fallback loop: `kept'` is what the loop holds after card `j`. */
  lemma KeepStep(ref: CardReference, cards: seq<Record>, j: nat, start: Option<Record>,
                 kept: Option<Record>, kept': Option<Record>)
    requires j < |cards| && WellFormedCard(cards[j]) && kept == KeepAll(ref, cards[..j], start)
    requires kept' == if MatchesCardName(NameOf(cards[j]), ref.name) && (kept.None? || kept.value == []) then Some(cards[j]) else kept
    ensures kept' == KeepAll(ref, cards[..j + 1], start)
  {
    assert cards[..j + 1][..j] == cards[..j];
  }

  /** One set of the fallback loop: the requested set is skipped, any other has its cards scanned. */
  lemma SetStep(ref: CardReference, data: Record, i: nat, start: Option<Record>, kept: Option<Record>)
    requires i < |data| && forall k :: 0 <= k < |data| ==> WellFormedSet(data[k].1)
    requires start == KeepAll(ref, Candidates(ref, data[..i]), None)
    requires kept == if data[i].0 == ref.setCode then start else KeepAll(ref, CardsOf(data[i].1), start)
    ensures kept == KeepAll(ref, Candidates(ref, data[..i + 1]), None)
  {
    var d := data[..i + 1];
    var cards := if data[i].0 == ref.setCode then [] else CardsOf(data[i].1);
    assert Candidates(ref, d) == Candidates(ref, data[..i]) + cards by {
      assert d[..|d| - 1] == data[..i] && d[|d| - 1] == data[i];
    }
    KeepAllAppend(ref, Candidates(ref, data[..i]), cards, None);
  }

  /** After the last set, the loop has computed the fallback. */
  lemma FallbackDone(ref: CardReference, data: Record, kept: Option<Record>)
    requires forall k :: 0 <= k < |data| ==> WellFormedSet(data[k].1)
    requires kept == KeepAll(ref, Candidates(ref, data[..|data|]), None)
    ensures FallbackMatch(ref, data) == if kept.Some? && kept.value != [] then kept else None
  {
    assert data[..|data|] == data;
  }

  lemma {:induction false} KeepAllAppend(ref: CardReference, a: seq<Record>, b: seq<Record>, kept: Option<Record>)
    ensures KeepAll(ref, a + b, kept) == KeepAll(ref, b, KeepAll(ref, a, kept))
    decreases |b|
  {
    if b == [] {
      assert a + b == a;
    } else {
      assert (a + b)[..|a + b| - 1] == a + b[..|b| - 1];
      KeepAllAppend(ref, a, b[..|b| - 1], kept);
    }
  }

  /** What `_find_fallback_match` returns: the card kept, if it is truthy. */
  function FallbackMatch(ref: CardReference, data: Record): Option<Record>
    requires forall i :: 0 <= i < |data| ==> WellFormedSet(data[i].1)
  {
    var kept := KeepAll(ref, Candidates(ref, data), None);
    if kept.Some? && kept.value != [] then kept else None
  }

  function FallbackMessage(ref: CardReference): string
  {
    "Using fallback match for " + ref.name + " from different set (exact match in " + ref.setCode + " not found)"
  }

  /** For a non-empty reference name, a matching card has a name, so it is never the empty card. */
  lemma NameMatchNotEmpty(ref: CardReference, card: Record)
    requires |ref.name| > 0 && IsNameMatch(ref, card)
    ensures card != []
  {
  }

  /** For a non-empty reference name, the fallback loop keeps the first matching card. */
  lemma {:induction false} KeepAllIsFirst(ref: CardReference, cards: seq<Record>)
    requires |ref.name| > 0
    ensures KeepAll(ref, cards, None) == FirstWhere(cards, card => IsNameMatch(ref, card))
    decreases |cards|
  {
    if cards != [] {
      var front, x := cards[..|cards| - 1], cards[|cards| - 1];
      KeepAllIsFirst(ref, front);
      assert front + [x] == cards;
      FirstWhereSnoc(front, x, card => IsNameMatch(ref, card));
      var f := FirstWhere(front, card => IsNameMatch(ref, card));
      if f.Some? {
        FirstWhereIsFirst(front, card => IsNameMatch(ref, card));
        NameMatchNotEmpty(ref, f.value);
      }
    }
  }

  /**
   * For a valid reference, the fallback is the first card of the same name
   * among the other sets' cards, in archive order, and there is none exactly
   * when no such card exists.
   */
  lemma FallbackIsFirstNameMatch(ref: CardReference, data: Record)
    requires ValidReference(ref) && forall i :: 0 <= i < |data| ==> WellFormedSet(data[i].1)
    ensures FallbackMatch(ref, data) == FirstWhere(Candidates(ref, data), card => IsNameMatch(ref, card))
    ensures FallbackMatch(ref, data).None? <==>
              forall k :: 0 <= k < |Candidates(ref, data)| ==> !IsNameMatch(ref, Candidates(ref, data)[k])
  {
    var cands := Candidates(ref, data);
    KeepAllIsFirst(ref, cands);
    FirstWhereIsFirst(cands, card => IsNameMatch(ref, card));
    var f := FirstWhere(cands, card => IsNameMatch(ref, card));
    if f.Some? {
      NameMatchNotEmpty(ref, f.value);
    }
  }

  // ---------------------------------------------------------------------
  // find_card

  const MissingDataMessage := "Archive missing 'data' section"

  /** `archive_data["data"]`, a dictionary of sets. */
  function SetsOf(archive: Record): (data: Record)
    requires WellFormedArchive(archive) && HasKey(archive, "data")
    ensures WellFormedSets(data)
  {
    Get(archive, "data").value.fields
  }

  /** The exact match, when the requested set is in the archive. */
  function ExactIn(ref: CardReference, data: Record): Option<Record>
    requires WellFormedSets(data)
  {
    if HasKey(data, ref.setCode) then
      GetIsBinding(data, ref.setCode);
      ExactMatch(ref, CardsOf(Get(data, ref.setCode).value))
    else None
  }

  /** The debug line a matcher logs when it found a card. */
  function FoundLog(m: Option<Record>, message: string): (log: seq<LogEntry>)
    ensures |log| <= 1 && CountLevel(log, Warning) == 0
  {
    if m.Some? then [LogEntry(Debug, message)] else []
  }

  /** What `find_card` returns and logs. */
  function FindCardSpec(ref: CardReference, archive: Record): Logged<Option<Record>>
    requires WellFormedArchive(archive)
  {
    if !HasKey(archive, "data") then Logged(None, [LogEntry(Warning, MissingDataMessage)])
    else
      var data := SetsOf(archive);
      var exact := ExactIn(ref, data);
      var exactLog := FoundLog(exact, ExactMessage(ref));
      if exact.Some? && exact.value != [] then Logged(exact, exactLog)
      else
        var fallback := FallbackMatch(ref, data);
        Logged(fallback, exactLog + FoundLog(fallback, FallbackMessage(ref)))
  }

  /** An archive without `data` gives no card and one warning. */
  lemma NoDataSection(ref: CardReference, archive: Record)
    requires !HasKey(archive, "data")
    ensures FindCardSpec(ref, archive).value.None?
    ensures CountLevel(FindCardSpec(ref, archive).log, Warning) == 1
    ensures |FindCardSpec(ref, archive).log| == 1
  {
  }

  /** An exact match in the requested set wins over any fallback. */
  lemma ExactTakesPrecedence(ref: CardReference, archive: Record, card: Record)
    requires ValidReference(ref) && WellFormedArchive(archive) && HasKey(archive, "data")
    requires ExactIn(ref, SetsOf(archive)) == Some(card)
    ensures FindCardSpec(ref, archive).value == Some(card)
  {
    var data := SetsOf(archive);
    GetIsBinding(data, ref.setCode);
    var cards := CardsOf(Get(data, ref.setCode).value);
    FirstWhereIsFirst(cards, c => IsExact(ref, c));
    assert IsNameMatch(ref, card);
    NameMatchNotEmpty(ref, card);
  }

  /**
   * For a valid reference and an archive with `data`: the result is the
   * exact match if there is one, and otherwise the first card of the same
   * name in another set; there is no card exactly when neither exists.
   */
  lemma FindCardIsExactThenFallback(ref: CardReference, archive: Record)
    requires ValidReference(ref) && WellFormedArchive(archive) && HasKey(archive, "data")
    ensures var data := SetsOf(archive);
            FindCardSpec(ref, archive).value
            == if ExactIn(ref, data).Some? then ExactIn(ref, data) else FallbackMatch(ref, data)
    ensures var data := SetsOf(archive);
            FindCardSpec(ref, archive).value.None? <==> ExactIn(ref, data).None? && FallbackMatch(ref, data).None?
  {
    var data := SetsOf(archive);
    if ExactIn(ref, data).Some? {
      ExactTakesPrecedence(ref, archive, ExactIn(ref, data).value);
    }
  }

  // ---------------------------------------------------------------------
  // The matcher

  class CardMatcher {
    const logger: Logger

    constructor(logger: Logger)
      ensures this.logger == logger
    {
      this.logger := logger;
    }

    /** `_find_exact_match`: scans the set's cards and returns at the first exact one. */
    method FindExactMatch(ref: CardReference, setData: Json) returns (m: Option<Record>)
      requires WellFormedSet(setData)
      modifies logger
      ensures m == ExactMatch(ref, CardsOf(setData))
      ensures logger.entries == old(logger.entries) + FoundLog(m, ExactMessage(ref))
    {
      var cards := CardsOf(setData);
      for i := 0 to |cards|
        invariant forall k :: 0 <= k < i ==> !IsExact(ref, cards[k])
      {
        var card := cards[i];
        assert WellFormedCard(card);
        if MatchesCardName(NameOf(card), ref.name) && NumberOf(card) == ref.collectorNumber {
          ExactAt(ref, cards, i);
          logger.Log(Debug, ExactMessage(ref));
          return Some(card);
        }
      }
      NoExact(ref, cards);
      return None;
    }

    /**
     * `_find_fallback_match`: scans every set but the requested one and
     * keeps the first matching card that is truthy.
     */
    method FindFallbackMatch(ref: CardReference, data: Record) returns (m: Option<Record>)
      requires forall i :: 0 <= i < |data| ==> WellFormedSet(data[i].1)
      modifies logger
      ensures m == FallbackMatch(ref, data)
      ensures logger.entries == old(logger.entries) + FoundLog(m, FallbackMessage(ref))
    {
      var kept: Option<Record> := None;
      for i := 0 to |data|
        invariant kept == KeepAll(ref, Candidates(ref, data[..i]), None)
        invariant logger.entries == old(logger.entries)
      {
        ghost var start := kept;
        var code, setData := data[i].0, data[i].1;
        if code != ref.setCode {
          var cards := CardsOf(setData);
          for j := 0 to |cards|
            invariant kept == KeepAll(ref, cards[..j], start)
            invariant logger.entries == old(logger.entries)
          {
            ghost var prev := kept;
            var card := cards[j];
            assert WellFormedCard(card);
            if MatchesCardName(NameOf(card), ref.name) && (kept.None? || kept.value == []) {
              kept := Some(card);
            }
            KeepStep(ref, cards, j, start, prev, kept);
          }
          assert cards[..|cards|] == cards;
        }
        SetStep(ref, data, i, start, kept);
      }
      FallbackDone(ref, data, kept);
      if kept.Some? && kept.value != [] {
        logger.Log(Debug, FallbackMessage(ref));
        return kept;
      }
      return None;
    }

    /** `find_card`: the exact match if it is truthy, else the fallback. */
    method FindCard(ref: CardReference, archive: Record) returns (m: Option<Record>)
      requires WellFormedArchive(archive)
      modifies logger
      ensures m == FindCardSpec(ref, archive).value
      ensures logger.entries == old(logger.entries) + FindCardSpec(ref, archive).log
    {
      if !HasKey(archive, "data") {
        logger.Log(Warning, MissingDataMessage);
        return None;
      }
      var data := SetsOf(archive);
      var exact: Option<Record> := None;
      if HasKey(data, ref.setCode) {
        GetIsBinding(data, ref.setCode);
        exact := FindExactMatch(ref, Get(data, ref.setCode).value);
      }
      assert exact == ExactIn(ref, data);
      if exact.Some? && exact.value != [] {
        return exact;
      }
      m := FindFallbackMatch(ref, data);
      AppendAssoc(old(logger.entries), FoundLog(exact, ExactMessage(ref)), FoundLog(m, FallbackMessage(ref)));
    }
  }
}

=== FILE: cards.dfy ===
/**
 * The card processor: checks a card's required fields, fills in defaults,
 * evaluates filters with AND semantics, selects translations by language and
 * projects the card onto a schema, in that order.
 *
 * A filter is a record from field names to conditions; a condition is an
 * object from operator names to the value the card's field is compared with.
 */
module Cards {
  import opened Wrappers
  import opened PyStrings
  import opened JsonValues
  import opened Filters

  /** Why a card could not be processed. */
  datatype CardError =
    | MissingRequiredFields           // ValueError "Card missing required fields"
    | InvalidOperator(op: string)     // ValueError "Invalid operator: <op>"
    | InvalidValueType(op: string)    // ValueError "Error applying operator <op>: Invalid value type ..."
    | ConditionsNotMapping(field: string)  // AttributeError: the field's conditions are not an object
    | ForeignDataNotIterable          // TypeError: `foreignData` cannot be iterated
    | ForeignEntryNotMapping          // AttributeError: a `foreignData` entry is not an object

  /** The errors raised as ValueError, which the processor re-words; the others escape as they are. */
  predicate IsValueError(e: CardError)
  {
    e.MissingRequiredFields? || e.InvalidOperator? || e.InvalidValueType?
  }

  /** The text of a filter error, as the filter evaluation raises it. */
  function FilterMessage(e: CardError): string
  {
    match e
    case InvalidOperator(op) => "Invalid operator: " + op
    case InvalidValueType(op) => "Error applying operator " + op + ": Invalid value type for numeric operator"
    case _ => ""
  }

  /** The text of the ValueError that leaves `process_card`. */
  function Message(e: CardError): (m: string)
    requires IsValueError(e)
    ensures StartsWith(m, "Error processing card: ")
  {
    var m := "Error processing card: "
      + (if e.MissingRequiredFields? then "Card missing required fields"
         else "Filter evaluation failed: " + FilterMessage(e));
    assert m[..|"Error processing card: "|] == "Error processing card: ";
    m
  }

  // ---------------------------------------------------------------------
  // One condition

  /**
   * Evaluates one condition. The ordering operators convert both operands
   * with `float()` first; a value that does not convert is an error here,
   * not a false match.
   */
  function EvaluateCondition(cardValue: Json, filterValue: Json, op: string): (r: Result<bool, CardError>)
    ensures GetOperatorFunction(op).None? ==> r == Failure(InvalidOperator(op))
    ensures r.Failure? && GetOperatorFunction(op).Some? ==>
              IsNumeric(GetOperatorFunction(op).value) && r == Failure(InvalidValueType(op))
                && (ToNumber(cardValue).None? || ToNumber(filterValue).None?)
    ensures r.Success? ==> r.value == Apply(GetOperatorFunction(op).value, cardValue, filterValue)
    ensures (GetOperatorFunction(op).Some? && IsNumeric(GetOperatorFunction(op).value)
             && (ToNumber(cardValue).None? || ToNumber(filterValue).None?)) ==>
              r == Failure(InvalidValueType(op))
  {
    match GetOperatorFunction(op)
    case None => Failure(InvalidOperator(op))
    case Some(o) =>
      if IsNumeric(o) then
        match (ToNumber(cardValue), ToNumber(filterValue))
        case (Some(x), Some(y)) => Success(Apply(o, Float(x), Float(y)))
        case _ => Failure(InvalidValueType(op))
      else Success(Apply(o, cardValue, filterValue))
  }

  // ---------------------------------------------------------------------
  // Operator validation

  /** The first operator name in `conds[j..]` that the operator table does not know. */
  function FirstUnknownOperator(conds: Record, j: nat): (r: Option<string>)
    requires j <= |conds|
    ensures r.None? <==> forall k :: j <= k < |conds| ==> GetOperatorFunction(conds[k].0).Some?
    ensures r.Some? ==> GetOperatorFunction(r.value).None?
    decreases |conds| - j
  {
    if j == |conds| then None
    else if GetOperatorFunction(conds[j].0).None? then Some(conds[j].0)
    else FirstUnknownOperator(conds, j + 1)
  }

  /** The error the operator validation raises for `filters[i..]`, if any. */
  function OperatorErrorFrom(filters: Record, i: nat): Option<CardError>
    requires i <= |filters|
    decreases |filters| - i
  {
    if i == |filters| then None
    else if !filters[i].1.Obj? then Some(ConditionsNotMapping(filters[i].0))
    else
      match FirstUnknownOperator(filters[i].1.fields, 0)
      case Some(op) => Some(InvalidOperator(op))
      case None => OperatorErrorFrom(filters, i + 1)
  }

  /** A field's conditions form an object whose operators all exist. */
  predicate FieldWellFormed(entry: (string, Json))
  {
    entry.1.Obj? && forall k :: 0 <= k < |entry.1.fields| ==> GetOperatorFunction(entry.1.fields[k].0).Some?
  }

  predicate WellFormedFrom(filters: Record, i: nat)
  {
    forall k :: i <= k < |filters| ==> FieldWellFormed(filters[k])
  }

  /** Validation passes exactly for well-formed filters. */
  lemma {:induction false} OperatorErrorIff(filters: Record, i: nat)
    requires i <= |filters|
    ensures OperatorErrorFrom(filters, i).None? <==> WellFormedFrom(filters, i)
    decreases |filters| - i
  {
    if i < |filters| {
      OperatorErrorIff(filters, i + 1);
    }
  }

  /**
   * Checks every operator of every field before anything is evaluated;
   * missing filters and an empty filter pass.
   */
  method ValidateFilterOperators(filters: Option<Record>) returns (err: Option<CardError>)
    ensures filters.None? ==> err.None?
    ensures filters.Some? ==> err == OperatorErrorFrom(filters.value, 0)
  {
    if filters.None? || |filters.value| == 0 {
      return None;
    }
    var fs := filters.value;
    var i := 0;
    while i < |fs|
      invariant 0 <= i <= |fs|
      invariant OperatorErrorFrom(fs, 0) == OperatorErrorFrom(fs, i)
    {
      var conditions := fs[i].1;
      if !conditions.Obj? {
        return Some(ConditionsNotMapping(fs[i].0));
      }
      var ops := conditions.fields;
      var j := 0;
      while j < |ops|
        invariant 0 <= j <= |ops|
        invariant FirstUnknownOperator(ops, 0) == FirstUnknownOperator(ops, j)
      {
        if GetOperatorFunction(ops[j].0).None? {
          return Some(InvalidOperator(ops[j].0));
        }
        j := j + 1;
      }
      i := i + 1;
    }
    return None;
  }

  // ---------------------------------------------------------------------
  // Filter evaluation

  /** Each condition's outcome on one card value, in order. */
  function Outcomes(cardValue: Json, conds: Record): (os: seq<Result<bool, CardError>>)
    ensures |os| == |conds|
    ensures forall k :: 0 <= k < |conds| ==> os[k] == EvaluateCondition(cardValue, conds[k].1, conds[k].0)
  {
    seq(|conds|, k requires 0 <= k < |conds| => EvaluateCondition(cardValue, conds[k].1, conds[k].0))
  }

  /** A left-to-right scan of outcomes that stops at the first error or false. */
  function ScanFrom(os: seq<Result<bool, CardError>>, j: nat): Result<bool, CardError>
    requires j <= |os|
    decreases |os| - j
  {
    if j == |os| then Success(true)
    else
      match os[j]
      case Failure(e) => Failure(e)
      case Success(ok) => if ok then ScanFrom(os, j + 1) else Success(false)
  }

  /**
   * The conditions `conds[j..]` on one card value, left to right, stopping at
   * the first false or error (evaluation has no side effects, so the
   * outcomes after the stop do not matter).
   */
  function ConditionsFrom(cardValue: Json, conds: Record, j: nat): Result<bool, CardError>
    requires j <= |conds|
  {
    ScanFrom(Outcomes(cardValue, conds), j)
  }

  /** One field's verdict: false when the card lacks the field, else its conditions' scan. */
  function FieldOutcome(card: Record, entry: (string, Json)): Result<bool, CardError>
  {
    if !HasKey(card, entry.0) then Success(false)
    else if !entry.1.Obj? then Failure(ConditionsNotMapping(entry.0))
    else ConditionsFrom(Get(card, entry.0).value, entry.1.fields, 0)
  }

  function FieldOutcomes(card: Record, filters: Record): (os: seq<Result<bool, CardError>>)
    ensures |os| == |filters|
    ensures forall i :: 0 <= i < |filters| ==> os[i] == FieldOutcome(card, filters[i])
  {
    seq(|filters|, i requires 0 <= i < |filters| => FieldOutcome(card, filters[i]))
  }

  /** The fields `filters[i..]`, left to right, stopping at the first missing field, false condition or error. */
  function FiltersFrom(card: Record, filters: Record, i: nat): Result<bool, CardError>
    requires i <= |filters|
  {
    ScanFrom(FieldOutcomes(card, filters), i)
  }

  /** Whether a card matches a filter (no filter conditions match every card). */
  function FiltersMatch(card: Record, filters: Record): Result<bool, CardError>
  {
    FiltersFrom(card, filters, 0)
  }

  /** Evaluates a filter against a card, returning at the first field that fails. */
  method EvaluateFilters(card: Record, filters: Record) returns (r: Result<bool, CardError>)
    ensures r == FiltersMatch(card, filters)
  {
    if |filters| == 0 {
      return Success(true);
    }
    var i := 0;
    while i < |filters|
      invariant 0 <= i <= |filters|
      invariant FiltersFrom(card, filters, 0) == FiltersFrom(card, filters, i)
    {
      var field := filters[i].0;
      if !HasKey(card, field) {
        return Success(false);
      }
      var cardValue := Get(card, field).value;
      var conditions := filters[i].1;
      if !conditions.Obj? {
        return Failure(ConditionsNotMapping(field));
      }
      var ops := conditions.fields;
      var j := 0;
      while j < |ops|
        invariant 0 <= j <= |ops|
        invariant ConditionsFrom(cardValue, ops, 0) == ConditionsFrom(cardValue, ops, j)
      {
        var op := ops[j].0;
        if GetOperatorFunction(op).None? {
          return Failure(InvalidOperator(op));
        }
        var outcome := EvaluateCondition(cardValue, ops[j].1, op);
        if outcome.Failure? {
          return Failure(outcome.error);
        }
        if !outcome.value {
          return Success(false);
        }
        j := j + 1;
      }
      i := i + 1;
    }
    return Success(true);
  }

  lemma {:induction false} ScanConjunction(os: seq<Result<bool, CardError>>, j: nat)
    requires j <= |os|
    ensures ScanFrom(os, j) == Success(true) <==> forall k :: j <= k < |os| ==> os[k] == Success(true)
    decreases |os| - j
  {
    if j < |os| {
      ScanConjunction(os, j + 1);
    }
  }

  /** The conditions on one value hold together exactly when each holds alone. */
  lemma ConditionsConjunction(cardValue: Json, conds: Record, j: nat)
    requires j <= |conds|
    ensures ConditionsFrom(cardValue, conds, j) == Success(true) <==>
              forall k :: j <= k < |conds| ==> EvaluateCondition(cardValue, conds[k].1, conds[k].0) == Success(true)
  {
    ScanConjunction(Outcomes(cardValue, conds), j);
  }

  /**
   * A field's conditions all hold on a card: the field is present, its
   * conditions form an object, and their scan succeeds (which, by
   * ConditionsConjunction, is each condition holding on its own).
   */
  predicate FieldHolds(card: Record, entry: (string, Json))
  {
    HasKey(card, entry.0) && entry.1.Obj? && ConditionsFrom(Get(card, entry.0).value, entry.1.fields, 0) == Success(true)
  }

  /** A field holds exactly when it is on the card and each of its conditions holds on its own. */
  lemma FieldHoldsMeaning(card: Record, entry: (string, Json))
    ensures FieldHolds(card, entry) <==>
              HasKey(card, entry.0) && entry.1.Obj?
              && forall k :: 0 <= k < |entry.1.fields| ==>
                   EvaluateCondition(Get(card, entry.0).value, entry.1.fields[k].1, entry.1.fields[k].0) == Success(true)
  {
    if HasKey(card, entry.0) && entry.1.Obj? {
      ConditionsConjunction(Get(card, entry.0).value, entry.1.fields, 0);
    }
  }

  /**
   * AND semantics: a card matches a filter exactly when every field is present
   * on the card and all conditions on it hold.
   */
  lemma FiltersConjunction(card: Record, filters: Record, i: nat)
    requires i <= |filters|
    ensures FiltersFrom(card, filters, i) == Success(true) <==>
              forall k :: i <= k < |filters| ==> FieldHolds(card, filters[k])
  {
    ScanConjunction(FieldOutcomes(card, filters), i);
  }

  /**
   * A field missing from the card makes the filter evaluate to false, not to
   * an error, unless a field before it raises (the fields after it are
   * never evaluated).
   */
  lemma {:induction false} MissingFieldIsFalse(card: Record, filters: Record, i: nat, m: nat)
    requires i <= m < |filters|
    requires !HasKey(card, filters[m].0)
    requires forall k :: i <= k < m ==> FieldOutcome(card, filters[k]).Success?
    ensures FiltersFrom(card, filters, i) == Success(false)
    decreases m - i
  {
    if i < m && FieldOutcome(card, filters[i]) == Success(true) {
      MissingFieldIsFalse(card, filters, i + 1, m);
    }
  }

  /** A field whose conditions use only known non-numeric operators never raises. */
  lemma NonNumericFieldSucceeds(card: Record, entry: (string, Json))
    requires FieldWellFormed(entry)
    requires forall c :: 0 <= c < |entry.1.fields| ==> !IsNumeric(GetOperatorFunction(entry.1.fields[c].0).value)
    ensures FieldOutcome(card, entry).Success?
  {
    if HasKey(card, entry.0) {
      NonNumericConditionsSucceed(Get(card, entry.0).value, entry.1.fields, 0);
    }
  }

  /** Conditions that use only known non-numeric operators never fail. */
  lemma {:induction false} NonNumericConditionsSucceed(cardValue: Json, conds: Record, j: nat)
    requires j <= |conds|
    requires forall c :: j <= c < |conds| ==>
               GetOperatorFunction(conds[c].0).Some? && !IsNumeric(GetOperatorFunction(conds[c].0).value)
    ensures ConditionsFrom(cardValue, conds, j).Success?
    decreases |conds| - j
  {
    if j < |conds| {
      NonNumericConditionsSucceed(cardValue, conds, j + 1);
    }
  }

  // ---------------------------------------------------------------------
  // Defaults, translations and projection

  /** The default of every field the processor guarantees, in the order they are added. */
  function BaseDefaults(): Record
  {
    [ ("name", Null), ("type", Null), ("colors", Arr([])), ("colorIdentity", Arr([])),
      ("convertedManaCost", Int(0)), ("text", Str("")), ("edhrecSaltiness", Float(0.0)),
      ("language", Str("English")), ("foreignData", Arr([])), ("availability", Arr([])) ]
  }

  /** `setdefault` for each default in turn; the record's own fields stay first and unchanged. */
  function SetDefaults(d: Record, defaults: Record): (r: Record)
    ensures |r| >= |d| && r[..|d|] == d
    decreases |defaults|
  {
    if defaults == [] then d
    else
      var d' := SetDefault(d, defaults[0].0, defaults[0].1);
      var r := SetDefaults(d', defaults[1..]);
      assert r[..|d|] == r[..|d'|][..|d|];
      r
  }

  /** After the defaults, a key keeps its own value or, when it had none, takes its default. */
  lemma {:induction false} SetDefaultsGet(d: Record, defaults: Record, k: string)
    ensures Get(SetDefaults(d, defaults), k) == (if HasKey(d, k) then Get(d, k) else Get(defaults, k))
    decreases |defaults|
  {
    if defaults != [] {
      var d' := SetDefault(d, defaults[0].0, defaults[0].1);
      SetDefaultsGet(d', defaults[1..], k);
      if k != defaults[0].0 && !HasKey(d, defaults[0].0) {
        assert d' == Set(d, defaults[0].0, defaults[0].1);
      }
    }
  }

  /** Defaults whose keys are all present already change nothing. */
  lemma {:induction false} SetDefaultsPresent(d: Record, defaults: Record)
    requires forall k :: HasKey(defaults, k) ==> HasKey(d, k)
    ensures SetDefaults(d, defaults) == d
    decreases |defaults|
  {
    if defaults != [] {
      assert Keys(defaults) == [defaults[0].0] + Keys(defaults[1..]);
      SetDefaultsPresent(d, defaults[1..]);
    }
  }

  /**
   * A copy of the card with every missing default added at the end; the
   * card's own fields keep their values and their order.
   */
  function CreateBaseCard(card: Record): (r: Record)
    ensures |r| >= |card| && r[..|card|] == card
  {
    SetDefaults(card, BaseDefaults())
  }

  /**
   * Every field of the base card: a field the card has keeps its value, a
   * default field the card lacks takes its default, and no other field appears.
   */
  lemma CreateBaseCardField(card: Record, k: string)
    ensures Get(CreateBaseCard(card), k) == (if HasKey(card, k) then Get(card, k) else Get(BaseDefaults(), k))
    ensures HasKey(CreateBaseCard(card), k) <==> HasKey(card, k) || HasKey(BaseDefaults(), k)
  {
    SetDefaultsGet(card, BaseDefaults(), k);
  }

  /** Filling in defaults twice is the same as once. */
  lemma CreateBaseCardIdempotent(card: Record)
    ensures CreateBaseCard(CreateBaseCard(card)) == CreateBaseCard(card)
  {
    forall k | HasKey(BaseDefaults(), k) ensures HasKey(CreateBaseCard(card), k) {
      CreateBaseCardField(card, k);
    }
    SetDefaultsPresent(CreateBaseCard(card), BaseDefaults());
  }

  /** A translation entry is kept when its `language` is one of the requested ones. */
  predicate LanguageSelected(entry: Record, languages: seq<string>)
  {
    match Get(entry, "language")
    case Some(Str(l)) => l in languages
    case _ => false
  }

  /**
   * The reference selection: the object entries whose language is requested,
   * in their order, built from the back of the list.
   */
  function Selected(entries: seq<Json>, languages: seq<string>): (kept: seq<Json>)
    ensures |kept| <= |entries|
    decreases |entries|
  {
    if entries == [] then []
    else
      var last := entries[|entries| - 1];
      Selected(entries[..|entries| - 1], languages)
        + (if last.Obj? && LanguageSelected(last.fields, languages) then [last] else [])
  }

  /** Selecting from two lists in a row is selecting from each, in order. */
  lemma {:induction false} SelectedAppend(a: seq<Json>, b: seq<Json>, languages: seq<string>)
    ensures Selected(a + b, languages) == Selected(a, languages) + Selected(b, languages)
    decreases |b|
  {
    if b == [] {
      assert a + b == a;
    } else {
      var front, last := b[..|b| - 1], b[|b| - 1];
      assert (a + b)[..|a + b| - 1] == a + front && (a + b)[|a + b| - 1] == last;
      SelectedAppend(a, front, languages);
    }
  }

  /** The entries of a translation list whose language is requested, in their order. */
  function SelectEntries(entries: seq<Json>, languages: seq<string>): (r: Result<seq<Json>, CardError>)
    ensures r.Success? <==> forall i :: 0 <= i < |entries| ==> entries[i].Obj?
    ensures r.Success? ==> |r.value| <= |entries|
    ensures r.Success? ==> forall e :: e in r.value <==> e in entries && e.Obj? && LanguageSelected(e.fields, languages)
    ensures r.Failure? ==> r.error == ForeignEntryNotMapping
  {
    if entries == [] then Success([])
    else if !entries[0].Obj? then Failure(ForeignEntryNotMapping)
    else
      match SelectEntries(entries[1..], languages)
      case Failure(e) =>
        assert exists i :: 1 <= i < |entries| && !entries[i].Obj? by {
          var i :| 0 <= i < |entries[1..]| && !entries[1..][i].Obj?;
          assert entries[i + 1] == entries[1..][i];
        }
        Failure(e)
      case Success(rest) =>
        assert forall i :: 1 <= i < |entries| ==> entries[i] == entries[1..][i - 1];
        assert entries == [entries[0]] + entries[1..];
        if LanguageSelected(entries[0].fields, languages) then Success([entries[0]] + rest)
        else Success(rest)
  }

  /** The comprehension's result is the reference selection: the same entries, in the same order. */
  lemma {:induction false} SelectEntriesIsSelected(entries: seq<Json>, languages: seq<string>)
    requires SelectEntries(entries, languages).Success?
    ensures SelectEntries(entries, languages).value == Selected(entries, languages)
    decreases |entries|
  {
    if entries != [] {
      var e, tail := entries[0], entries[1..];
      assert entries == [e] + tail;
      assert SelectEntries(tail, languages).Success? by {
        assert forall i :: 0 <= i < |tail| ==> tail[i] == entries[i + 1];
      }
      SelectEntriesIsSelected(tail, languages);
      SelectedAppend([e], tail, languages);
      assert Selected([e], languages) == if LanguageSelected(e.fields, languages) then [e] else [] by {
        assert [e][..0] == [];
      }
    }
  }

  /** An entry is kept exactly when it is an object of the list whose language is requested. */
  lemma {:induction false} SelectedMembers(entries: seq<Json>, languages: seq<string>)
    ensures forall e :: e in Selected(entries, languages) <==>
              e in entries && e.Obj? && LanguageSelected(e.fields, languages)
    decreases |entries|
  {
    if entries != [] {
      var front := entries[..|entries| - 1];
      SelectedMembers(front, languages);
      assert entries == front + [entries[|entries| - 1]];
    }
  }

  /**
   * The entries kept from a list are the entries kept from its first part
   * followed by those kept from the rest: the selection keeps the list's
   * order and each entry's multiplicity.
   */
  lemma SelectEntriesAppend(a: seq<Json>, b: seq<Json>, languages: seq<string>)
    requires SelectEntries(a, languages).Success? && SelectEntries(b, languages).Success?
    ensures SelectEntries(a + b, languages)
            == Success(SelectEntries(a, languages).value + SelectEntries(b, languages).value)
  {
    assert forall i :: 0 <= i < |a + b| ==> (a + b)[i] == if i < |a| then a[i] else b[i - |a|];
    SelectEntriesIsSelected(a, languages);
    SelectEntriesIsSelected(b, languages);
    SelectEntriesIsSelected(a + b, languages);
    SelectedAppend(a, b, languages);
  }

  /** One entry is kept exactly when it is an object whose language is requested. */
  lemma SelectEntriesSingle(e: Json, languages: seq<string>)
    ensures SelectEntries([e], languages)
            == if !e.Obj? then Failure(ForeignEntryNotMapping)
               else if LanguageSelected(e.fields, languages) then Success([e]) else Success([])
  {
    assert [e][1..] == [] && [e] + [] == [e];
  }

  /** What a `for` loop over a value iterates: the items of a list, the characters of a string, the keys of a dict. */
  predicate Iterable(j: Json)
  {
    j.Arr? || j.Str? || j.Obj?
  }

  /**
   * The card's translations in the requested languages; with no languages
   * requested there are none. Translations are read from the card as given:
   * a list is selected from entry by entry; a string or a dict iterates
   * strings, which have no `.get`, so any element at all is an error; any
   * other value cannot be iterated.
   */
  function FilterForeignData(card: Record, languages: seq<string>): (r: Result<seq<Json>, CardError>)
    ensures |languages| == 0 ==> r == Success([])
    ensures !HasKey(card, "foreignData") ==> r == Success([])
    ensures |languages| > 0 && GetOr(card, "foreignData", Arr([])).Arr? ==>
              r == SelectEntries(GetOr(card, "foreignData", Arr([])).items, languages)
    ensures r == Failure(ForeignDataNotIterable) <==>
              |languages| > 0 && !Iterable(GetOr(card, "foreignData", Arr([])))
    ensures |languages| > 0 && (GetOr(card, "foreignData", Arr([])).Str? || GetOr(card, "foreignData", Arr([])).Obj?) ==>
              (r.Success? <==> !Truthy(GetOr(card, "foreignData", Arr([])))) && (r.Success? ==> r.value == [])
              && (r.Failure? ==> r.error == ForeignEntryNotMapping)
  {
    if |languages| == 0 then Success([])
    else
      match GetOr(card, "foreignData", Arr([]))
      case Arr(entries) => SelectEntries(entries, languages)
      case Str(s) => if |s| == 0 then Success([]) else Failure(ForeignEntryNotMapping)
      case Obj(fs) => if |fs| == 0 then Success([]) else Failure(ForeignEntryNotMapping)
      case _ => Failure(ForeignDataNotIterable)
  }

  /** `{key: card[key] for key in keys if key in card}`. */
  function SelectKeys(card: Record, keys: seq<string>): (r: Record)
    ensures forall k :: HasKey(r, k) <==> k in keys && HasKey(card, k)
    ensures forall k :: HasKey(r, k) ==> Get(r, k) == Get(card, k)
    ensures |r| <= |keys|
  {
    if keys == [] then []
    else
      var prefix := keys[..|keys| - 1];
      var k := keys[|keys| - 1];
      var r := SelectKeys(card, prefix);
      assert forall x :: x in keys <==> x in prefix || x == k by {
        assert keys == prefix + [k];
      }
      if HasKey(card, k) then
        var r' := Set(r, k, Get(card, k).value);
        assert forall x :: HasKey(r', x) <==> HasKey(r, x) || x == k by {
          assert forall x :: x != k ==> Get(r', x) == Get(r, x);
        }
        assert |r'| <= |r| + 1 by {
          if HasKey(r, k) {
            assert |Keys(r')| == |Keys(r)|;
          }
        }
        r'
      else r
  }

  /** The projection holds each key once. */
  lemma {:induction false} SelectKeysUnique(card: Record, keys: seq<string>)
    ensures UniqueKeys(SelectKeys(card, keys))
    decreases |keys|
  {
    if keys != [] {
      var k := keys[|keys| - 1];
      SelectKeysUnique(card, keys[..|keys| - 1]);
      if HasKey(card, k) {
        SetKeepsUnique(SelectKeys(card, keys[..|keys| - 1]), k, Get(card, k).value);
      }
    }
  }

  /**
   * Projects a card onto a schema: no schema keeps everything but `language`,
   * an empty schema keeps nothing, otherwise exactly the schema's keys that
   * the card has.
   */
  function ApplySchema(card: Record, schema: Option<seq<string>>): (r: Record)
    ensures schema.None? ==> !HasKey(r, "language")
                             && forall k :: k != "language" ==> Get(r, k) == Get(card, k)
    ensures schema == Some([]) ==> r == []
    ensures schema.Some? ==> forall k :: HasKey(r, k) <==> k in schema.value && HasKey(card, k)
    ensures forall k :: HasKey(r, k) ==> Get(r, k) == Get(card, k)
  {
    match schema
    case None => if HasKey(card, "language") then Remove(card, "language") else card
    case Some(keys) => if |keys| == 0 then [] else SelectKeys(card, keys)
  }

  // ---------------------------------------------------------------------
  // The processing steps and the whole of `process_card`

  /** Filters are optional; when present every operator is checked before any is evaluated. */
  function FilterStep(processed: Record, filters: Option<Record>): Result<bool, CardError>
  {
    match filters
    case None => Success(true)
    case Some(fs) =>
      match OperatorErrorFrom(fs, 0)
      case Some(e) => Failure(e)
      case None => FiltersMatch(processed, fs)
  }

  method ApplyFilters(processed: Record, filters: Option<Record>) returns (r: Result<bool, CardError>)
    ensures r == FilterStep(processed, filters)
  {
    if filters.None? {
      return Success(true);
    }
    var err := ValidateFilterOperators(filters);
    if err.Some? {
      return Failure(err.value);
    }
    r := EvaluateFilters(processed, filters.value);
  }

  /** With languages requested the translations are replaced by the selected ones, otherwise removed. */
  function ProcessLanguageData(processed: Record, card: Record, languages: seq<string>): (r: Result<Record, CardError>)
    ensures |languages| == 0 ==> r.Success? && !HasKey(r.value, "foreignData")
    ensures |languages| > 0 && r.Success? ==>
              FilterForeignData(card, languages).Success?
              && Get(r.value, "foreignData") == Some(Arr(FilterForeignData(card, languages).value))
    ensures r.Success? ==> forall k :: k != "foreignData" ==> Get(r.value, k) == Get(processed, k)
  {
    if |languages| > 0 then
      match FilterForeignData(card, languages)
      case Failure(e) => Failure(e)
      case Success(entries) => Success(Set(processed, "foreignData", Arr(entries)))
    else if HasKey(processed, "foreignData") then Success(Remove(processed, "foreignData"))
    else Success(processed)
  }

  /**
   * Projects the processed card onto the schema: every other field of the
   * schema that the card has is kept with its value and nothing else is, and
   * a schema naming `foreignData` always carries that key.
   */
  function ApplyFinalSchema(processed: Record, schema: Option<seq<string>>): (r: Record)
    ensures schema.Some? && "foreignData" in schema.value ==>
              Get(r, "foreignData") == Some(GetOr(processed, "foreignData", Arr([])))
    ensures schema.Some? ==> forall k :: HasKey(r, k) ==> k in schema.value
    ensures schema.Some? ==> forall k :: k != "foreignData" ==>
              (HasKey(r, k) <==> k in schema.value && HasKey(processed, k))
    ensures forall k :: k != "foreignData" && HasKey(r, k) ==> Get(r, k) == Get(processed, k)
    ensures schema.None? ==> forall k :: k != "language" ==> Get(r, k) == Get(processed, k)
    ensures schema.None? ==> !HasKey(r, "language")
  {
    var r := ApplySchema(processed, schema);
    if schema.Some? && |schema.value| > 0 && "foreignData" in schema.value then
      Set(r, "foreignData", GetOr(processed, "foreignData", Arr([])))
    else r
  }

  /** The steps after the defaults: filtering, translations and projection of the base card `processed`. */
  function ProcessBaseCard(processed: Record, card: Record, filters: Option<Record>, schema: Option<seq<string>>,
                           languages: seq<string>): Result<Option<Record>, CardError>
  {
    match FilterStep(processed, filters)
    case Failure(e) => Failure(e)
    case Success(passes) =>
      if !passes then Success(None)
      else
        match ProcessLanguageData(processed, card, languages)
        case Failure(e) => Failure(e)
        case Success(withLanguages) => Success(Some(ApplyFinalSchema(withLanguages, schema)))
  }

  /**
   * The whole processing of one card: `Success(None)` when the filter rejects
   * it, `Success(Some(card))` with the projected card otherwise.
   */
  function ProcessCardSpec(card: Record, filters: Option<Record>, schema: Option<seq<string>>, languages: seq<string>)
    : Result<Option<Record>, CardError>
  {
    if !(HasKey(card, "name") && HasKey(card, "type")) then Failure(MissingRequiredFields)
    else ProcessBaseCard(CreateBaseCard(card), card, filters, schema, languages)
  }

  method ProcessCard(card: Record, filters: Option<Record>, schema: Option<seq<string>>, languages: seq<string>)
    returns (r: Result<Option<Record>, CardError>)
    ensures r == ProcessCardSpec(card, filters, schema, languages)
  {
    if !(HasKey(card, "name") && HasKey(card, "type")) {
      return Failure(MissingRequiredFields);
    }
    var processed := CreateBaseCard(card);
    var passes := ApplyFilters(processed, filters);
    if passes.Failure? {
      return Failure(passes.error);
    }
    if !passes.value {
      return Success(None);
    }
    var withLanguages := ProcessLanguageData(processed, card, languages);
    if withLanguages.Failure? {
      return Failure(withLanguages.error);
    }
    return Success(Some(ApplyFinalSchema(withLanguages.value, schema)));
  }

  // ---------------------------------------------------------------------
  // Properties of `process_card`

  /** The required fields are checked before anything else. */
  lemma RequiredFieldsFirst(card: Record, filters: Option<Record>, schema: Option<seq<string>>, languages: seq<string>)
    requires !HasKey(card, "name") || !HasKey(card, "type")
    ensures ProcessCardSpec(card, filters, schema, languages) == Failure(MissingRequiredFields)
  {
  }

  /**
   * An unknown operator anywhere in a filter whose conditions are objects is
   * reported, whatever the card holds, even if its field is missing.
   */
  lemma UnknownOperatorIsReported(processed: Record, card: Record, filters: Record, schema: Option<seq<string>>,
                                  languages: seq<string>, i: nat, j: nat)
    requires forall k :: 0 <= k < |filters| ==> filters[k].1.Obj?
    requires i < |filters| && j < |filters[i].1.fields|
    requires GetOperatorFunction(filters[i].1.fields[j].0).None?
    ensures ProcessBaseCard(processed, card, Some(filters), schema, languages).Failure?
    ensures ProcessBaseCard(processed, card, Some(filters), schema, languages).error.InvalidOperator?
  {
    OperatorErrorIff(filters, 0);
    assert !FieldWellFormed(filters[i]);
    UnknownOperatorKind(filters, 0);
  }

  /** With every condition an object, a validation error can only be an unknown operator. */
  lemma {:induction false} UnknownOperatorKind(filters: Record, i: nat)
    requires i <= |filters|
    requires forall k :: 0 <= k < |filters| ==> filters[k].1.Obj?
    ensures OperatorErrorFrom(filters, i).Some? ==> OperatorErrorFrom(filters, i).value.InvalidOperator?
    decreases |filters| - i
  {
    if i < |filters| {
      UnknownOperatorKind(filters, i + 1);
    }
  }

  /** A card the filter rejects yields nothing. */
  lemma RejectedCardYieldsNone(card: Record, filters: Record, schema: Option<seq<string>>, languages: seq<string>)
    requires HasKey(card, "name") && HasKey(card, "type")
    requires OperatorErrorFrom(filters, 0).None?
    requires FiltersMatch(CreateBaseCard(card), filters) == Success(false)
    ensures ProcessCardSpec(card, Some(filters), schema, languages) == Success(None)
  {
  }

  /**
   * Without a schema a processed card has no `language`; without languages
   * it has no `foreignData`; with languages its `foreignData` is the selected
   * translations; every other field is the base card's.
   */
  lemma ProcessedCardWithoutSchema(processed: Record, card: Record, filters: Option<Record>, languages: seq<string>)
    requires ProcessBaseCard(processed, card, filters, None, languages).Success?
    requires ProcessBaseCard(processed, card, filters, None, languages).value.Some?
    ensures var out := ProcessBaseCard(processed, card, filters, None, languages).value.value;
      && !HasKey(out, "language")
      && (|languages| == 0 ==> !HasKey(out, "foreignData"))
      && (|languages| > 0 ==> Get(out, "foreignData") == Some(Arr(FilterForeignData(card, languages).value)))
      && (forall k :: k != "language" && k != "foreignData" ==> Get(out, k) == Get(processed, k))
  {
    var withLanguages := ProcessLanguageData(processed, card, languages);
    assert withLanguages.Success?;
  }

  /**
   * With a schema a processed card holds exactly the schema keys the base
   * card has, with the base card's values, and `foreignData` exactly when the
   * schema names it: the selected translations, or `[]` without languages.
   */
  lemma ProcessedCardWithSchema(processed: Record, card: Record, filters: Option<Record>, schema: seq<string>,
                                languages: seq<string>)
    requires ProcessBaseCard(processed, card, filters, Some(schema), languages).Success?
    requires ProcessBaseCard(processed, card, filters, Some(schema), languages).value.Some?
    ensures var out := ProcessBaseCard(processed, card, filters, Some(schema), languages).value.value;
      && (forall k :: HasKey(out, k) ==> k in schema)
      && (forall k :: k != "foreignData" ==> (HasKey(out, k) <==> k in schema && HasKey(processed, k)))
      && (forall k :: k != "foreignData" && HasKey(out, k) ==> Get(out, k) == Get(processed, k))
      && (HasKey(out, "foreignData") <==> "foreignData" in schema)
      && ("foreignData" in schema && |languages| == 0 ==> Get(out, "foreignData") == Some(Arr([])))
      && ("foreignData" in schema && |languages| > 0 ==>
            Get(out, "foreignData") == Some(Arr(FilterForeignData(card, languages).value)))
  {
    var withLanguages := ProcessLanguageData(processed, card, languages);
    assert withLanguages.Success?;
    var w := withLanguages.value;
    var out := ApplyFinalSchema(w, Some(schema));
    assert ProcessBaseCard(processed, card, filters, Some(schema), languages).value.value == out;
    forall k | k != "foreignData"
      ensures (HasKey(out, k) <==> k in schema && HasKey(processed, k))
      ensures HasKey(out, k) ==> Get(out, k) == Get(processed, k)
    {
      assert Get(w, k) == Get(processed, k);
    }
    if "foreignData" in schema {
      assert Get(out, "foreignData") == Some(GetOr(w, "foreignData", Arr([])));
      if |languages| == 0 {
        assert !HasKey(w, "foreignData");
      } else {
        assert Get(w, "foreignData") == Some(Arr(FilterForeignData(card, languages).value));
      }
    }
  }

  /**
   * When the base card has every field the schema names (the defaults
   * guarantee the common ones), the processed card's keys are exactly the
   * schema's.
   */
  lemma ProcessedKeysAreSchema(processed: Record, card: Record, filters: Option<Record>, schema: seq<string>,
                               languages: seq<string>)
    requires ProcessBaseCard(processed, card, filters, Some(schema), languages).Success?
    requires ProcessBaseCard(processed, card, filters, Some(schema), languages).value.Some?
    requires forall k :: k in schema && k != "foreignData" ==> HasKey(processed, k)
    ensures var out := ProcessBaseCard(processed, card, filters, Some(schema), languages).value.value;
            forall k :: HasKey(out, k) <==> k in schema
  {
    ProcessedCardWithSchema(processed, card, filters, schema, languages);
  }

  /** The filter of the worked example below: the colours contain red. */
  const RedFilter: Record := [("colors", Obj([("contains", Str("R"))]))]

  lemma RedFilterPasses(processed: Record)
    requires Get(processed, "colors") == Some(Arr([Str("R")]))
    ensures FilterStep(processed, Some(RedFilter)) == Success(true)
  {
    assert ListContains([Str("R")], Str("R"));
    assert ConditionsFrom(Arr([Str("R")]), [("contains", Str("R"))], 1) == Success(true);
    assert FiltersFrom(processed, RedFilter, 1) == Success(true);
    assert FirstUnknownOperator([("contains", Str("R"))], 1).None?;
    assert OperatorErrorFrom(RedFilter, 1).None?;
  }

  /**
   * A numeric operator whose operand does not convert with `float()` makes
   * `process_card` fail with the invalid-value-type error, whatever the
   * schema and languages; the base card always has the defaulted fields.
   */
  lemma InvalidValueTypeIsReported(card: Record, f: string, t: Json, schema: Option<seq<string>>, languages: seq<string>)
    requires HasKey(card, "name") && HasKey(card, "type")
    requires HasKey(CreateBaseCard(card), f)
    requires ToNumber(Get(CreateBaseCard(card), f).value).None? || ToNumber(t).None?
    ensures ProcessCardSpec(card, Some([(f, Obj([("gt", t)]))]), schema, languages) == Failure(InvalidValueType("gt"))
  {
    UnconvertibleOperandFails(CreateBaseCard(card), f, t);
  }

  /** The filter step alone: `gt` on an operand `float()` refuses is an error, not a false match. */
  lemma UnconvertibleOperandFails(processed: Record, f: string, t: Json)
    requires HasKey(processed, f)
    requires ToNumber(Get(processed, f).value).None? || ToNumber(t).None?
    ensures FilterStep(processed, Some([(f, Obj([("gt", t)]))])) == Failure(InvalidValueType("gt"))
  {
    var filters := [(f, Obj([("gt", t)]))];
    assert FirstUnknownOperator([("gt", t)], 1).None?;
    assert OperatorErrorFrom(filters, 1).None?;
    var v := Get(processed, f).value;
    assert Outcomes(v, [("gt", t)])[0] == Failure(InvalidValueType("gt"));
    assert ConditionsFrom(v, [("gt", t)], 0) == Failure(InvalidValueType("gt"));
    assert FieldOutcomes(processed, filters)[0] == Failure(InvalidValueType("gt"));
  }

  /** `convertedManaCost` is one of the defaulted fields. */
  lemma ManaCostIsDefault()
    ensures HasKey(BaseDefaults(), "convertedManaCost")
  {
    assert Keys(BaseDefaults())[4] == "convertedManaCost";
  }

  /** Every defaulted field is on every base card. */
  lemma BaseCardHasDefault(card: Record, k: string)
    requires HasKey(BaseDefaults(), k)
    ensures HasKey(CreateBaseCard(card), k)
  {
    CreateBaseCardField(card, k);
  }

  /** Every base card has a `convertedManaCost`, its own or the default 0. */
  lemma BaseCardHasManaCost(card: Record)
    ensures HasKey(CreateBaseCard(card), "convertedManaCost")
  {
    ManaCostIsDefault();
    BaseCardHasDefault(card, "convertedManaCost");
  }

  /** The filter of the invalid-value-type tests: `{"convertedManaCost": {"gt": "not a number"}}`. */
  const NotANumberFilter: Record := [("convertedManaCost", Obj([("gt", Str("not a number"))]))]

  /** The test filter is a single `gt` condition whose value `float()` refuses. */
  lemma NotANumberFilterShape()
    ensures NotANumberFilter == [("convertedManaCost", Obj([("gt", Str("not a number"))]))]
    ensures ToNumber(Str("not a number")).None?
  {
    NotANumberText();
  }

  /** The case of the tests: a one-field `gt` filter whose own value does not convert. */
  lemma FilterValueNotNumber(card: Record, filters: Record, f: string, t: Json)
    requires HasKey(card, "name") && HasKey(card, "type")
    requires filters == [(f, Obj([("gt", t)]))]
    requires HasKey(CreateBaseCard(card), f) && ToNumber(t).None?
    ensures ProcessCardSpec(card, Some(filters), None, []) == Failure(InvalidValueType("gt"))
  {
    InvalidValueTypeIsReported(card, f, t, None, []);
  }

  /** That filter is an invalid-value-type error for any card with a name and a type: the mana cost defaults to 0. */
  lemma NotANumberExample(card: Record)
    requires HasKey(card, "name") && HasKey(card, "type")
    ensures ProcessCardSpec(card, Some(NotANumberFilter), None, []) == Failure(InvalidValueType("gt"))
  {
    BaseCardHasManaCost(card);
    NotANumberFilterShape();
    FilterValueNotNumber(card, NotANumberFilter, "convertedManaCost", Str("not a number"));
  }

  lemma SelectKeysSnoc(card: Record, keys: seq<string>, k: string)
    ensures SelectKeys(card, keys + [k])
            == if HasKey(card, k) then Set(SelectKeys(card, keys), k, Get(card, k).value) else SelectKeys(card, keys)
  {
    assert (keys + [k])[..|keys|] == keys;
  }

  lemma NameProjection(processed: Record)
    requires Get(processed, "name") == Some(Str("Bolt"))
    ensures SelectKeys(processed, ["name"]) == [("name", Str("Bolt"))]
  {
    assert ["name"][..0] == [];
  }

  lemma NameColorsSelection(processed: Record)
    requires Get(processed, "name") == Some(Str("Bolt")) && Get(processed, "colors") == Some(Arr([Str("R")]))
    ensures SelectKeys(processed, ["name", "colors"]) == [("name", Str("Bolt")), ("colors", Arr([Str("R")]))]
  {
    NameProjection(processed);
    var s1 := [("name", Str("Bolt"))];
    SelectKeysSnoc(processed, ["name"], "colors");
    assert ["name"] + ["colors"] == ["name", "colors"];
    assert !HasKey(s1, "colors") by {
      assert Keys(s1) == ["name"];
    }
    assert SelectKeys(processed, ["name", "colors"]) == Set(s1, "colors", Arr([Str("R")]));
  }

  lemma NameColorsProjection(processed: Record)
    requires Get(processed, "name") == Some(Str("Bolt")) && Get(processed, "colors") == Some(Arr([Str("R")]))
    ensures ApplyFinalSchema(processed, Some(["name", "colors"])) == [("name", Str("Bolt")), ("colors", Arr([Str("R")]))]
  {
    NameColorsSelection(processed);
    assert "foreignData" !in ["name", "colors"];
    assert ApplySchema(processed, Some(["name", "colors"])) == SelectKeys(processed, ["name", "colors"]);
  }

  /**
   * A worked example: a red instant filtered on colour and projected onto
   * name and colours, from any base card that carries its name and colours.
   */
  lemma BoltFromBase(processed: Record, card: Record)
    requires Get(processed, "name") == Some(Str("Bolt")) && Get(processed, "colors") == Some(Arr([Str("R")]))
    ensures ProcessBaseCard(processed, card, Some(RedFilter), Some(["name", "colors"]), [])
            == Success(Some([("name", Str("Bolt")), ("colors", Arr([Str("R")]))]))
  {
    RedFilterPasses(processed);
    var withLanguages := ProcessLanguageData(processed, card, []).value;
    NameColorsProjection(withLanguages);
  }

  /** The same card processed from its raw form. */
  lemma LightningBoltExample(card: Record)
    requires card == [("name", Str("Bolt")), ("type", Str("Instant")), ("colors", Arr([Str("R")])), ("convertedManaCost", Int(1))]
    ensures ProcessCardSpec(card, Some(RedFilter), Some(["name", "colors"]), [])
            == Success(Some([("name", Str("Bolt")), ("colors", Arr([Str("R")]))]))
  {
    assert Keys(card) == ["name", "type", "colors", "convertedManaCost"];
    CreateBaseCardField(card, "name");
    CreateBaseCardField(card, "colors");
    assert Get(card, "name") == Some(Str("Bolt"));
    assert Get(card[2..], "colors") == Some(Arr([Str("R")]));
    assert card[1..][1..] == card[2..];
    assert Get(card, "colors") == Some(Arr([Str("R")]));
    var base := CreateBaseCard(card);
    assert Get(base, "name") == Some(Str("Bolt"));
    assert Get(base, "colors") == Some(Arr([Str("R")]));
    BoltFromBase(base, card);
  }
}

=== FILE: config.dfy ===
/**
 * Configuration versions (`ConfigVersion`): printing, parsing, the ordering
 * and the compatibility rule, and the log-level check of the configuration.
 */
module Config {
  import opened Wrappers
  import opened PyStrings

  /** A semantic version; the components are Python integers. */
  datatype ConfigVersion = ConfigVersion(major: int, minor: int, patch: int)

  /** `ConfigVersion()`: the field defaults. */
  function DefaultVersion(): (v: ConfigVersion)
    ensures ToString(v) == "1.0.0"
  {
    var v := ConfigVersion(1, 0, 0);
    assert ToString(v) == "1" + "." + "0" + "." + "0";
    v
  }

  /** The printed components, in order. */
  function Components(v: ConfigVersion): seq<string>
  {
    [IntToString(v.major), IntToString(v.minor), IntToString(v.patch)]
  }

  /** `str(v)`: the three components joined by dots. */
  function ToString(v: ConfigVersion): (s: string)
    ensures Split(s, '.') == Components(v)
    ensures s == IntToString(v.major) + "." + IntToString(v.minor) + "." + IntToString(v.patch)
  {
    var parts := Components(v);
    SplitJoin(parts, '.');
    assert parts[1..][1..] == [parts[2]];
    assert Join(parts[1..], '.') == parts[1] + "." + parts[2];
    Join(parts, '.')
  }

  datatype VersionError = BadVersionFormat

  function VersionErrorMessage(e: VersionError): string
  {
    "Version must be in format 'major.minor.patch' or a valid dictionary"
  }

  /** `ConfigVersion.from_str` for a string: three dot-separated integers. */
  function FromStr(s: string): (r: Result<ConfigVersion, VersionError>)
    ensures r.Success? <==> |Split(s, '.')| == 3 && forall k :: 0 <= k < 3 ==> ParseInt(Split(s, '.')[k]).Some?
    ensures r.Success? ==> ParseInt(Split(s, '.')[0]) == Some(r.value.major)
                           && ParseInt(Split(s, '.')[1]) == Some(r.value.minor)
                           && ParseInt(Split(s, '.')[2]) == Some(r.value.patch)
  {
    var parts := Split(s, '.');
    if |parts| != 3 then Failure(BadVersionFormat)
    else
      match (ParseInt(parts[0]), ParseInt(parts[1]), ParseInt(parts[2]))
      case (Some(major), Some(minor), Some(patch)) => Success(ConfigVersion(major, minor, patch))
      case _ => Failure(BadVersionFormat)
  }

  /** Parsing a printed version gives the version back. */
  lemma FromStrToString(v: ConfigVersion)
    ensures FromStr(ToString(v)) == Success(v)
  {
    ParseIntToString(v.major);
    ParseIntToString(v.minor);
    ParseIntToString(v.patch);
  }

  /** `from_str("1.2.3")` is version 1.2.3. */
  lemma FromStrExample()
    ensures FromStr("1.2.3") == Success(ConfigVersion(1, 2, 3))
  {
    FromStrToString(ConfigVersion(1, 2, 3));
    assert ToString(ConfigVersion(1, 2, 3)) == "1.2.3";
  }

  /** Two components are not enough. */
  lemma TwoComponentsRejected()
    ensures FromStr("1.2").Failure?
  {
    SplitPrefix("1", '.', "2");
    SplitNoSeparator("2", '.');
    assert "1" + ['.'] + "2" == "1.2";
  }

  /** A string without dots is rejected. */
  lemma NoDotsRejected()
    ensures FromStr("invalid").Failure?
  {
    SplitNoSeparator("invalid", '.');
  }

  /** A component that is not an integer is rejected. */
  lemma WordComponentRejected()
    ensures FromStr("1.2.three").Failure?
  {
    SplitThree("1", "2", "three");
    assert "1.2.three" == "1" + ['.'] + ("2" + ['.'] + "three");
    NotAnInteger();
  }

  lemma NotAnInteger()
    ensures ParseInt("three").None?
  {
    assert !IsDigit("three"[0]);
  }

  /** Three dot-free pieces joined by dots split back into them. */
  lemma SplitThree(a: string, b: string, c: string)
    requires '.' !in a && '.' !in b && '.' !in c
    ensures Split(a + ['.'] + (b + ['.'] + c), '.') == [a, b, c]
  {
    SplitNoSeparator(c, '.');
    SplitPrefix(b, '.', c);
    SplitPrefix(a, '.', b + ['.'] + c);
  }

  // ---------------------------------------------------------------------
  // Ordering: tuple comparison of (major, minor, patch)

  /** `a < b`. */
  predicate Lt(a: ConfigVersion, b: ConfigVersion)
  {
    a.major < b.major
    || (a.major == b.major && (a.minor < b.minor || (a.minor == b.minor && a.patch < b.patch)))
  }

  /** `a <= b`. */
  function Le(a: ConfigVersion, b: ConfigVersion): (r: bool)
    ensures r <==> Lt(a, b) || a == b
  {
    a.major < b.major
    || (a.major == b.major && (a.minor < b.minor || (a.minor == b.minor && a.patch <= b.patch)))
  }

  /** `a > b`. */
  function Gt(a: ConfigVersion, b: ConfigVersion): (r: bool)
    ensures r <==> Lt(b, a)
  {
    a.major > b.major
    || (a.major == b.major && (a.minor > b.minor || (a.minor == b.minor && a.patch > b.patch)))
  }

  /** `a >= b`. */
  function Ge(a: ConfigVersion, b: ConfigVersion): (r: bool)
    ensures r <==> Le(b, a)
  {
    a.major > b.major
    || (a.major == b.major && (a.minor > b.minor || (a.minor == b.minor && a.patch >= b.patch)))
  }

  /** The ordering is a strict total order consistent with `==`. */
  lemma OrderIsTotal(a: ConfigVersion, b: ConfigVersion, c: ConfigVersion)
    ensures !Lt(a, a)
    ensures Lt(a, b) || a == b || Lt(b, a)
    ensures !(Lt(a, b) && Lt(b, a))
    ensures Lt(a, b) && Lt(b, c) ==> Lt(a, c)
    ensures Le(a, b) && Le(b, a) ==> a == b
  {
  }

  /** The comparisons the tests check around 1.2.3. */
  lemma OrderExamples()
    ensures var v := ConfigVersion(1, 2, 3);
            && Lt(ConfigVersion(1, 2, 2), v) && Lt(v, ConfigVersion(1, 2, 4))
            && Le(v, ConfigVersion(1, 2, 3)) && Ge(v, ConfigVersion(1, 2, 3))
            && Gt(ConfigVersion(1, 2, 4), v) && !Lt(v, v)
  {
  }

  // ---------------------------------------------------------------------
  // Compatibility

  /** `a.is_compatible_with(b)`. */
  function IsCompatibleWith(a: ConfigVersion, b: ConfigVersion): bool
  {
    a.major == b.major && (a.minor >= b.minor || a.major == 0)
  }

  /**
   * Compatibility needs the same major version; for a major version other
   * than 0 it is `a >= b` with the patch levels ignored; for major 0 any
   * minor version will do.
   */
  lemma CompatibleMeansNotOlder(a: ConfigVersion, b: ConfigVersion)
    ensures IsCompatibleWith(a, b) ==> a.major == b.major
    ensures a.major != 0 ==>
              (IsCompatibleWith(a, b) <==>
                 (a.major == b.major && Ge(ConfigVersion(a.major, a.minor, 0), ConfigVersion(b.major, b.minor, 0))))
    ensures a.major == 0 ==> (IsCompatibleWith(a, b) <==> b.major == 0)
  {
  }

  /** Patch levels never matter, and every version is compatible with itself. */
  lemma CompatibleIgnoresPatch(a: ConfigVersion, b: ConfigVersion, p: int, q: int)
    ensures IsCompatibleWith(a, b) == IsCompatibleWith(a.(patch := p), b.(patch := q))
    ensures IsCompatibleWith(a, a)
  {
  }

  /** The compatibility cases the tests check. */
  lemma CompatibleExamples()
    ensures IsCompatibleWith(ConfigVersion(1, 2, 0), ConfigVersion(1, 0, 0))
    ensures IsCompatibleWith(ConfigVersion(1, 2, 0), ConfigVersion(1, 1, 0))
    ensures !IsCompatibleWith(ConfigVersion(1, 0, 0), ConfigVersion(1, 1, 0))
    ensures !IsCompatibleWith(ConfigVersion(2, 0, 0), ConfigVersion(1, 0, 0))
    ensures !IsCompatibleWith(ConfigVersion(1, 0, 0), ConfigVersion(2, 0, 0))
  {
  }

  // ---------------------------------------------------------------------
  // Log level

  const ValidLevels: set<string> := {"DEBUG", "INFO", "WARNING", "ERROR", "CRITICAL"}

  datatype LogLevelError = InvalidLogLevel

  /** `validate_log_level`: the upper-cased level when it is a standard one. */
  function ValidateLogLevel(v: string): (r: Result<string, LogLevelError>)
    ensures r.Success? <==> Upper(v) in ValidLevels
    ensures r.Success? ==> r.value == Upper(v)
  {
    var u := Upper(v);
    if u !in ValidLevels then Failure(InvalidLogLevel) else Success(u)
  }

  /**
   * The `log_level` setting as the settings model receives it: surrounding
   * whitespace is stripped (`str_strip_whitespace`) before `validate_log_level` runs.
   */
  function SettingsLogLevel(v: string): (r: Result<string, LogLevelError>)
    ensures r.Success? <==> Upper(Strip(v)) in ValidLevels
    ensures r.Success? ==> r.value == Upper(Strip(v)) && r.value in ValidLevels
    ensures |v| > 0 && !IsSpace(v[0]) && !IsSpace(v[|v| - 1]) ==> r == ValidateLogLevel(v)
  {
    ValidateLogLevel(Strip(v))
  }

  /** Whitespace around a level does not change the setting: it is validated as if unpadded. */
  lemma PaddedLevel(u: string)
    requires |u| > 0 && !IsSpace(u[0]) && !IsSpace(u[|u| - 1])
    ensures SettingsLogLevel(" " + u + "\n") == ValidateLogLevel(u)
  {
    var s := " " + u + "\n";
    assert s[1..] == u + "\n";
    assert TrimStart(s) == u + "\n" by {
      assert TrimStart(s) == TrimStart(s[1..]);
      assert (u + "\n")[0] == u[0];
    }
    assert TrimEnd(u + "\n") == u by {
      assert (u + "\n")[..|u|] == u;
      assert TrimEnd(u + "\n") == TrimEnd(u);
    }
  }

  /** Upper-casing twice is upper-casing once. */
  lemma UpperIdempotent(s: string)
    ensures Upper(Upper(s)) == Upper(s)
  {
    assert forall i :: 0 <= i < |s| ==> UpperChar(UpperChar(s[i])) == UpperChar(s[i]);
  }

  /** A validated level validates to itself. */
  lemma ValidateLogLevelIdempotent(v: string)
    requires ValidateLogLevel(v).Success?
    ensures ValidateLogLevel(ValidateLogLevel(v).value) == ValidateLogLevel(v)
  {
    UpperIdempotent(v);
  }

  /** A lower-case standard level is accepted in upper case; an unknown name is rejected. */
  lemma LogLevelExamples()
    ensures ValidateLogLevel("debug") == Success("DEBUG")
    ensures ValidateLogLevel("DEBUG") == Success("DEBUG")
    ensures ValidateLogLevel("INVALID").Failure?
  {
    assert Upper("debug") == "DEBUG";
    assert Upper("DEBUG") == "DEBUG";
    assert Upper("INVALID") == "INVALID";
  }
}

=== FILE: deck.dfy ===
/**
 * The deck-list parser: one line `{quantity} {card name} ({set code})
 * {collector number}` becomes a validated card reference; a file of lines
 * becomes the references of its valid lines, in file order.
 */
module Deck {
  import opened Wrappers
  import opened Logging
  import opened PyStrings
  import opened Models

  // ---------------------------------------------------------------------
  // Character classes of the two patterns

  predicate IsAsciiLetter(c: char)
  {
    'A' <= c <= 'Z' || 'a' <= c <= 'z'
  }

  /** `[A-Z0-9]`, the characters of a set code. */
  predicate IsSetCodeChar(c: char)
  {
    'A' <= c <= 'Z' || IsDigit(c)
  }

  /** `[A-Za-z0-9]`, the characters of a collector number. */
  predicate IsAlnum(c: char)
  {
    IsAsciiLetter(c) || IsDigit(c)
  }

  /** `[^(]`. */
  predicate NotOpenParen(c: char)
  {
    c != '('
  }

  /** The end of the longest run of characters satisfying `p` that starts at `i`. */
  function SpanEnd(s: string, i: nat, p: char -> bool): (j: nat)
    requires i <= |s|
    ensures i <= j <= |s|
    decreases |s| - i
  {
    if i < |s| && p(s[i]) then SpanEnd(s, i + 1, p) else i
  }

  /** The run satisfies `p`, and the character that ends it does not. */
  lemma {:induction false} SpanEndStops(s: string, i: nat, p: char -> bool)
    requires i <= |s|
    ensures var j := SpanEnd(s, i, p);
            (forall k :: i <= k < j ==> p(s[k])) && (j < |s| ==> !p(s[j]))
    decreases |s| - i
  {
    if i < |s| && p(s[i]) {
      SpanEndStops(s, i + 1, p);
    }
  }

  /** A run is determined by where it stops. */
  lemma {:induction false} SpanEndAt(s: string, i: nat, p: char -> bool, j: nat)
    requires i <= j <= |s|
    requires forall k :: i <= k < j ==> p(s[k])
    requires j < |s| ==> !p(s[j])
    ensures SpanEnd(s, i, p) == j
    decreases j - i
  {
    if i < j {
      SpanEndAt(s, i + 1, p, j);
    }
  }

  // ---------------------------------------------------------------------
  // The two patterns

  /** `^[A-Za-z]+:$`: letters, then one colon. */
  predicate IsSectionHeader(l: string)
  {
    |l| >= 2 && l[|l| - 1] == ':' && forall i :: 0 <= i < |l| - 1 ==> IsAsciiLetter(l[i])
  }

  /** The four groups of the card pattern, as captured (before `strip`). */
  datatype LineGroups = LineGroups(quantity: string, name: string, setCode: string, collectorNumber: string)

  /**
   * Where a line of the card pattern is cut: the end of the quantity, the
   * `(`, the `)`, and the start of the collector number.
   */
  datatype Cuts = Cuts(digitsEnd: nat, open: nat, close: nat, numberStart: nat)

  /**
   * `l` matches `^(\d+)\s+([^(]+?)\s+\(([A-Z0-9]+)\)\s+([A-Za-z0-9]+)$` cut
   * at `k`: digits; text with no `(` that starts and ends with whitespace
   * and has room for a one-character name; `(`; set-code characters; `)`;
   * whitespace; letters and digits to the end.
   */
  predicate ValidCuts(l: string, k: Cuts)
  {
    && 0 < k.digitsEnd && k.digitsEnd + 3 <= k.open < k.close && k.close + 1 < k.numberStart < |l|
    && k.open + 1 < k.close
    && (forall i :: 0 <= i < k.digitsEnd ==> IsDigit(l[i]))
    && IsSpace(l[k.digitsEnd]) && IsSpace(l[k.open - 1])
    && (forall i :: k.digitsEnd <= i < k.open ==> NotOpenParen(l[i]))
    && l[k.open] == '('
    && (forall i :: k.open < i < k.close ==> IsSetCodeChar(l[i]))
    && l[k.close] == ')'
    && (forall i :: k.close < i < k.numberStart ==> IsSpace(l[i]))
    && (forall i :: k.numberStart <= i < |l| ==> IsAlnum(l[i]))
  }

  /**
   * What the lazy name group captures of the text between the quantity and
   * the first `(`: the greedy `\s+` takes the leading whitespace and the
   * trailing `\s+` what follows the name, so the group is the text less its
   * whitespace at both ends; when the text is all whitespace, the engine
   * backtracks to leave the group the one character before the last.
   */
  function NameGroup(gap: string): (name: string)
    requires |gap| >= 3 && IsSpace(gap[0]) && IsSpace(gap[|gap| - 1])
    ensures |name| > 0
  {
    var stripped := Strip(gap);
    if stripped == [] then gap[|gap| - 2..|gap| - 1] else stripped
  }

  /** The groups of a line cut at `k`. */
  function GroupsAt(l: string, k: Cuts): LineGroups
    requires ValidCuts(l, k)
  {
    var gap := l[k.digitsEnd..k.open];
    assert gap[0] == l[k.digitsEnd] && gap[|gap| - 1] == l[k.open - 1];
    LineGroups(l[..k.digitsEnd], NameGroup(gap), l[k.open + 1..k.close], l[k.numberStart..])
  }

  /**
   * The scan: the digits run, then up to the first `(`, then the set-code
   * run after it, then the whitespace run after the next character.
   */
  function ScanCuts(l: string): Cuts
  {
    var d := SpanEnd(l, 0, IsDigit);
    var p := SpanEnd(l, d, NotOpenParen);
    var c := if p < |l| then SpanEnd(l, p + 1, IsSetCodeChar) else p;
    var w := if c < |l| then SpanEnd(l, c + 1, IsSpace) else c;
    Cuts(d, p, c, w)
  }

  /** `card_regex.match`, scanned by hand. */
  function MatchCardLine(l: string): (m: Option<LineGroups>)
  {
    var k := ScanCuts(l);
    if ValidCuts(l, k) then Some(GroupsAt(l, k)) else None
  }

  /** Cuts are unique: a line of the pattern is cut where the scan cuts it. */
  lemma ScanFindsCuts(l: string, k: Cuts)
    requires ValidCuts(l, k)
    ensures ScanCuts(l) == k
  {
    SpanEndAt(l, 0, IsDigit, k.digitsEnd);
    SpanEndAt(l, k.digitsEnd, NotOpenParen, k.open);
    SpanEndAt(l, k.open + 1, IsSetCodeChar, k.close);
    SpanEndAt(l, k.close + 1, IsSpace, k.numberStart);
  }

  /** The scan matches exactly the lines that can be cut as the pattern says. */
  lemma MatchCardLineIff(l: string)
    ensures MatchCardLine(l).Some? <==> exists k :: ValidCuts(l, k)
    ensures forall k :: ValidCuts(l, k) ==> MatchCardLine(l) == Some(GroupsAt(l, k))
  {
    forall k | ValidCuts(l, k) ensures MatchCardLine(l) == Some(GroupsAt(l, k)) {
      ScanFindsCuts(l, k);
    }
  }

  /** The name group and the whole gap trim to the same text. */
  lemma NameGroupTrims(gap: string)
    requires |gap| >= 3 && IsSpace(gap[0]) && IsSpace(gap[|gap| - 1])
    ensures Strip(NameGroup(gap)) == Strip(gap)
  {
    var stripped := Strip(gap);
    if stripped == [] {
      StripEmptyAllSpace(gap);
      AllSpaceStrips(gap[|gap| - 2..|gap| - 1]);
    } else {
      StripUnpadded(stripped);
    }
  }

  /** Only whitespace strips to nothing. */
  lemma StripEmptyAllSpace(s: string)
    requires Strip(s) == []
    ensures forall i :: 0 <= i < |s| ==> IsSpace(s[i])
  {
  }

  /** `strip` leaves a string with no whitespace at either end alone. */
  lemma StripUnpadded(s: string)
    requires |s| > 0 && !IsSpace(s[0]) && !IsSpace(s[|s| - 1])
    ensures Strip(s) == s
  {
    assert TrimStart(s) == s;
  }

  /** `strip` of an all-whitespace string is empty. */
  lemma AllSpaceStrips(s: string)
    requires forall i :: 0 <= i < |s| ==> IsSpace(s[i])
    ensures Strip(s) == []
  {
  }

  /** `lstrip` drops exactly the leading whitespace run that ends at `a`. */
  lemma TrimStartAt(s: string, a: nat)
    requires a < |s| && !IsSpace(s[a])
    requires forall i :: 0 <= i < a ==> IsSpace(s[i])
    ensures TrimStart(s) == s[a..]
  {
    var t := TrimStart(s);
    assert |t| > 0 ==> t[0] == s[|s| - |t|];
  }

  /** `rstrip` drops exactly the trailing whitespace run that starts at `b`. */
  lemma TrimEndAt(t: string, b: nat)
    requires 0 < b <= |t| && !IsSpace(t[b - 1])
    requires forall i :: b <= i < |t| ==> IsSpace(t[i])
    ensures TrimEnd(t) == t[..b]
  {
    var r := TrimEnd(t);
    assert |r| > 0 ==> r[|r| - 1] == t[|r| - 1];
  }

  /** `strip` of whitespace, text that does not start or end with whitespace, whitespace, is the text. */
  lemma StripPadded(s: string, a: nat, b: nat)
    requires a < b <= |s|
    requires forall i :: 0 <= i < a ==> IsSpace(s[i])
    requires forall i :: b <= i < |s| ==> IsSpace(s[i])
    requires !IsSpace(s[a]) && !IsSpace(s[b - 1])
    ensures Strip(s) == s[a..b]
  {
    TrimStartAt(s, a);
    TrimEndPadded(s, a, b);
  }

  /** `rstrip` of the text from `a` on drops the whitespace from `b` on. */
  lemma TrimEndPadded(s: string, a: nat, b: nat)
    requires a < b <= |s|
    requires forall i :: b <= i < |s| ==> IsSpace(s[i])
    requires !IsSpace(s[b - 1])
    ensures TrimEnd(s[a..]) == s[a..b]
  {
    var t := s[a..];
    forall i | b - a <= i < |t| ensures IsSpace(t[i]) {
      assert t[i] == s[a + i];
    }
    TrimEndAt(t, b - a);
    assert t[..b - a] == s[a..b];
  }

  // ---------------------------------------------------------------------
  // One line

  /** Why a line was rejected; each maps to an `InvalidDeckFormatError` message. */
  datatype DeckError =
    | EmptyLine
    | SectionHeader(line: string)
    | InvalidLineFormat(line: string)
    | InvalidReferenceData(reason: ReferenceError)

  function ErrorMessage(e: DeckError): string
  {
    match e
    case EmptyLine => "Empty line"
    case SectionHeader(l) => "Section header '" + l + "' not supported in this format"
    case InvalidLineFormat(l) => "Invalid line format: " + l
    case InvalidReferenceData(r) => "Invalid card reference data: " + ReferenceMessage(r)
  }

  /**
   * `parse_line`: the stripped line must be non-empty and not a section
   * header (which is also logged as an error), must match the card pattern,
   * and its groups, stripped, must make a valid card reference.
   */
  function ParseLine(line: string): (r: Logged<Result<CardReference, DeckError>>)
    ensures Strip(line) == [] ==> r == Logged(Failure(EmptyLine), [])
    ensures r.value.Success? ==> ValidReference(r.value.value)
    ensures r.log != [] <==> r.value.Failure? && r.value.error.SectionHeader?
    ensures r.log != [] <==> IsSectionHeader(Strip(line))
    ensures r.log != [] ==> r.log == [LogEntry(Error, ErrorMessage(r.value.error))]
  {
    var l := Strip(line);
    if l == [] then Logged(Failure(EmptyLine), [])
    else if IsSectionHeader(l) then
      Logged(Failure(SectionHeader(l)), [LogEntry(Error, ErrorMessage(SectionHeader(l)))])
    else
      match MatchCardLine(l)
      case None => Logged(Failure(InvalidLineFormat(l)), [])
      case Some(g) =>
        match NewCardReference(Strip(g.name), Strip(g.setCode), Strip(g.collectorNumber), DigitsValueOf(g.quantity))
        case Success(c) => Logged(Success(c), [])
        case Failure(e) => Logged(Failure(InvalidReferenceData(e)), [])
  }

  /** `int(s)` for a run of decimal digits. */
  function DigitsValueOf(s: string): (n: nat)
  {
    if AllDigits(s) then DigitsValue(s) else 0
  }

  /**
   * Pieces that can be written in the documented format: a run of digits, a
   * name with no `(` that does not start or end with whitespace, a set code
   * and a collector number of the pattern's characters.
   */
  predicate InFormat(q: string, name: string, code: string, number: string)
  {
    && |q| > 0 && AllDigits(q)
    && |name| > 0 && '(' !in name && !IsSpace(name[0]) && !IsSpace(name[|name| - 1])
    && |code| > 0 && (forall i :: 0 <= i < |code| ==> IsSetCodeChar(code[i]))
    && |number| > 0 && (forall i :: 0 <= i < |number| ==> IsAlnum(number[i]))
  }

  /** The documented line format, with single spaces: `{quantity} {card name} ({set code}) {collector number}`. */
  function FormatLine(q: string, name: string, code: string, number: string): (l: string)
    ensures |l| == |q| + |name| + |code| + |number| + 5
  {
    q + " " + name + " (" + code + ") " + number
  }

  /** Where a formatted line is cut. */
  function FormatCutsOf(q: string, name: string, code: string): Cuts
  {
    var p := |q| + |name| + 2;
    Cuts(|q|, p, p + 1 + |code|, p + 3 + |code|)
  }

  /** The pieces of a formatted line, by position. */
  lemma FormatLineAt(q: string, name: string, code: string, number: string)
    ensures var l, p := FormatLine(q, name, code, number), |q| + |name| + 2;
            && (forall i :: 0 <= i < |q| ==> l[i] == q[i])
            && l[|q|] == ' ' && l[p - 1] == ' ' && l[p] == '('
            && (forall i :: 0 <= i < |name| ==> l[|q| + 1 + i] == name[i])
            && (forall i :: 0 <= i < |code| ==> l[p + 1 + i] == code[i])
            && l[p + 1 + |code|] == ')' && l[p + 2 + |code|] == ' '
            && (forall i :: 0 <= i < |number| ==> l[p + 3 + |code| + i] == number[i])
  {
  }

  /** A line in the documented format is cut around its pieces. */
  lemma FormatCuts(q: string, name: string, code: string, number: string)
    requires |q| > 0 && AllDigits(q)
    requires |name| > 0 && '(' !in name
    requires |code| > 0 && forall i :: 0 <= i < |code| ==> IsSetCodeChar(code[i])
    requires |number| > 0 && forall i :: 0 <= i < |number| ==> IsAlnum(number[i])
    ensures ValidCuts(FormatLine(q, name, code, number), FormatCutsOf(q, name, code))
  {
    var l := FormatLine(q, name, code, number);
    var p := |q| + |name| + 2;
    assert l[|q|] == ' ' && l[p - 1] == ' ' && l[p] == '(' && l[p + 1 + |code|] == ')' && l[p + 2 + |code|] == ' ' by {
      FormatLineAt(q, name, code, number);
    }
    FormatRuns(q, name, code, number);
  }

  /** Every character of a slice with property `p` has it in the whole line too. */
  lemma SliceRun(l: string, a: nat, b: nat, piece: string, p: char -> bool)
    requires a <= b <= |l| && l[a..b] == piece
    requires forall j :: 0 <= j < |piece| ==> p(piece[j])
    ensures forall i :: a <= i < b ==> p(l[i])
  {
    forall i | a <= i < b ensures p(l[i]) {
      assert l[i] == piece[i - a];
    }
  }

  /** The runs of a formatted line: digits, then no `(` up to the `(`, set-code characters, letters and digits. */
  lemma FormatRuns(q: string, name: string, code: string, number: string)
    requires AllDigits(q) && '(' !in name
    requires forall i :: 0 <= i < |code| ==> IsSetCodeChar(code[i])
    requires forall i :: 0 <= i < |number| ==> IsAlnum(number[i])
    ensures var l, k := FormatLine(q, name, code, number), FormatCutsOf(q, name, code);
            && (forall i :: 0 <= i < k.digitsEnd ==> IsDigit(l[i]))
            && (forall i :: k.digitsEnd <= i < k.open ==> NotOpenParen(l[i]))
            && (forall i :: k.open < i < k.close ==> IsSetCodeChar(l[i]))
            && (forall i :: k.numberStart <= i < |l| ==> IsAlnum(l[i]))
  {
    var l, k := FormatLine(q, name, code, number), FormatCutsOf(q, name, code);
    FormatGroups(q, name, code, number);
    SliceRun(l, 0, k.digitsEnd, q, IsDigit);
    var gap := " " + name + " ";
    assert '(' !in gap;
    SliceRun(l, k.digitsEnd, k.open, gap, NotOpenParen);
    SliceRun(l, k.open + 1, k.close, code, IsSetCodeChar);
    assert l[k.numberStart..|l|] == number;
    SliceRun(l, k.numberStart, |l|, number, IsAlnum);
  }

  /** The groups a formatted line is cut into. */
  lemma FormatGroups(q: string, name: string, code: string, number: string)
    ensures var l, k := FormatLine(q, name, code, number), FormatCutsOf(q, name, code);
            && l[..k.digitsEnd] == q && l[k.digitsEnd..k.open] == " " + name + " "
            && l[k.open + 1..k.close] == code && l[k.numberStart..] == number
  {
    FormatLineAt(q, name, code, number);
  }

  /** The card pattern matches a formatted line with the pieces it was written from. */
  lemma FormatMatches(q: string, name: string, code: string, number: string)
    requires |q| > 0 && AllDigits(q)
    requires |name| > 0 && '(' !in name && !IsSpace(name[0]) && !IsSpace(name[|name| - 1])
    requires |code| > 0 && forall i :: 0 <= i < |code| ==> IsSetCodeChar(code[i])
    requires |number| > 0 && forall i :: 0 <= i < |number| ==> IsAlnum(number[i])
    ensures MatchCardLine(FormatLine(q, name, code, number)) == Some(LineGroups(q, name, code, number))
  {
    var l, k := FormatLine(q, name, code, number), FormatCutsOf(q, name, code);
    FormatCuts(q, name, code, number);
    CutsMatch(l, k);
    FormatGroupsAt(q, name, code, number);
    NameGroupPadded(name);
  }

  /** A line cut at `k` is matched with the groups between the cuts. */
  lemma CutsMatch(l: string, k: Cuts)
    requires ValidCuts(l, k)
    ensures MatchCardLine(l) == Some(GroupsAt(l, k))
  {
    ScanFindsCuts(l, k);
  }

  /** The groups of a formatted line are its pieces, the name padded by its spaces. */
  lemma FormatGroupsAt(q: string, name: string, code: string, number: string)
    requires ValidCuts(FormatLine(q, name, code, number), FormatCutsOf(q, name, code))
    ensures GroupsAt(FormatLine(q, name, code, number), FormatCutsOf(q, name, code))
            == LineGroups(q, NameGroup(" " + name + " "), code, number)
  {
    FormatGroups(q, name, code, number);
  }

  /** A name between single spaces is captured as it is. */
  lemma NameGroupPadded(name: string)
    requires |name| > 0 && !IsSpace(name[0]) && !IsSpace(name[|name| - 1])
    ensures NameGroup(" " + name + " ") == name
  {
    var gap := " " + name + " ";
    StripPadded(gap, 1, |gap| - 1);
    assert gap[1..|gap| - 1] == name;
  }

  /**
   * A line written in the documented format, with single spaces, is parsed
   * into its own pieces; whether it is accepted is then up to the
   * reference's validation.
   */
  lemma ParseLineFormat(q: string, name: string, setCode: string, number: string)
    requires InFormat(q, name, setCode, number)
    ensures var r := NewCardReference(name, setCode, number, DigitsValue(q));
            ParseLine(FormatLine(q, name, setCode, number))
            == Logged(if r.Success? then Success(r.value) else Failure(InvalidReferenceData(r.error)), [])
  {
    var l := FormatLine(q, name, setCode, number);
    FormatStripped(q, name, setCode, number);
    FormatMatches(q, name, setCode, number);
    PiecesUnpadded(q, name, setCode, number);
    ParseLineMatched(l, LineGroups(q, name, setCode, number));
  }

  /** The pieces of a formatted line have nothing to strip, and the quantity is its digits' value. */
  lemma PiecesUnpadded(q: string, name: string, code: string, number: string)
    requires AllDigits(q)
    requires |name| > 0 && !IsSpace(name[0]) && !IsSpace(name[|name| - 1])
    requires |code| > 0 && forall i :: 0 <= i < |code| ==> IsSetCodeChar(code[i])
    requires |number| > 0 && forall i :: 0 <= i < |number| ==> IsAlnum(number[i])
    ensures Strip(name) == name && Strip(code) == code && Strip(number) == number
    ensures DigitsValueOf(q) == DigitsValue(q)
  {
    StripUnpadded(name);
    assert IsSetCodeChar(code[0]) && IsSetCodeChar(code[|code| - 1]);
    StripUnpadded(code);
    assert IsAlnum(number[0]) && IsAlnum(number[|number| - 1]);
    StripUnpadded(number);
  }

  /** A formatted line has nothing to strip and is no section header. */
  lemma FormatStripped(q: string, name: string, code: string, number: string)
    requires |q| > 0 && AllDigits(q)
    requires |number| > 0 && forall i :: 0 <= i < |number| ==> IsAlnum(number[i])
    ensures Strip(FormatLine(q, name, code, number)) == FormatLine(q, name, code, number)
    ensures !IsSectionHeader(FormatLine(q, name, code, number))
  {
    var l := FormatLine(q, name, code, number);
    FormatLineAt(q, name, code, number);
    assert l[0] == q[0] && l[|l| - 1] == number[|number| - 1];
    StripUnpadded(l);
  }

  /** A line the card pattern matches is parsed into the reference its stripped groups make, if that is valid. */
  lemma ParseLineMatched(line: string, g: LineGroups)
    requires Strip(line) != [] && !IsSectionHeader(Strip(line)) && MatchCardLine(Strip(line)) == Some(g)
    ensures var r := NewCardReference(Strip(g.name), Strip(g.setCode), Strip(g.collectorNumber), DigitsValueOf(g.quantity));
            ParseLine(line) == Logged(if r.Success? then Success(r.value) else Failure(InvalidReferenceData(r.error)), [])
  {
  }

  /** A reference in the documented format, with a three-character set code and a positive quantity, is accepted as written. */
  lemma ParseLineRoundTrip(q: string, name: string, setCode: string, number: string)
    requires InFormat(q, name, setCode, number) && |setCode| == 3 && DigitsValue(q) >= 1
    ensures ParseLine(FormatLine(q, name, setCode, number))
            == Logged(Success(CardReference(name, setCode, number, DigitsValue(q))), [])
  {
    ParseLineFormat(q, name, setCode, number);
  }

  /** A line of the documented example is accepted as written. */
  lemma BoltExample()
    ensures ParseLine("2 Lightning Bolt (LEA) 168") == Logged(Success(CardReference("Lightning Bolt", "LEA", "168", 2)), [])
  {
    BoltPieces();
    ParseLineRoundTrip("2", "Lightning Bolt", "LEA", "168");
  }

  lemma BoltPieces()
    ensures FormatLine("2", "Lightning Bolt", "LEA", "168") == "2 Lightning Bolt (LEA) 168"
    ensures InFormat("2", "Lightning Bolt", "LEA", "168") && DigitsValue("2") == 2
  {
    assert "2" + " " + "Lightning Bolt" == "2 Lightning Bolt";
    assert "2 Lightning Bolt" + " (" + "LEA" == "2 Lightning Bolt (LEA";
    assert "2 Lightning Bolt (LEA" + ") " + "168" == "2 Lightning Bolt (LEA) 168";
    TwoIsTwo();
  }

  /** A split card's name, with its ` // `, is kept whole. */
  lemma SplitCardExample()
    ensures ParseLine("2 Fire // Ice (APC) 128") == Logged(Success(CardReference("Fire // Ice", "APC", "128", 2)), [])
  {
    SplitCardPieces();
    ParseLineRoundTrip("2", "Fire // Ice", "APC", "128");
  }

  lemma SplitCardPieces()
    ensures FormatLine("2", "Fire // Ice", "APC", "128") == "2 Fire // Ice (APC) 128"
    ensures InFormat("2", "Fire // Ice", "APC", "128") && DigitsValue("2") == 2
  {
    assert "2" + " " + "Fire // Ice" == "2 Fire // Ice";
    assert "2 Fire // Ice" + " (" + "APC" == "2 Fire // Ice (APC";
    assert "2 Fire // Ice (APC" + ") " + "128" == "2 Fire // Ice (APC) 128";
    TwoIsTwo();
  }

  lemma TwoIsTwo()
    ensures DigitsValue("2") == 2
  {
    assert "2"[..0] == [];
  }

  /** A two-character set code matches the pattern but fails the reference's validation. */
  lemma ShortSetCode()
    ensures ParseLine("1 Card (ST) 123") == Logged(Failure(InvalidReferenceData(BadSetCode)), [])
  {
    ShortSetCodePieces();
    ParseLineFormat("1", "Card", "ST", "123");
  }

  lemma ShortSetCodePieces()
    ensures FormatLine("1", "Card", "ST", "123") == "1 Card (ST) 123"
    ensures InFormat("1", "Card", "ST", "123")
  {
  }

  /** A section header is rejected and logged as an error; a blank line is rejected silently. */
  lemma HeaderAndBlank()
    ensures ParseLine("Sideboard:") == Logged(Failure(SectionHeader("Sideboard:")),
                                              [LogEntry(Error, ErrorMessage(SectionHeader("Sideboard:")))])
    ensures ParseLine("") == Logged(Failure(EmptyLine), [])
  {
    HeaderPieces();
    assert Strip("") == [];
  }

  lemma HeaderPieces()
    ensures Strip("Sideboard:") == "Sideboard:" && IsSectionHeader("Sideboard:")
  {
    StripUnpadded("Sideboard:");
    SideboardIsHeader();
  }

  lemma SideboardIsHeader()
    ensures IsSectionHeader("Sideboard:")
  {
    var l := "Sideboard:";
    forall i | 0 <= i < |l| - 1 ensures IsAsciiLetter(l[i]) {
    }
  }

  /** A non-blank line other than a section header that the card pattern does not match is rejected as it stands. */
  lemma ParseLineUnmatched(line: string)
    requires Strip(line) != [] && !IsSectionHeader(Strip(line)) && MatchCardLine(Strip(line)).None?
    ensures ParseLine(line) == Logged(Failure(InvalidLineFormat(Strip(line))), [])
  {
  }

  /** A decimal point ends the digits of the quantity where no whitespace follows. */
  lemma DotInQuantity(l: string)
    requires l == "1.5 Card (SET) 123"
    ensures ParseLine(l).value == Failure(InvalidLineFormat(l))
  {
    StripUnpadded(l);
    assert !IsSectionHeader(l) by { assert !IsAsciiLetter(l[0]); }
    assert MatchCardLine(l).None? by {
      SpanEndAt(l, 0, IsDigit, 1);
      assert !IsSpace(l[1]);
    }
    ParseLineUnmatched(l);
  }

  /** A sign leaves no digits for the quantity. */
  lemma SignInQuantity(l: string)
    requires l == "-1 Card (SET) 123"
    ensures ParseLine(l).value == Failure(InvalidLineFormat(l))
  {
    StripUnpadded(l);
    assert !IsSectionHeader(l) by { assert !IsAsciiLetter(l[0]); }
    assert MatchCardLine(l).None? by {
      SpanEndAt(l, 0, IsDigit, 0);
    }
    ParseLineUnmatched(l);
  }

  // ---------------------------------------------------------------------
  // A file of lines

  /** What a line parser gives back: a reference or why not, with what it logged. */
  type LineResult = Logged<Result<CardReference, DeckError>>

  /** A line that is neither blank nor parsed contributes a warning with its 1-based number. */
  function LineWarning(number: nat, e: DeckError): LogEntry
  {
    LogEntry(Warning, "Error on line " + IntToString(number) + ": " + ErrorMessage(e))
  }

  /** A non-blank line that `parse` accepts. */
  predicate Accepted(line: string, parse: string -> LineResult)
  {
    !IsBlank(line) && parse(line).value.Success?
  }

  /**
   * The loop of `parse_deck_list_file` over `lines`, with `parse` as the
   * line parser (`ParseLine` in the source): blank lines are skipped without
   * a word; a line that parses adds its reference; any other line adds what
   * parsing logged and a warning.
   */
  function LinesSpec(lines: seq<string>, parse: string -> LineResult): Logged<seq<CardReference>>
    decreases |lines|
  {
    if lines == [] then Logged([], [])
    else
      var prev := LinesSpec(lines[..|lines| - 1], parse);
      var line := lines[|lines| - 1];
      if IsBlank(line) then prev
      else AddLine(prev, parse(line), |lines|)
  }

  /** What one non-blank line, numbered `n`, adds: its reference, or what parsing logged and a warning. */
  function AddLine(prev: Logged<seq<CardReference>>, p: LineResult, n: nat): Logged<seq<CardReference>>
  {
    match p.value
    case Success(c) => Logged(prev.value + [c], prev.log + p.log)
    case Failure(e) => Logged(prev.value, prev.log + p.log + [LineWarning(n, e)])
  }

  /** `not s.strip()`: the line holds nothing but whitespace. */
  predicate IsBlank(s: string)
    decreases |s|
  {
    s == [] || (IsSpace(s[0]) && IsBlank(s[1..]))
  }

  lemma {:induction false} BlankIsAllSpace(s: string)
    ensures IsBlank(s) <==> forall i :: 0 <= i < |s| ==> IsSpace(s[i])
    decreases |s|
  {
    if s != [] {
      BlankIsAllSpace(s[1..]);
      assert forall i :: 1 <= i < |s| ==> s[i] == s[1..][i - 1];
    }
  }

  /** A line is blank exactly when it strips to nothing. */
  lemma BlankIffStripEmpty(s: string)
    ensures IsBlank(s) <==> Strip(s) == []
  {
    BlankIsAllSpace(s);
    if Strip(s) == [] {
      StripEmptyAllSpace(s);
    }
    if IsBlank(s) {
      AllSpaceStrips(s);
    }
  }

  /** How many lines are not blank. */
  function NonBlank(lines: seq<string>): nat
  {
    if lines == [] then 0
    else NonBlank(lines[..|lines| - 1]) + (if IsBlank(lines[|lines| - 1]) then 0 else 1)
  }

  /** How many lines are section headers once stripped. */
  function Headers(lines: seq<string>): nat
  {
    if lines == [] then 0
    else Headers(lines[..|lines| - 1]) + (if IsSectionHeader(Strip(lines[|lines| - 1])) then 1 else 0)
  }

  /** What the file loop relies on of its line parser: valid references, and one error exactly for a section header. */
  ghost predicate ParserContract(parse: string -> LineResult)
  {
    ParserValid(parse) && ParserLogs(parse)
  }

  ghost predicate ParserValid(parse: string -> LineResult)
  {
    forall line :: parse(line).value.Success? ==> ValidReference(parse(line).value.value)
  }

  ghost predicate ParserLogs(parse: string -> LineResult)
  {
    forall line ::
      && CountLevel(parse(line).log, Warning) == 0
      && CountLevel(parse(line).log, Error) == (if IsSectionHeader(Strip(line)) then 1 else 0)
  }

  predicate AllValid(refs: seq<CardReference>)
  {
    forall k :: 0 <= k < |refs| ==> ValidReference(refs[k])
  }

  /** `parse_line` keeps that contract. */
  lemma ParseLineContract()
    ensures ParserContract(ParseLine)
  {
    forall line
      ensures CountLevel(ParseLine(line).log, Warning) == 0
      ensures CountLevel(ParseLine(line).log, Error) == (if IsSectionHeader(Strip(line)) then 1 else 0)
    {
      var r := ParseLine(line);
      if r.log != [] {
        assert r.log[1..] == [];
      }
    }
  }

  /**
   * Every non-blank line either gives a reference or one warning, and
   * errors are logged exactly for section headers.
   */
  lemma {:induction false} LinesAccounting(lines: seq<string>, parse: string -> LineResult)
    requires ParserLogs(parse)
    ensures var r := LinesSpec(lines, parse);
            && |r.value| + CountLevel(r.log, Warning) == NonBlank(lines)
            && CountLevel(r.log, Error) == Headers(lines)
    decreases |lines|
  {
    if lines != [] {
      var front, line := lines[..|lines| - 1], lines[|lines| - 1];
      LinesAccounting(front, parse);
      var prev := LinesSpec(front, parse);
      if !IsBlank(line) {
        AddLineCounts(prev, parse(line), |lines|);
      } else {
        BlankIffStripEmpty(line);
      }
    }
  }

  /** Every reference the loop keeps is valid. */
  lemma {:induction false} LinesValid(lines: seq<string>, parse: string -> LineResult)
    requires ParserValid(parse)
    ensures AllValid(LinesSpec(lines, parse).value)
    decreases |lines|
  {
    if lines != [] {
      var front, line := lines[..|lines| - 1], lines[|lines| - 1];
      LinesValid(front, parse);
      if Accepted(line, parse) {
        ValidSnoc(LinesSpec(front, parse).value, parse(line).value.value);
      }
    }
  }

  lemma ValidSnoc(refs: seq<CardReference>, c: CardReference)
    requires AllValid(refs) && ValidReference(c)
    ensures AllValid(refs + [c])
  {
    assert forall k :: 0 <= k < |refs| ==> (refs + [c])[k] == refs[k];
  }

  /** A non-blank line adds one to the references and warnings, and what parsing logged to the errors. */
  lemma AddLineCounts(prev: Logged<seq<CardReference>>, p: LineResult, n: nat)
    ensures var next := AddLine(prev, p, n);
            && |next.value| + CountLevel(next.log, Warning) == |prev.value| + CountLevel(prev.log, Warning) + CountLevel(p.log, Warning) + 1
            && CountLevel(next.log, Error) == CountLevel(prev.log, Error) + CountLevel(p.log, Error)
  {
    CountLevelAppend(prev.log, p.log, Warning);
    CountLevelAppend(prev.log, p.log, Error);
    if p.value.Failure? {
      var w := [LineWarning(n, p.value.error)];
      CountLevelAppend(prev.log + p.log, w, Warning);
      CountLevelAppend(prev.log + p.log, w, Error);
    }
  }

  /** The line each reference came from, in file order. */
  function Origins(lines: seq<string>, parse: string -> LineResult): seq<nat>
    decreases |lines|
  {
    if lines == [] then []
    else Origins(lines[..|lines| - 1], parse) + (if Accepted(lines[|lines| - 1], parse) then [|lines| - 1] else [])
  }

  /**
   * `refs` are the references of the lines of `lines` that `parse` accepts,
   * in file order: the `k`-th comes from line `o[k]`, those lines increase,
   * and every accepted line is among them.
   */
  predicate Traced(lines: seq<string>, parse: string -> LineResult, refs: seq<CardReference>, o: seq<nat>)
  {
    && |o| == |refs|
    && (forall k :: 0 <= k < |o| ==>
          o[k] < |lines| && Accepted(lines[o[k]], parse) && refs[k] == parse(lines[o[k]]).value.value)
    && (forall k, m :: 0 <= k < m < |o| ==> o[k] < o[m])
    && (forall j :: 0 <= j < |lines| && Accepted(lines[j], parse) ==> j in o)
  }

  /** The file loop returns the accepted lines' references in file order. */
  lemma {:induction false} LinesInOrder(lines: seq<string>, parse: string -> LineResult)
    ensures Traced(lines, parse, LinesSpec(lines, parse).value, Origins(lines, parse))
    decreases |lines|
  {
    if lines != [] {
      var front, line := lines[..|lines| - 1], lines[|lines| - 1];
      assert lines == front + [line];
      LinesInOrder(front, parse);
      TracedSnoc(front, line, parse, LinesSpec(front, parse).value, Origins(front, parse));
    }
  }

  /** One more line keeps the trace, adding the line's reference when it is accepted. */
  lemma TracedSnoc(front: seq<string>, line: string, parse: string -> LineResult, refs: seq<CardReference>, o: seq<nat>)
    requires Traced(front, parse, refs, o)
    ensures Accepted(line, parse) ==> Traced(front + [line], parse, refs + [parse(line).value.value], o + [|front|])
    ensures !Accepted(line, parse) ==> Traced(front + [line], parse, refs, o)
  {
    if Accepted(line, parse) {
      TracedAccepted(front, line, parse, refs, o);
    } else {
      TracedSkipped(front, line, parse, refs, o);
    }
  }

  lemma TracedAccepted(front: seq<string>, line: string, parse: string -> LineResult, refs: seq<CardReference>, o: seq<nat>)
    requires Traced(front, parse, refs, o) && Accepted(line, parse)
    ensures Traced(front + [line], parse, refs + [parse(line).value.value], o + [|front|])
  {
    var lines := front + [line];
    var refs', o' := refs + [parse(line).value.value], o + [|front|];
    assert |o'| == |refs'|;
    assert forall k, m :: 0 <= k < m < |o'| ==> o'[k] < o'[m] by {
      forall k, m | 0 <= k < m < |o'| ensures o'[k] < o'[m] {
        assert o'[k] == o[k] < |front|;
        if m < |o| {
          assert o'[m] == o[m];
        }
      }
    }
    assert forall k :: 0 <= k < |o'| ==>
             o'[k] < |lines| && Accepted(lines[o'[k]], parse) && refs'[k] == parse(lines[o'[k]]).value.value by {
      forall k | 0 <= k < |o'|
        ensures o'[k] < |lines| && Accepted(lines[o'[k]], parse) && refs'[k] == parse(lines[o'[k]]).value.value
      {
        if k < |o| {
          assert o'[k] == o[k] && refs'[k] == refs[k] && lines[o[k]] == front[o[k]];
        }
      }
    }
    assert forall j :: 0 <= j < |lines| && Accepted(lines[j], parse) ==> j in o' by {
      forall j | 0 <= j < |lines| && Accepted(lines[j], parse) ensures j in o' {
        if j < |front| {
          assert lines[j] == front[j] && j in o;
        }
      }
    }
  }

  lemma TracedSkipped(front: seq<string>, line: string, parse: string -> LineResult, refs: seq<CardReference>, o: seq<nat>)
    requires Traced(front, parse, refs, o) && !Accepted(line, parse)
    ensures Traced(front + [line], parse, refs, o)
  {
    var lines := front + [line];
    assert forall k :: 0 <= k < |o| ==>
             o[k] < |lines| && Accepted(lines[o[k]], parse) && refs[k] == parse(lines[o[k]]).value.value by {
      forall k | 0 <= k < |o|
        ensures o[k] < |lines| && Accepted(lines[o[k]], parse) && refs[k] == parse(lines[o[k]]).value.value
      {
        assert lines[o[k]] == front[o[k]];
      }
    }
    assert forall j :: 0 <= j < |lines| && Accepted(lines[j], parse) ==> j in o by {
      forall j | 0 <= j < |lines| && Accepted(lines[j], parse) ensures j in o {
        if j < |front| {
          assert lines[j] == front[j];
        }
      }
    }
  }

  /** `parse_deck_list_file` raises `EmptyDeckError` when no line parses. */
  datatype EmptyDeck = EmptyDeck

  const EmptyDeckMessage := "No valid card references found in deck list"

  /** `parse_deck_list_file`: the references of the accepted lines, or `EmptyDeckError` when there are none. */
  function DeckFileSpec(lines: seq<string>): (r: Logged<Result<seq<CardReference>, EmptyDeck>>)
    ensures r.log == LinesSpec(lines, ParseLine).log
    ensures r.value.Failure? <==> forall j :: 0 <= j < |lines| ==> !Accepted(lines[j], ParseLine)
    ensures r.value.Success? ==> r.value.value == LinesSpec(lines, ParseLine).value && |r.value.value| > 0
  {
    LinesInOrder(lines, ParseLine);
    var s := LinesSpec(lines, ParseLine);
    if |s.value| == 0 then Logged(Failure(EmptyDeck), s.log)
    else
      assert Accepted(lines[Origins(lines, ParseLine)[0]], ParseLine);
      Logged(Success(s.value), s.log)
  }

  /** A deck file's references are valid, and its warnings and references together account for its non-blank lines. */
  lemma DeckFileAccounting(lines: seq<string>)
    ensures var r := DeckFileSpec(lines);
            && (r.value.Success? ==> forall k :: 0 <= k < |r.value.value| ==> ValidReference(r.value.value[k]))
            && (r.value.Success? ==> |r.value.value| + CountLevel(r.log, Warning) == NonBlank(lines))
            && (r.value.Failure? ==> CountLevel(r.log, Warning) == NonBlank(lines))
            && CountLevel(r.log, Error) == Headers(lines)
  {
    ParseLineContract();
    LinesAccounting(lines, ParseLine);
    LinesValid(lines, ParseLine);
  }

  /** What `parse_deck_list` raises, past the file: an empty deck surfaces as a `ValueError`. */
  datatype DeckListError = NoValidReferences

  function DeckListSpec(lines: seq<string>): (r: Logged<Result<seq<CardReference>, DeckListError>>)
    ensures r.value.Failure? <==> DeckFileSpec(lines).value.Failure?
    ensures r.value.Success? ==> r.value.value == DeckFileSpec(lines).value.value && r.log == DeckFileSpec(lines).log
    ensures r.value.Failure? ==> r.log == DeckFileSpec(lines).log + [LogEntry(Error, EmptyDeckMessage)]
  {
    var f := DeckFileSpec(lines);
    match f.value
    case Success(refs) => Logged(Success(refs), f.log)
    case Failure(_) => Logged(Failure(NoValidReferences), f.log + [LogEntry(Error, EmptyDeckMessage)])
  }

  /** `DeckListParser`: the line parser with its logger. */
  class DeckListParser {
    const logger: Logger

    constructor(logger: Logger)
      ensures this.logger == logger
    {
      this.logger := logger;
    }

    /** The loop over the lines of an opened file, numbered from 1. */
    method ParseDeckListFile(lines: seq<string>) returns (r: Result<seq<CardReference>, EmptyDeck>)
      modifies logger
      ensures r == DeckFileSpec(lines).value
      ensures logger.entries == old(logger.entries) + DeckFileSpec(lines).log
    {
      var references: seq<CardReference> := [];
      for i := 0 to |lines|
        invariant references == LinesSpec(lines[..i], ParseLine).value
        invariant logger.entries == old(logger.entries) + LinesSpec(lines[..i], ParseLine).log
      {
        ghost var refs0, entries0 := references, logger.entries;
        var line := lines[i];
        if Strip(line) != [] {
          var p := ParseLine(line);
          logger.Append(p.log);
          match p.value {
            case Success(c) =>
              references := references + [c];
            case Failure(e) =>
              logger.Log(Warning, LineWarning(i + 1, e).message);
          }
        }
        BlankIffStripEmpty(line);
        LineLoopStep(lines, i, ParseLine, old(logger.entries), refs0, entries0, references, logger.entries);
      }
      assert lines[..|lines|] == lines;
      if |references| == 0 {
        return Failure(EmptyDeck);
      }
      return Success(references);
    }

    /** `parse_deck_list` on the lines of a file that opened: an empty deck is logged and re-raised as `ValueError`. */
    method ParseDeckList(lines: seq<string>) returns (r: Result<seq<CardReference>, DeckListError>)
      modifies logger
      ensures r == DeckListSpec(lines).value
      ensures logger.entries == old(logger.entries) + DeckListSpec(lines).log
    {
      var f := ParseDeckListFile(lines);
      if f.Failure? {
        logger.Log(Error, EmptyDeckMessage);
        return Failure(NoValidReferences);
      }
      return Success(f.value);
    }
  }

  /** One pass of the file loop keeps the references and the log equal to the specification of the lines so far. */
  lemma LineLoopStep(lines: seq<string>, i: nat, parse: string -> LineResult, start: seq<LogEntry>,
                     refs: seq<CardReference>, entries: seq<LogEntry>, refs': seq<CardReference>, entries': seq<LogEntry>)
    requires i < |lines|
    requires refs == LinesSpec(lines[..i], parse).value && entries == start + LinesSpec(lines[..i], parse).log
    requires var line, p := lines[i], parse(lines[i]);
             if IsBlank(line) then refs' == refs && entries' == entries
             else if p.value.Success? then refs' == refs + [p.value.value] && entries' == entries + p.log
             else refs' == refs && entries' == entries + p.log + [LineWarning(i + 1, p.value.error)]
    ensures refs' == LinesSpec(lines[..i + 1], parse).value && entries' == start + LinesSpec(lines[..i + 1], parse).log
  {
    assert lines[..i + 1][..i] == lines[..i];
    var p := parse(lines[i]);
    var prev := LinesSpec(lines[..i], parse);
    if !IsBlank(lines[i]) {
      AppendAssoc(start, prev.log, p.log);
      if p.value.Failure? {
        AppendAssoc(start, prev.log + p.log, [LineWarning(i + 1, p.value.error)]);
      }
    }
  }
}

=== FILE: decks.dfy ===
/**
 * `DeckExtractorService.extract_deck_cards`: every deck-list reference is
 * looked up in the archive, a card that is found is processed with no
 * filters, no translations and the schema's required fields, and the
 * processed card gets the reference's quantity; the service counts the
 * cards found and missing.
 */
module Decks {
  import opened Wrappers
  import opened JsonValues
  import opened Logging
  import opened Models
  import opened Cards
  import opened Schema
  import opened CardResolver

  // ---------------------------------------------------------------------
  // The schema's required fields

  /** A `required` value that is a list of field names, as a JSON schema writes it. */
  predicate NamesList(required: Option<Json>)
  {
    required.Some? ==> required.value.Arr? && forall i :: 0 <= i < |required.value.items| ==> required.value.items[i].Str?
  }

  /** The field names of the `required` list, in order. */
  function SchemaKeys(required: Option<Json>): (keys: Option<seq<string>>)
    requires NamesList(required)
    ensures keys.None? <==> required.None?
    ensures keys.Some? ==> |keys.value| == |required.value.items|
                           && forall i :: 0 <= i < |keys.value| ==> required.value.items[i] == Str(keys.value[i])
  {
    match required
    case None => None
    case Some(list) => Some(seq(|list.items|, i requires 0 <= i < |list.items| => list.items[i].s))
  }

  // ---------------------------------------------------------------------
  // The extraction loop as a function of the references

  /** What happens to one reference. */
  datatype Outcome =
    | Missing                   // no truthy card in the archive
    | Failed(error: CardError)  // `process_card` raised
    | Rejected                  // `process_card` gave nothing truthy
    | Extracted(card: Record)   // the processed card, with its quantity

  /** A reference, what became of it, and what the matcher logged for it. */
  datatype Lookup = Lookup(ref: CardReference, outcome: Outcome, log: seq<LogEntry>)

  /** What the loop has built so far, and the processing error that ended it, if any. */
  datatype Progress = Progress(cards: seq<Record>, found: nat, missing: nat, log: seq<LogEntry>, error: Option<CardError>)

  /** `processed_card["quantity"] = card_ref.quantity`. */
  function WithQuantity(processed: Record, ref: CardReference): (r: Record)
    ensures Get(r, "quantity") == Some(Int(ref.quantity))
    ensures forall k :: k != "quantity" ==> Get(r, k) == Get(processed, k)
  {
    Set(processed, "quantity", Int(ref.quantity))
  }

  /** `process_card(card_data, filters=None, schema=required_fields, additional_languages=None)`. */
  function Process(card: Record, keys: Option<seq<string>>): Result<Option<Record>, CardError>
  {
    ProcessCardSpec(card, None, keys, [])
  }

  /** A truthy card for the reference: `if card_data:`. */
  predicate Found(ref: CardReference, archive: Record)
    requires WellFormedArchive(archive)
  {
    var card := FindCardSpec(ref, archive).value;
    card.Some? && card.value != []
  }

  /** What became of a found card, given what `process_card` made of it. */
  function ProcessedOutcome(processed: Result<Option<Record>, CardError>, ref: CardReference): (o: Outcome)
    ensures o.Extracted? ==> Get(o.card, "quantity") == Some(Int(ref.quantity))
    ensures o.Failed? <==> processed.Failure?
    ensures o.Extracted? <==> processed.Success? && processed.value.Some? && processed.value.value != []
  {
    match processed
    case Failure(e) => Failed(e)
    case Success(out) => if out.Some? && out.value != [] then Extracted(WithQuantity(out.value, ref)) else Rejected
  }

  /** The body of the loop for one reference. */
  function LookupOf(ref: CardReference, archive: Record, keys: Option<seq<string>>): (l: Lookup)
    requires WellFormedArchive(archive)
    ensures l.ref == ref && l.log == FindCardSpec(ref, archive).log
    ensures l.outcome.Missing? <==> !Found(ref, archive)
    ensures l.outcome.Extracted? ==> Get(l.outcome.card, "quantity") == Some(Int(ref.quantity))
  {
    var log := FindCardSpec(ref, archive).log;
    if !Found(ref, archive) then Lookup(ref, Missing, log)
    else Lookup(ref, ProcessedOutcome(Process(FindCardSpec(ref, archive).value.value, keys), ref), log)
  }

  lemma LookupMissing(ref: CardReference, archive: Record, keys: Option<seq<string>>, card: Option<Record>)
    requires WellFormedArchive(archive) && card == FindCardSpec(ref, archive).value
    requires !(card.Some? && card.value != [])
    ensures LookupOf(ref, archive, keys) == Lookup(ref, Missing, FindCardSpec(ref, archive).log)
  {
  }

  lemma LookupFound(ref: CardReference, archive: Record, keys: Option<seq<string>>, card: Option<Record>,
                    processed: Result<Option<Record>, CardError>)
    requires WellFormedArchive(archive) && card == FindCardSpec(ref, archive).value
    requires card.Some? && card.value != [] && processed == Process(card.value, keys)
    ensures LookupOf(ref, archive, keys) == Lookup(ref, ProcessedOutcome(processed, ref), FindCardSpec(ref, archive).log)
  {
  }

  /** The loop's work on each reference, in deck-list order. */
  function Lookups(archive: Record, refs: seq<CardReference>, keys: Option<seq<string>>): (ls: seq<Lookup>)
    requires WellFormedArchive(archive)
    ensures |ls| == |refs|
  {
    seq(|refs|, i requires 0 <= i < |refs| => LookupOf(refs[i], archive, keys))
  }

  /** One iteration of the loop; after an error nothing changes. */
  function Apply(p: Progress, l: Lookup): Progress
  {
    if p.error.Some? then p
    else
      var log := p.log + l.log;
      match l.outcome
      case Missing => p.(missing := p.missing + 1, log := log)
      case Failed(e) => p.(log := log, error := Some(e))
      case Rejected => p.(log := log)
      case Extracted(card) => p.(cards := p.cards + [card], found := p.found + 1, log := log)
  }

  /** The loop over the lookups. */
  function Run(ls: seq<Lookup>): Progress
    decreases |ls|
  {
    if ls == [] then Progress([], 0, 0, [], None)
    else Apply(Run(ls[..|ls| - 1]), ls[|ls| - 1])
  }

  /** The loop run over `refs`. */
  function Extract(archive: Record, refs: seq<CardReference>, keys: Option<seq<string>>): Progress
    requires WellFormedArchive(archive)
  {
    Run(Lookups(archive, refs, keys))
  }

  lemma RunSnoc(ls: seq<Lookup>, i: nat)
    requires i < |ls|
    ensures Run(ls[..i + 1]) == Apply(Run(ls[..i]), ls[i])
  {
    assert ls[..i + 1][..i] == ls[..i];
  }

  /** The effect of one pass of the loop on the cards, the error and the counts. */
  lemma AdvanceStep(ls: seq<Lookup>, i: nat, l: Lookup, extracted: seq<Record>, err: Option<CardError>,
                    stats: DeckListStats, stats0: DeckListStats)
    requires i < |ls| && ls[i] == l && Run(ls[..i]).error.None?
    requires stats0.cardsFound == Run(ls[..i]).found && stats0.cardsMissing == Run(ls[..i]).missing
    requires err == (if l.outcome.Failed? then Some(l.outcome.error) else None)
    requires extracted == Run(ls[..i]).cards + (if l.outcome.Extracted? then [l.outcome.card] else [])
    requires stats.cardsFound == stats0.cardsFound + (if l.outcome.Extracted? then 1 else 0)
    requires stats.cardsMissing == stats0.cardsMissing + (if l.outcome.Missing? then 1 else 0)
    requires stats.totalCards == stats0.totalCards
    ensures var q := Run(ls[..i + 1]);
            && err == q.error && extracted == q.cards
            && stats == DeckListStats(q.found, q.missing, stats0.totalCards)
            && q.log == Run(ls[..i]).log + l.log
  {
    RunSnoc(ls, i);
  }

  lemma LogStep(before: seq<LogEntry>, log: seq<LogEntry>, step: seq<LogEntry>, log': seq<LogEntry>)
    requires log' == log + step
    ensures before + log + step == before + log'
  {
  }

  // ---------------------------------------------------------------------
  // Reference definitions and the properties of the loop

  /** The lookups that found no card. */
  function CountMissing(ls: seq<Lookup>): (n: nat)
    ensures n <= |ls|
    decreases |ls|
  {
    if ls == [] then 0
    else CountMissing(ls[..|ls| - 1]) + (if ls[|ls| - 1].outcome.Missing? then 1 else 0)
  }

  /** The references whose card was extracted, in deck-list order. */
  function Kept(ls: seq<Lookup>): (kept: seq<CardReference>)
    ensures |kept| <= |ls|
    decreases |ls|
  {
    if ls == [] then []
    else Kept(ls[..|ls| - 1]) + (if ls[|ls| - 1].outcome.Extracted? then [ls[|ls| - 1].ref] else [])
  }

  /** Each extracted card carries the quantity of its reference. */
  predicate Quantified(ls: seq<Lookup>)
  {
    forall i :: 0 <= i < |ls| && ls[i].outcome.Extracted? ==>
      Get(ls[i].outcome.card, "quantity") == Some(Int(ls[i].ref.quantity))
  }

  /**
   * `cards_found` counts the extracted cards, and found and missing
   * together never exceed the references.
   */
  lemma {:induction false} RunCounts(ls: seq<Lookup>)
    ensures Run(ls).found == |Run(ls).cards| && Run(ls).found + Run(ls).missing <= |ls|
    decreases |ls|
  {
    if ls != [] {
      RunCounts(ls[..|ls| - 1]);
    }
  }

  /** Once processing has failed, later references change nothing. */
  lemma {:induction false} ErrorSticks(ls: seq<Lookup>, i: nat)
    requires i <= |ls| && Run(ls[..i]).error.Some?
    ensures Run(ls) == Run(ls[..i])
    decreases |ls| - i
  {
    if i < |ls| {
      RunSnoc(ls, i);
      ErrorSticks(ls, i + 1);
    } else {
      assert ls[..i] == ls;
    }
  }

  /** Without a processing error, `cards_missing` is the number of references with no card. */
  lemma {:induction false} MissingCounted(ls: seq<Lookup>)
    requires Run(ls).error.None?
    ensures Run(ls).missing == CountMissing(ls)
    decreases |ls|
  {
    if ls != [] {
      var front := ls[..|ls| - 1];
      assert Run(front).error.None?;
      MissingCounted(front);
    }
  }

  /**
   * Without a processing error, the extracted cards are those of the kept
   * references, in deck-list order, each with its reference's quantity.
   */
  lemma {:induction false} QuantitiesInOrder(ls: seq<Lookup>)
    requires Quantified(ls) && Run(ls).error.None?
    ensures |Run(ls).cards| == |Kept(ls)|
    ensures forall k :: 0 <= k < |Kept(ls)| ==> Get(Run(ls).cards[k], "quantity") == Some(Int(Kept(ls)[k].quantity))
    decreases |ls|
  {
    if ls != [] {
      var front := ls[..|ls| - 1];
      assert Run(front).error.None?;
      assert Quantified(front) by {
        forall i | 0 <= i < |front| ensures front[i] == ls[i] { }
      }
      QuantitiesInOrder(front);
      var l := ls[|ls| - 1];
      if l.outcome.Extracted? {
        var cards, kept := Run(ls).cards, Kept(ls);
        assert cards == Run(front).cards + [l.outcome.card];
        assert kept == Kept(front) + [l.ref];
        forall k | 0 <= k < |kept|
          ensures Get(cards[k], "quantity") == Some(Int(kept[k].quantity))
        {
          if k == |Kept(front)| {
            assert Get(l.outcome.card, "quantity") == Some(Int(l.ref.quantity));
          } else {
            assert cards[k] == Run(front).cards[k] && kept[k] == Kept(front)[k];
          }
        }
      } else {
        assert Run(ls).cards == Run(front).cards && Kept(ls) == Kept(front);
      }
    }
  }

  /** The lookups of the references carry their quantities, and the loop is `Run` over them. */
  lemma ExtractQuantities(archive: Record, refs: seq<CardReference>, keys: Option<seq<string>>)
    requires WellFormedArchive(archive)
    requires Extract(archive, refs, keys).error.None?
    ensures var ls := Lookups(archive, refs, keys);
            && Extract(archive, refs, keys).missing == CountMissing(ls)
            && Extract(archive, refs, keys).found == |Kept(ls)| == |Extract(archive, refs, keys).cards|
            && forall k :: 0 <= k < |Kept(ls)| ==>
                 Get(Extract(archive, refs, keys).cards[k], "quantity") == Some(Int(Kept(ls)[k].quantity))
  {
    var ls := Lookups(archive, refs, keys);
    RunCounts(ls);
    MissingCounted(ls);
    QuantitiesInOrder(ls);
  }

  /** The missing references are exactly those without a truthy card. */
  lemma {:induction false} MissingAreNotFound(archive: Record, refs: seq<CardReference>, keys: Option<seq<string>>)
    requires WellFormedArchive(archive)
    ensures var ls := Lookups(archive, refs, keys);
            forall i :: 0 <= i < |refs| ==> (ls[i].outcome.Missing? <==> !Found(refs[i], archive))
  {
  }

  /**
   * A card projected onto the required fields: it holds `quantity`, every
   * required field that every base card carries, and no field that is
   * neither required nor `quantity`.
   */
  ghost predicate ProjectedFields(card: Record, keys: seq<string>)
  {
    && (forall f :: HasKey(card, f) ==> f in keys || f == "quantity")
    && HasKey(card, "quantity")
    && (forall f :: f in keys && HasKey(BaseDefaults(), f) ==> HasKey(card, f))
  }

  /**
   * With a list of required fields, a processed card holds exactly the
   * required fields its base card has, with the base card's values (save
   * `foreignData`, which is `[]` without languages), and `quantity`.
   */
  lemma ProcessedFields(card: Record, ref: CardReference, keys: seq<string>)
    requires ProcessedOutcome(Process(card, Some(keys)), ref).Extracted?
    ensures var out := ProcessedOutcome(Process(card, Some(keys)), ref).card;
            && ProjectedFields(out, keys)
            && forall f :: f != "quantity" && f != "foreignData" ==>
                 (HasKey(out, f) <==> f in keys && HasKey(CreateBaseCard(card), f))
                 && (HasKey(out, f) ==> Get(out, f) == Get(CreateBaseCard(card), f))
  {
    var base := CreateBaseCard(card);
    var out := Process(card, Some(keys));
    assert out == ProcessBaseCard(base, card, None, Some(keys), []);
    ProcessedCardWithSchema(base, card, None, keys, []);
    forall f | HasKey(BaseDefaults(), f) ensures HasKey(base, f) {
      CreateBaseCardField(card, f);
    }
    QuantityAdds(out.value.value, ref, keys);
  }

  /** Adding `quantity` to a projection adds that field and keeps every other. */
  lemma QuantityAdds(processed: Record, ref: CardReference, keys: seq<string>)
    requires forall f :: HasKey(processed, f) ==> f in keys
    requires forall f :: f in keys && HasKey(BaseDefaults(), f) ==> HasKey(processed, f)
    ensures ProjectedFields(WithQuantity(processed, ref), keys)
    ensures forall f :: f != "quantity" ==> (HasKey(WithQuantity(processed, ref), f) <==> HasKey(processed, f))
  {
    var r := WithQuantity(processed, ref);
    forall f | f != "quantity" ensures HasKey(r, f) <==> HasKey(processed, f) {
      assert Get(r, f) == Get(processed, f);
    }
  }

  lemma LookupFields(ref: CardReference, archive: Record, keys: seq<string>)
    requires WellFormedArchive(archive) && LookupOf(ref, archive, Some(keys)).outcome.Extracted?
    ensures ProjectedFields(LookupOf(ref, archive, Some(keys)).outcome.card, keys)
  {
    var card := FindCardSpec(ref, archive).value;
    LookupFound(ref, archive, Some(keys), card, Process(card.value, Some(keys)));
    ProcessedFields(card.value, ref, keys);
  }

  lemma {:induction false} RunFields(ls: seq<Lookup>, keys: seq<string>)
    requires forall i :: 0 <= i < |ls| && ls[i].outcome.Extracted? ==> ProjectedFields(ls[i].outcome.card, keys)
    ensures forall k :: 0 <= k < |Run(ls).cards| ==> ProjectedFields(Run(ls).cards[k], keys)
    decreases |ls|
  {
    if ls != [] {
      var front := ls[..|ls| - 1];
      assert forall i :: 0 <= i < |front| ==> front[i] == ls[i];
      RunFields(front, keys);
    }
  }

  /**
   * With a list of required fields, every extracted card holds `quantity`,
   * every required field that base cards always carry, and nothing else but
   * required fields.
   */
  lemma ExtractFields(archive: Record, refs: seq<CardReference>, keys: seq<string>)
    requires WellFormedArchive(archive)
    ensures var cards := Extract(archive, refs, Some(keys)).cards;
            && (forall k, f :: 0 <= k < |cards| && HasKey(cards[k], f) ==> f in keys || f == "quantity")
            && (forall k :: 0 <= k < |cards| ==> HasKey(cards[k], "quantity"))
            && (forall k, f :: 0 <= k < |cards| && f in keys && HasKey(BaseDefaults(), f) ==> HasKey(cards[k], f))
  {
    var ls := Lookups(archive, refs, Some(keys));
    forall i | 0 <= i < |ls| && ls[i].outcome.Extracted? ensures ProjectedFields(ls[i].outcome.card, keys) {
      LookupFields(refs[i], archive, keys);
    }
    RunFields(ls, keys);
  }

  /**
   * When every required field is one the base card always carries, every
   * extracted card has exactly the required fields and `quantity`.
   */
  lemma ExtractKeysExactly(archive: Record, refs: seq<CardReference>, keys: seq<string>)
    requires WellFormedArchive(archive)
    requires forall f :: f in keys ==> HasKey(BaseDefaults(), f)
    ensures var cards := Extract(archive, refs, Some(keys)).cards;
            forall k, f :: 0 <= k < |cards| ==> (HasKey(cards[k], f) <==> f in keys || f == "quantity")
  {
    ExtractFields(archive, refs, keys);
  }

  /** `name`, `type` and `colors` are among the fields every base card carries. */
  lemma NameTypeColorsAreDefaults()
    ensures forall f :: f in ["name", "type", "colors"] ==> HasKey(BaseDefaults(), f)
  {
    assert Keys(BaseDefaults())[0] == "name" && Keys(BaseDefaults())[1] == "type"
           && Keys(BaseDefaults())[2] == "colors";
  }

  /** When no reference has a card, all are missing and nothing is extracted. */
  lemma {:induction false} NothingFound(ls: seq<Lookup>)
    requires forall i :: 0 <= i < |ls| ==> ls[i].outcome.Missing?
    ensures Run(ls) == Progress([], 0, |ls|, Run(ls).log, None)
    decreases |ls|
  {
    if ls != [] {
      NothingFound(ls[..|ls| - 1]);
    }
  }

  // ---------------------------------------------------------------------
  // The service

  class DeckExtractorService {
    const logger: Logger
    const matcher: CardMatcher
    var stats: DeckListStats

    constructor(logger: Logger)
      ensures this.logger == logger && matcher.logger == logger
      ensures stats == DeckListStats(0, 0, 0)
    {
      this.logger := logger;
      matcher := new CardMatcher(logger);
      stats := DeckListStats(0, 0, 0);
    }

    /**
     * One pass of `extract_deck_cards`' loop, for the reference `refs[i]`:
     * finds the card, processes it when it is truthy, sets its quantity and
     * counts it as found or missing; `err` is the processing error that
     * ends the loop.
     */
    method Advance(archive: Record, ghost ls: seq<Lookup>, refs: seq<CardReference>, keys: Option<seq<string>>,
                   i: nat, extracted: seq<Record>, ghost before: seq<LogEntry>, ghost p: Progress)
      returns (extracted': seq<Record>, err: Option<CardError>, ghost q: Progress)
      requires WellFormedArchive(archive) && i < |refs| && matcher.logger == logger
      requires ls == Lookups(archive, refs, keys) && p == Run(ls[..i])
      requires p.error.None? && extracted == p.cards
      requires stats.cardsFound == p.found && stats.cardsMissing == p.missing
      requires logger.entries == before + p.log
      modifies this, logger
      ensures q == Run(ls[..i + 1])
      ensures err == q.error && extracted' == q.cards
      ensures stats == DeckListStats(q.found, q.missing, old(stats.totalCards))
      ensures logger.entries == before + q.log
    {
      var ref := refs[i];
      var card := matcher.FindCard(ref, archive);
      ghost var o: Outcome;
      extracted' := extracted;
      err := None;
      if card.Some? && card.value != [] {
        var processed := ProcessCard(card.value, None, keys, []);
        LookupFound(ref, archive, keys, card, processed);
        o := ProcessedOutcome(processed, ref);
        if processed.Failure? {
          err := Some(processed.error);
        } else if processed.value.Some? && processed.value.value != [] {
          extracted' := extracted + [WithQuantity(processed.value.value, ref)];
          stats := stats.(cardsFound := stats.cardsFound + 1);
        }
      } else {
        LookupMissing(ref, archive, keys, card);
        o := Missing;
        stats := stats.(cardsMissing := stats.cardsMissing + 1);
      }
      ghost var l := Lookup(ref, o, FindCardSpec(ref, archive).log);
      AdvanceStep(ls, i, l, extracted', err, stats, old(stats));
      q := Run(ls[..i + 1]);
      LogStep(before, p.log, l.log, q.log);
    }

    /**
     * `extract_deck_cards` from the loaded archive and the parsed deck list:
     * the extracted cards, or the processing error that stopped the loop.
     * Either way the statistics and the log are those of the loop up to
     * where it stopped.
     */
    method ExtractDeckCards(archive: Record, refs: seq<CardReference>, schema: Option<Json>)
      returns (r: Result<seq<Record>, CardError>)
      requires WellFormedArchive(archive)
      requires schema.Some? ==> !schema.value.Str?
      requires NamesList(GetRequiredFields(schema))
      requires matcher.logger == logger
      modifies this, logger
      ensures var p := Extract(archive, refs, SchemaKeys(GetRequiredFields(schema)));
              && stats == DeckListStats(p.found, p.missing, |refs|)
              && logger.entries == old(logger.entries) + p.log
              && r == (if p.error.Some? then Failure(p.error.value) else Success(p.cards))
    {
      stats := DeckListStats(0, 0, 0);
      var keys := SchemaKeys(GetRequiredFields(schema));
      stats := stats.(totalCards := |refs|);
      r := ExtractCards(archive, refs, keys);
    }

    /** The matching and counting loop of `extract_deck_cards`, after the statistics are reset. */
    method ExtractCards(archive: Record, refs: seq<CardReference>, keys: Option<seq<string>>)
      returns (r: Result<seq<Record>, CardError>)
      requires WellFormedArchive(archive) && matcher.logger == logger
      requires stats == DeckListStats(0, 0, |refs|)
      modifies this, logger
      ensures var p := Extract(archive, refs, keys);
              && stats == DeckListStats(p.found, p.missing, |refs|)
              && logger.entries == old(logger.entries) + p.log
              && r == (if p.error.Some? then Failure(p.error.value) else Success(p.cards))
    {
      ghost var ls := Lookups(archive, refs, keys);
      var extracted: seq<Record> := [];
      ghost var prog := Run(ls[..0]);
      for i := 0 to |refs|
        invariant prog == Run(ls[..i])
        invariant prog.error.None? && extracted == prog.cards
        invariant stats == DeckListStats(prog.found, prog.missing, |refs|)
        invariant logger.entries == old(logger.entries) + prog.log
      {
        var err;
        extracted, err, prog := Advance(archive, ls, refs, keys, i, extracted, old(logger.entries), prog);
        if err.Some? {
          ErrorSticks(ls, i + 1);
          return Failure(err.value);
        }
      }
      assert ls[..|refs|] == ls;
      return Success(extracted);
    }
  }
}

=== FILE: file_stream.dfy ===
/**
 * The streaming file processor: it takes the JSON parser's events for a
 * card archive, assembles each card from its field events, runs it through
 * the card processor and hands the survivors to the set writer, framed by a
 * metadata header and a closing brace.
 *
 * The parser is not part of this model: its output is the event sequence,
 * read twice (once for the metadata, once for the cards).
 */
module FileStream {
  import opened Wrappers
  import opened PyStrings
  import opened JsonValues
  import opened Logging
  import opened Models
  import opened Writer
  import Cards
  import FilterParser

  /** One parser event: the dotted path, the event kind and its value (`null` for `None`). */
  datatype Event = Event(prefix: string, kind: string, value: Json)

  /** A card processor's `process_card`: the card, the filters, the schema and the extra languages. */
  type Processor = (Record, Option<Record>, Option<seq<string>>, seq<string>) -> Result<Option<Record>, Cards.CardError>

  /** The card processor and what it is asked to do with every card. */
  datatype Options = Options(process: Processor, filters: Option<Record>, schema: Option<seq<string>>, languages: seq<string>)

  /** The pipeline's own card processor. */
  function CardProcessor(): Processor
  {
    (card, filters, schema, languages) => Cards.ProcessCardSpec(card, filters, schema, languages)
  }

  /** Why a finished card could not be handled: the processor or the writer raised. */
  datatype CardFailure = ProcessorFailed(cardError: Cards.CardError) | WriterFailed(writeError: WriteError)

  /** StreamProcessingError, raised at the event with this path. */
  datatype StreamError = StreamProcessingError(prefix: string, cause: CardFailure)

  const ProcessCardFailed := "Failed to process card"

  function HandlePrefixFailed(prefix: string): string
  {
    "Failed to handle prefix " + prefix
  }

  /** A path under `data.` has at least two segments and the first is `data`. */
  lemma DataPathSplits(prefix: string)
    requires StartsWith(prefix, "data.")
    ensures |Split(prefix, '.')| >= 2 && Split(prefix, '.')[0] == "data"
  {
    assert prefix == "data" + ['.'] + prefix[5..] by {
      assert prefix[..5] == "data.";
    }
    SplitPrefix("data", '.', prefix[5..]);
  }

  /** The set a path under `data.` belongs to: its second segment. */
  function SetNameOf(prefix: string): (name: string)
    requires StartsWith(prefix, "data.")
    ensures '.' !in name
  {
    DataPathSplits(prefix);
    Split(prefix, '.')[1]
  }

  /** The processor's state between events, with the writer's. */
  datatype StreamView = StreamView(card: Record, currentSet: Option<string>, writer: WriterView)

  datatype CardStep = CardStep(writer: WriterView, failure: Option<CardFailure>)

  /**
   * `_process_card`, given what the card processor returned for the card:
   * an error is a failure, a rejected card is dropped, a returned card is
   * written and a writer error is a failure.
   */
  function CardStepOf(w: WriterView, processed: Result<Option<Record>, Cards.CardError>, bufferSize: int,
                      dumps: Json -> string): (r: CardStep)
    ensures processed.Failure? ==> r == CardStep(w, Some(ProcessorFailed(processed.error)))
    ensures processed == Success(None) ==> r == CardStep(w, None)
    ensures processed.Success? && processed.value.Some? ==>
              r.writer == WriteSpec(w, Some(Obj(processed.value.value)), bufferSize, dumps).view
              && (r.failure.Some? <==> WriteSpec(w, Some(Obj(processed.value.value)), bufferSize, dumps).error.Some?)
              && (r.failure.Some? ==>
                    r.failure == Some(WriterFailed(WriteSpec(w, Some(Obj(processed.value.value)), bufferSize, dumps).error.value)))
  {
    match processed
    case Failure(e) => CardStep(w, Some(ProcessorFailed(e)))
    case Success(None) => CardStep(w, None)
    case Success(Some(c)) =>
      var s := WriteSpec(w, Some(Obj(c)), bufferSize, dumps);
      CardStep(s.view, match s.error case None => None case Some(e) => Some(WriterFailed(e)))
  }

  function ProcessCardStep(w: WriterView, card: Record, opts: Options, bufferSize: int, dumps: Json -> string)
    : CardStep
  {
    CardStepOf(w, opts.process(card, opts.filters, opts.schema, opts.languages), bufferSize, dumps)
  }

  /** The state after an event, the error it raised and what it logged. */
  datatype Handled = Handled(view: StreamView, error: Option<StreamError>, log: seq<LogEntry>)

  /** A failure is logged twice: once by `_process_card`, once by `_handle_prefix`. */
  function FailureLog(prefix: string): seq<LogEntry>
  {
    [LogEntry(Error, ProcessCardFailed), LogEntry(Error, HandlePrefixFailed(prefix))]
  }

  /**
   * `_handle_prefix` for one event. Paths outside `data.` and `.block` paths
   * change nothing. A `start_map` at `data.<set>.cards.item` starts an empty
   * card and, when the set differs from the last one seen, switches the
   * writer to it; the matching `end_map` processes and writes the card. An
   * event inside a card stores its value under the path's last segment.
   */
  function HandleSpec(v: StreamView, e: Event, opts: Options, bufferSize: int, dumps: Json -> string): (h: Handled)
    ensures h.error.None? ==> h.log == []
    ensures h.error.Some? ==> h.log == FailureLog(e.prefix) && h.error.value.prefix == e.prefix
    ensures !StartsWith(e.prefix, "data.") || EndsWith(e.prefix, ".block") ==> h == Handled(v, None, [])
  {
    if !StartsWith(e.prefix, "data.") || EndsWith(e.prefix, ".block") then Handled(v, None, [])
    else
      var setName := SetNameOf(e.prefix);
      if EndsWith(e.prefix, ".cards.item") then
        if e.kind == "start_map" then
          if v.currentSet != Some(setName) then
            Handled(StreamView([], Some(setName), Step(v.writer, Transition(setName), bufferSize, dumps)), None, [])
          else Handled(v.(card := []), None, [])
        else if e.kind == "end_map" then
          var s := ProcessCardStep(v.writer, v.card, opts, bufferSize, dumps);
          match s.failure
          case None => Handled(v.(writer := s.writer), None, [])
          case Some(f) => Handled(v.(writer := s.writer), Some(StreamProcessingError(e.prefix, f)), FailureLog(e.prefix))
        else Handled(v, None, [])
      else if StartsWith(e.prefix, "data." + setName + ".cards.item.") then
        Handled(v.(card := Set(v.card, FilterParser.LastSegment(e.prefix), e.value)), None, [])
      else Handled(v, None, [])
  }

  /** The events from `i` on, dispatching those under `data.` and stopping at the first failure. */
  function RunFrom(v: StreamView, events: seq<Event>, i: nat, opts: Options, bufferSize: int, dumps: Json -> string)
    : (h: Handled)
    requires i <= |events|
    decreases |events| - i
  {
    if i == |events| then Handled(v, None, [])
    else if !StartsWith(events[i].prefix, "data.") then RunFrom(v, events, i + 1, opts, bufferSize, dumps)
    else
      var h := HandleSpec(v, events[i], opts, bufferSize, dumps);
      if h.error.Some? then h else RunFrom(h.view, events, i + 1, opts, bufferSize, dumps)
  }

  /** The value of the first event at path `meta` from `i` on, or `null` when there is none. */
  function FirstMetaFrom(events: seq<Event>, i: nat): (m: Json)
    requires i <= |events|
    decreases |events| - i
  {
    if i == |events| then Null
    else if events[i].prefix == "meta" then events[i].value
    else FirstMetaFrom(events, i + 1)
  }

  /** `value or {}`. */
  function MetaOrEmpty(meta: Json): (m: Json)
    ensures Truthy(meta) ==> m == meta
    ensures !Truthy(meta) ==> m == Obj([])
  {
    if Truthy(meta) then meta else Obj([])
  }

  /** What `_write_metadata` writes. */
  function MetaHeader(meta: Json, dumps: Json -> string): string
  {
    "{" + "\"meta\":" + dumps(meta) + ",\"data\":{}"
  }

  /** The processor's state once the metadata is written: no card, no set, a new writer. */
  function StartView(out0: string, events: seq<Event>, dumps: Json -> string): StreamView
  {
    StreamView([], None, InitialView(out0 + MetaHeader(MetaOrEmpty(FirstMetaFrom(events, 0)), dumps)))
  }

  /** The sink's final text, the error that ended the stream if any, and the log. */
  datatype StreamResult = StreamResult(text: string, error: Option<StreamError>, log: seq<LogEntry>)

  /**
   * `process_file_stream` as written: the metadata header, whatever the
   * writer has written by the end, and `}` when no event failed. The writer
   * is never closed.
   */
  function StreamSpec(out0: string, events: seq<Event>, opts: Options, bufferSize: int, dumps: Json -> string)
    : StreamResult
  {
    var run := RunFrom(StartView(out0, events, dumps), events, 0, opts, bufferSize, dumps);
    StreamResult(run.view.writer.out + (if run.error.None? then "}" else ""), run.error, run.log)
  }

  /**
   * The same stream with the writer closed once the events are done, as a
   * `with` block around the writer would do (also when an event fails).
   */
  function ClosedStreamSpec(out0: string, events: seq<Event>, opts: Options, bufferSize: int, dumps: Json -> string)
    : StreamResult
  {
    var run := RunFrom(StartView(out0, events, dumps), events, 0, opts, bufferSize, dumps);
    StreamResult(CloseSpec(run.view.writer).out + (if run.error.None? then "}" else ""), run.error, run.log)
  }

  // ---------------------------------------------------------------------
  // Properties of the stream

  lemma CardStepKeepsValid(w: WriterView, processed: Result<Option<Record>, Cards.CardError>, bufferSize: int,
                           dumps: Json -> string)
    requires Valid(w, bufferSize)
    ensures Valid(CardStepOf(w, processed, bufferSize, dumps).writer, bufferSize)
  {
    if processed.Success? && processed.value.Some? {
      WriteKeepsValid(w, Some(Obj(processed.value.value)), bufferSize, dumps);
    }
  }

  /** Every event keeps the writer's invariant. */
  lemma HandleKeepsValid(v: StreamView, e: Event, opts: Options, bufferSize: int, dumps: Json -> string)
    requires Valid(v.writer, bufferSize)
    ensures Valid(HandleSpec(v, e, opts, bufferSize, dumps).view.writer, bufferSize)
  {
    if StartsWith(e.prefix, "data.") && !EndsWith(e.prefix, ".block") && EndsWith(e.prefix, ".cards.item") {
      var setName := SetNameOf(e.prefix);
      if e.kind == "start_map" {
        TransitionKeepsValid(v.writer, setName, bufferSize);
      } else if e.kind == "end_map" {
        CardStepKeepsValid(v.writer, opts.process(v.card, opts.filters, opts.schema, opts.languages), bufferSize, dumps);
      }
    }
  }

  lemma CardStepGrowsOutput(w: WriterView, processed: Result<Option<Record>, Cards.CardError>, bufferSize: int,
                            dumps: Json -> string)
    ensures StartsWith(CardStepOf(w, processed, bufferSize, dumps).writer.out, w.out)
    ensures CardStepOf(w, processed, bufferSize, dumps).writer.state == w.state
  {
    assert StartsWith(w.out, w.out);
    if processed.Success? && processed.value.Some? {
      OutputOnlyGrows(w, "", Some(Obj(processed.value.value)), bufferSize, dumps);
    }
  }

  /** The writer only ever grows the sink, and an open set is never closed by an event. */
  lemma HandleGrowsOutput(v: StreamView, e: Event, opts: Options, bufferSize: int, dumps: Json -> string)
    ensures StartsWith(HandleSpec(v, e, opts, bufferSize, dumps).view.writer.out, v.writer.out)
    ensures v.writer.state != SetClosed ==> HandleSpec(v, e, opts, bufferSize, dumps).view.writer.state != SetClosed
  {
    assert StartsWith(v.writer.out, v.writer.out);
    if StartsWith(e.prefix, "data.") && !EndsWith(e.prefix, ".block") && EndsWith(e.prefix, ".cards.item") {
      var setName := SetNameOf(e.prefix);
      if e.kind == "start_map" {
        OutputOnlyGrows(v.writer, setName, None, bufferSize, dumps);
      } else if e.kind == "end_map" {
        CardStepGrowsOutput(v.writer, opts.process(v.card, opts.filters, opts.schema, opts.languages), bufferSize, dumps);
      }
    }
  }

  lemma PrefixTransitive(a: string, b: string, c: string)
    requires StartsWith(b, a) && StartsWith(c, b)
    ensures StartsWith(c, a)
  {
    assert c[..|a|] == c[..|b|][..|a|];
  }

  /** A stream run only grows the sink and never closes the writer. */
  lemma {:induction false} RunGrowsOutput(v: StreamView, events: seq<Event>, i: nat, opts: Options, bufferSize: int,
                                          dumps: Json -> string)
    requires i <= |events|
    ensures StartsWith(RunFrom(v, events, i, opts, bufferSize, dumps).view.writer.out, v.writer.out)
    ensures v.writer.state != SetClosed ==> RunFrom(v, events, i, opts, bufferSize, dumps).view.writer.state != SetClosed
    decreases |events| - i
  {
    if i == |events| {
      assert StartsWith(v.writer.out, v.writer.out);
    } else if !StartsWith(events[i].prefix, "data.") {
      RunGrowsOutput(v, events, i + 1, opts, bufferSize, dumps);
    } else {
      var h := HandleSpec(v, events[i], opts, bufferSize, dumps);
      HandleGrowsOutput(v, events[i], opts, bufferSize, dumps);
      if h.error.None? {
        RunGrowsOutput(h.view, events, i + 1, opts, bufferSize, dumps);
        PrefixTransitive(v.writer.out, h.view.writer.out, RunFrom(h.view, events, i + 1, opts, bufferSize, dumps).view.writer.out);
      }
    }
  }

  /** A failed run logged exactly its failure, twice; a successful one logged nothing. */
  lemma {:induction false} FailureLoggedTwice(v: StreamView, events: seq<Event>, i: nat, opts: Options, bufferSize: int,
                                              dumps: Json -> string)
    requires i <= |events|
    ensures var h := RunFrom(v, events, i, opts, bufferSize, dumps);
            (h.error.None? ==> h.log == []) && (h.error.Some? ==> h.log == FailureLog(h.error.value.prefix))
    decreases |events| - i
  {
    if i < |events| {
      if !StartsWith(events[i].prefix, "data.") {
        FailureLoggedTwice(v, events, i + 1, opts, bufferSize, dumps);
      } else {
        var h := HandleSpec(v, events[i], opts, bufferSize, dumps);
        if h.error.None? {
          FailureLoggedTwice(h.view, events, i + 1, opts, bufferSize, dumps);
        }
      }
    }
  }

  /** Nothing after a failing event is processed: the events that follow change nothing. */
  lemma {:induction false} FailureStopsStream(v: StreamView, events: seq<Event>, more: seq<Event>, i: nat, opts: Options,
                                              bufferSize: int, dumps: Json -> string)
    requires i <= |events|
    requires RunFrom(v, events, i, opts, bufferSize, dumps).error.Some?
    ensures RunFrom(v, events + more, i, opts, bufferSize, dumps) == RunFrom(v, events, i, opts, bufferSize, dumps)
    decreases |events| - i
  {
    assert (events + more)[i] == events[i];
    if !StartsWith(events[i].prefix, "data.") {
      FailureStopsStream(v, events, more, i + 1, opts, bufferSize, dumps);
    } else {
      var h := HandleSpec(v, events[i], opts, bufferSize, dumps);
      if h.error.None? {
        FailureStopsStream(h.view, events, more, i + 1, opts, bufferSize, dumps);
      }
    }
  }

  /**
   * The output is framed: it begins with the metadata header, whose value is
   * the first `meta` event's value or `{}`, and a stream that did not fail
   * ends with a single `}` after what the writer wrote, which never includes
   * the closing `]}` of the last set.
   */
  lemma StreamFraming(out0: string, events: seq<Event>, opts: Options, bufferSize: int, dumps: Json -> string)
    ensures var s := StreamSpec(out0, events, opts, bufferSize, dumps);
            var run := RunFrom(StartView(out0, events, dumps), events, 0, opts, bufferSize, dumps);
            && StartsWith(s.text, out0 + MetaHeader(MetaOrEmpty(FirstMetaFrom(events, 0)), dumps))
            && (s.error.None? ==> s.text == run.view.writer.out + "}")
            && run.view.writer.state != SetClosed
  {
    var v0 := StartView(out0, events, dumps);
    var run := RunFrom(v0, events, 0, opts, bufferSize, dumps);
    RunGrowsOutput(v0, events, 0, opts, bufferSize, dumps);
    AppendExtends(v0.writer.out, run.view.writer.out, if run.error.None? then "}" else "");
  }

  /** An archive with no event under `data.` gives just the header and `}`. */
  lemma {:induction false} NoDataEvents(v: StreamView, events: seq<Event>, i: nat, opts: Options, bufferSize: int,
                                        dumps: Json -> string)
    requires i <= |events|
    requires forall k :: i <= k < |events| ==> !StartsWith(events[k].prefix, "data.")
    ensures RunFrom(v, events, i, opts, bufferSize, dumps) == Handled(v, None, [])
    decreases |events| - i
  {
    if i < |events| {
      NoDataEvents(v, events, i + 1, opts, bufferSize, dumps);
    }
  }

  lemma EmptyArchive(out0: string, events: seq<Event>, opts: Options, bufferSize: int, dumps: Json -> string)
    requires forall k :: 0 <= k < |events| ==> !StartsWith(events[k].prefix, "data.")
    ensures StreamSpec(out0, events, opts, bufferSize, dumps)
            == StreamResult(out0 + MetaHeader(MetaOrEmpty(FirstMetaFrom(events, 0)), dumps) + "}", None, [])
  {
    NoDataEvents(StartView(out0, events, dumps), events, 0, opts, bufferSize, dumps);
  }

  // ---------------------------------------------------------------------
  // Buffering and the unclosed writer

  function Flushed(v: StreamView): StreamView
  {
    v.(writer := FlushSpec(v.writer))
  }

  /** Whether a write fails does not depend on what is buffered. */
  lemma WriteErrorIgnoresBuffer(w: WriterView, card: Option<Json>, bufferSize: int, dumps: Json -> string)
    ensures WriteSpec(w, card, bufferSize, dumps).error == WriteSpec(FlushSpec(w), card, 1, dumps).error
  {
  }

  lemma CardStepFlushCommutes(w: WriterView, processed: Result<Option<Record>, Cards.CardError>, bufferSize: int,
                              dumps: Json -> string)
    requires Valid(w, bufferSize)
    ensures var a := CardStepOf(w, processed, bufferSize, dumps);
            var b := CardStepOf(FlushSpec(w), processed, 1, dumps);
            a.failure == b.failure && FlushSpec(a.writer) == b.writer
  {
    if processed.Success? && processed.value.Some? {
      StepFlushCommutes(w, Write(Some(Obj(processed.value.value))), bufferSize, dumps);
      WriteErrorIgnoresBuffer(w, Some(Obj(processed.value.value)), bufferSize, dumps);
    }
  }

  /** Flushing after an event is the same as flushing before it and running it unbuffered. */
  lemma HandleFlushCommutes(v: StreamView, e: Event, opts: Options, bufferSize: int, dumps: Json -> string)
    requires Valid(v.writer, bufferSize)
    ensures var h := HandleSpec(v, e, opts, bufferSize, dumps);
            var g := HandleSpec(Flushed(v), e, opts, 1, dumps);
            h.error == g.error && h.log == g.log && Flushed(h.view) == g.view
  {
    if StartsWith(e.prefix, "data.") && !EndsWith(e.prefix, ".block") && EndsWith(e.prefix, ".cards.item") {
      var setName := SetNameOf(e.prefix);
      if e.kind == "start_map" {
        StepFlushCommutes(v.writer, Transition(setName), bufferSize, dumps);
      } else if e.kind == "end_map" {
        CardStepFlushCommutes(v.writer, opts.process(v.card, opts.filters, opts.schema, opts.languages), bufferSize, dumps);
      }
    }
  }

  lemma {:induction false} RunFlushCommutesStream(v: StreamView, events: seq<Event>, i: nat, opts: Options,
                                                  bufferSize: int, dumps: Json -> string)
    requires i <= |events| && Valid(v.writer, bufferSize)
    ensures var h := RunFrom(v, events, i, opts, bufferSize, dumps);
            var g := RunFrom(Flushed(v), events, i, opts, 1, dumps);
            h.error == g.error && h.log == g.log && Flushed(h.view) == g.view && Valid(h.view.writer, bufferSize)
    decreases |events| - i
  {
    if i == |events| {
    } else if !StartsWith(events[i].prefix, "data.") {
      RunFlushCommutesStream(v, events, i + 1, opts, bufferSize, dumps);
    } else {
      HandleFlushCommutes(v, events[i], opts, bufferSize, dumps);
      HandleKeepsValid(v, events[i], opts, bufferSize, dumps);
      var h := HandleSpec(v, events[i], opts, bufferSize, dumps);
      if h.error.None? {
        RunFlushCommutesStream(h.view, events, i + 1, opts, bufferSize, dumps);
      }
    }
  }

  /** Closing writes the same text whether or not the buffer was flushed first. */
  lemma CloseAfterFlush(w: WriterView, bufferSize: int)
    requires Valid(w, bufferSize)
    ensures CloseSpec(w).out == CloseSpec(FlushSpec(w)).out
  {
  }

  /**
   * With the writer closed at the end, the output does not depend on the
   * buffer size: every card the writer accepted reaches the sink.
   */
  lemma ClosedStreamAnyBufferSize(out0: string, events: seq<Event>, opts: Options, size1: int, size2: int,
                                  dumps: Json -> string)
    ensures ClosedStreamSpec(out0, events, opts, size1, dumps) == ClosedStreamSpec(out0, events, opts, size2, dumps)
  {
    var v0 := StartView(out0, events, dumps);
    InitialValid(v0.writer.out, size1);
    InitialValid(v0.writer.out, size2);
    assert Flushed(v0) == v0;
    RunFlushCommutesStream(v0, events, 0, opts, size1, dumps);
    RunFlushCommutesStream(v0, events, 0, opts, size2, dumps);
    CloseAfterFlush(RunFrom(v0, events, 0, opts, size1, dumps).view.writer, size1);
    CloseAfterFlush(RunFrom(v0, events, 0, opts, size2, dumps).view.writer, size2);
  }

  /** The path of a card of set `setName`. */
  function CardPath(setName: string): string
  {
    "data." + setName + ".cards.item"
  }

  /** The path of field `key` of a card of set `setName`. */
  function FieldPath(setName: string, key: string): string
  {
    CardPath(setName) + "." + key
  }

  /** The events of an archive holding one set with one card that has a name and a type. */
  function OneCardArchive(setName: string, name: Json, cardType: Json): seq<Event>
  {
    [Event(CardPath(setName), "start_map", Null),
     Event(FieldPath(setName, "name"), "string", name),
     Event(FieldPath(setName, "type"), "string", cardType),
     Event(CardPath(setName), "end_map", Null)]
  }

  /** How `_handle_prefix` reads a card path. */
  lemma CardPathFacts(setName: string)
    requires '.' !in setName
    ensures var p := CardPath(setName);
            StartsWith(p, "data.") && !EndsWith(p, ".block") && EndsWith(p, ".cards.item") && SetNameOf(p) == setName
  {
    var p := CardPath(setName);
    assert p[..5] == "data.";
    assert p[|p| - 6] == 's';
    assert p[|p| - 11..] == ".cards.item";
    var parts := ["data", setName, "cards", "item"];
    assert Join(parts, '.') == p by {
      assert Join(parts[3..], '.') == "item";
      assert Join(parts[2..], '.') == "cards" + "." + "item";
      assert Join(parts[1..], '.') == setName + "." + "cards" + "." + "item";
    }
    SplitJoin(parts, '.');
  }

  /** How `_handle_prefix` reads the path of a card's `name` or `type` field. */
  lemma FieldPathFacts(setName: string, key: string)
    requires '.' !in setName && (key == "name" || key == "type")
    ensures var p := CardPath(setName) + "." + key;
            StartsWith(p, "data.") && !EndsWith(p, ".block") && !EndsWith(p, ".cards.item")
            && SetNameOf(p) == setName && FilterParser.LastSegment(p) == key
            && StartsWith(p, "data." + setName + ".cards.item.")
  {
    var p := CardPath(setName) + "." + key;
    assert p == "data." + setName + ".cards.item." + key;
    assert p[..5] == "data.";
    assert p[|p| - 6] != '.';
    assert p[|p| - 11] != '.';
    assert p[..|"data." + setName + ".cards.item."|] == "data." + setName + ".cards.item.";
    FilterParser.FieldPathJoin(setName, key);
    SplitJoin(["data", setName, "cards", "item", key], '.');
  }

  /** A card's `start_map` in a set other than the current one switches the writer to the set. */
  lemma CardStartSwitchesSet(v: StreamView, setName: string, opts: Options, bufferSize: int, dumps: Json -> string)
    requires '.' !in setName && v.currentSet != Some(setName)
    ensures StartsWith(CardPath(setName), "data.")
    ensures HandleSpec(v, Event(CardPath(setName), "start_map", Null), opts, bufferSize, dumps) ==
            Handled(StreamView([], Some(setName), TransitionSpec(v.writer, setName)), None, [])
  {
    CardPathFacts(setName);
  }

  /** A `name` or `type` event inside a card stores the value under that field. */
  lemma FieldEventStores(v: StreamView, setName: string, key: string, value: Json, opts: Options, bufferSize: int,
                         dumps: Json -> string)
    requires '.' !in setName && (key == "name" || key == "type")
    ensures StartsWith(FieldPath(setName, key), "data.")
    ensures HandleSpec(v, Event(FieldPath(setName, key), "string", value), opts, bufferSize, dumps) ==
            Handled(v.(card := Set(v.card, key, value)), None, [])
  {
    FieldPathFacts(setName, key);
  }

  /** A card's `end_map` whose card is processed and written without failure. */
  lemma CardEndWrites(v: StreamView, setName: string, opts: Options, bufferSize: int, dumps: Json -> string)
    requires '.' !in setName
    requires ProcessCardStep(v.writer, v.card, opts, bufferSize, dumps).failure.None?
    ensures StartsWith(CardPath(setName), "data.")
    ensures HandleSpec(v, Event(CardPath(setName), "end_map", Null), opts, bufferSize, dumps) ==
            Handled(v.(writer := ProcessCardStep(v.writer, v.card, opts, bufferSize, dumps).writer), None, [])
  {
    CardPathFacts(setName);
  }

  /** The first card of a freshly opened set is buffered, and flushed at once only by a one-fragment buffer. */
  lemma FirstCardOfSet(w: WriterView, c: Record, bufferSize: int, dumps: Json -> string)
    requires w.state == SetOpen && w.currentSet.Some? && w.buffer == [] && w.isFirstCard
    requires CardWritable(Obj(c))
    ensures var r := WriteSpec(w, Some(Obj(c)), bufferSize, dumps);
            r.error.None? && Logical(r.view) == Logical(w) + dumps(Obj(c))
            && r.view.out == w.out + (if bufferSize <= 1 then dumps(Obj(c)) else "")
            && CloseSpec(r.view).out == w.out + dumps(Obj(c)) + "]}"
  {
    assert Logical(w) == w.out;
  }

  /** One event under `data.` that raises nothing moves the run on to the next event. */
  lemma RunStep(v: StreamView, w: StreamView, events: seq<Event>, i: nat, opts: Options, bufferSize: int,
                dumps: Json -> string)
    requires i < |events| && StartsWith(events[i].prefix, "data.")
    requires HandleSpec(v, events[i], opts, bufferSize, dumps) == Handled(w, None, [])
    ensures RunFrom(v, events, i, opts, bufferSize, dumps) == RunFrom(w, events, i + 1, opts, bufferSize, dumps)
  {
  }

  /** The run of `OneCardArchive` up to its `end_map`: the set is open and the card assembled. */
  lemma OneCardAssembled(setName: string, name: Json, cardType: Json, opts: Options, bufferSize: int,
                         dumps: Json -> string)
    requires '.' !in setName
    ensures var events := OneCardArchive(setName, name, cardType);
            RunFrom(StartView("", events, dumps), events, 0, opts, bufferSize, dumps) ==
            RunFrom(StreamView([("name", name), ("type", cardType)], Some(setName),
                               TransitionSpec(InitialView(MetaHeader(Obj([]), dumps)), setName)),
                    events, 3, opts, bufferSize, dumps)
  {
    var events := OneCardArchive(setName, name, cardType);
    var v0 := StartView("", events, dumps);
    OneCardStartView(setName, name, cardType, dumps);
    var v1 := StreamView([], Some(setName), TransitionSpec(v0.writer, setName));
    CardStartSwitchesSet(v0, setName, opts, bufferSize, dumps);
    RunStep(v0, v1, events, 0, opts, bufferSize, dumps);
    OneCardFields(v1, setName, name, cardType, opts, bufferSize, dumps);
  }

  /** The archive has no `meta` entry: the writer starts after an empty metadata header. */
  lemma OneCardStartView(setName: string, name: Json, cardType: Json, dumps: Json -> string)
    ensures StartView("", OneCardArchive(setName, name, cardType), dumps)
            == StreamView([], None, InitialView(MetaHeader(Obj([]), dumps)))
  {
    var events := OneCardArchive(setName, name, cardType);
    forall i | 0 <= i < 4 ensures events[i].prefix != "meta" {
      assert events[i].prefix[0] == 'd';
    }
    assert FirstMetaFrom(events, 4) == Null;
    assert FirstMetaFrom(events, 3) == Null;
    assert FirstMetaFrom(events, 2) == Null;
    assert FirstMetaFrom(events, 1) == Null;
  }

  /** The two field events of the archive fill the card, in order. */
  lemma OneCardFields(v1: StreamView, setName: string, name: Json, cardType: Json, opts: Options, bufferSize: int,
                      dumps: Json -> string)
    requires '.' !in setName && v1.card == []
    ensures var events := OneCardArchive(setName, name, cardType);
            RunFrom(v1, events, 1, opts, bufferSize, dumps)
            == RunFrom(v1.(card := [("name", name), ("type", cardType)]), events, 3, opts, bufferSize, dumps)
  {
    var events := OneCardArchive(setName, name, cardType);
    var v2 := v1.(card := [("name", name)]);
    var v3 := v1.(card := [("name", name), ("type", cardType)]);
    calc {
      RunFrom(v1, events, 1, opts, bufferSize, dumps);
      { FieldEventStores(v1, setName, "name", name, opts, bufferSize, dumps);
        assert Set([], "name", name) == [("name", name)];
        RunStep(v1, v2, events, 1, opts, bufferSize, dumps); }
      RunFrom(v2, events, 2, opts, bufferSize, dumps);
      { FieldEventStores(v2, setName, "type", cardType, opts, bufferSize, dumps);
        assert Set([("name", name)], "type", cardType) == [("name", name), ("type", cardType)] by {
          assert !HasKey([("name", name)], "type");
        }
        RunStep(v2, v3, events, 2, opts, bufferSize, dumps); }
      RunFrom(v3, events, 3, opts, bufferSize, dumps);
    }
  }

  /**
   * The unclosed writer loses cards: a one-card archive whose card passes
   * comes out with the card only when the buffer holds a single fragment;
   * with any larger buffer the card is still buffered when the stream ends,
   * and the set is never closed. Closing the writer writes both.
   */
  lemma BufferedCardIsLost(setName: string, name: Json, cardType: Json, opts: Options, c: Record, bufferSize: int,
                           dumps: Json -> string)
    requires '.' !in setName
    requires opts.process([("name", name), ("type", cardType)], opts.filters, opts.schema, opts.languages) == Success(Some(c))
    requires CardWritable(Obj(c))
    ensures StreamSpec("", OneCardArchive(setName, name, cardType), opts, bufferSize, dumps).text ==
            MetaHeader(Obj([]), dumps) + SetHeader(setName) + (if bufferSize <= 1 then dumps(Obj(c)) else "") + "}"
    ensures ClosedStreamSpec("", OneCardArchive(setName, name, cardType), opts, bufferSize, dumps).text ==
            MetaHeader(Obj([]), dumps) + SetHeader(setName) + dumps(Obj(c)) + "]}" + "}"
  {
    var events := OneCardArchive(setName, name, cardType);
    OneCardAssembled(setName, name, cardType, opts, bufferSize, dumps);
    var w1 := TransitionSpec(InitialView(MetaHeader(Obj([]), dumps)), setName);
    assert w1.out == MetaHeader(Obj([]), dumps) + SetHeader(setName);
    var v3 := StreamView([("name", name), ("type", cardType)], Some(setName), w1);
    var w := WriteSpec(w1, Some(Obj(c)), bufferSize, dumps);
    FirstCardOfSet(w1, c, bufferSize, dumps);
    CardEndWrites(v3, setName, opts, bufferSize, dumps);
    RunStep(v3, v3.(writer := w.view), events, 3, opts, bufferSize, dumps);
  }

  // ---------------------------------------------------------------------
  // The processor object

  /** The per-stream state dictionary of the source, as an object. */
  class StreamState {
    var metaWritten: bool
    var currentCard: Record
    var currentSet: Option<string>
    var metaValue: Json

    constructor()
      ensures !metaWritten && currentCard == [] && currentSet == None && metaValue == Null
    {
      metaWritten := false;
      currentCard := [];
      currentSet := None;
      metaValue := Null;
    }
  }

  function Snapshot(state: StreamState, setWriter: CardSetWriter): StreamView
    reads state, setWriter, setWriter.outfile
  {
    StreamView(state.currentCard, state.currentSet, setWriter.View())
  }

  class FileProcessor {
    const logger: Logger

    constructor(logger: Logger)
      ensures this.logger == logger
    {
      this.logger := logger;
    }

    method ProcessCard(card: Record, opts: Options, setWriter: CardSetWriter) returns (failure: Option<CardFailure>)
      modifies setWriter, setWriter.outfile, logger
      ensures var s := CardStepOf(old(setWriter.View()), opts.process(card, opts.filters, opts.schema, opts.languages),
                                  setWriter.bufferSize, setWriter.dumps);
              setWriter.View() == s.writer && failure == s.failure
      ensures logger.entries == old(logger.entries) + (if failure.Some? then [LogEntry(Error, ProcessCardFailed)] else [])
    {
      var processed := opts.process(card, opts.filters, opts.schema, opts.languages);
      failure := WriteProcessed(processed, setWriter);
    }

    /** The part of `_process_card` after the processor has returned. */
    method WriteProcessed(processed: Result<Option<Record>, Cards.CardError>, setWriter: CardSetWriter)
      returns (failure: Option<CardFailure>)
      modifies setWriter, setWriter.outfile, logger
      ensures var s := CardStepOf(old(setWriter.View()), processed, setWriter.bufferSize, setWriter.dumps);
              setWriter.View() == s.writer && failure == s.failure
      ensures logger.entries == old(logger.entries) + (if failure.Some? then [LogEntry(Error, ProcessCardFailed)] else [])
    {
      if processed.Failure? {
        logger.Log(Error, ProcessCardFailed);
        return Some(ProcessorFailed(processed.error));
      }
      if processed.value.Some? {
        var err := setWriter.WriteProcessedCard(Some(Obj(processed.value.value)));
        if err.Some? {
          logger.Log(Error, ProcessCardFailed);
          return Some(WriterFailed(err.value));
        }
      }
      return None;
    }

    method HandlePrefix(e: Event, state: StreamState, setWriter: CardSetWriter, opts: Options)
      returns (err: Option<StreamError>)
      modifies state, setWriter, setWriter.outfile, logger
      ensures var h := HandleSpec(old(Snapshot(state, setWriter)), e, opts, setWriter.bufferSize, setWriter.dumps);
              Snapshot(state, setWriter) == h.view && err == h.error && logger.entries == old(logger.entries) + h.log
    {
      if !StartsWith(e.prefix, "data.") || EndsWith(e.prefix, ".block") {
        return None;
      }
      var setName := SetNameOf(e.prefix);
      if EndsWith(e.prefix, ".cards.item") {
        if e.kind == "start_map" {
          state.currentCard := [];
          if state.currentSet != Some(setName) {
            setWriter.HandleSetTransition(setName);
            state.currentSet := Some(setName);
          }
        } else if e.kind == "end_map" {
          var failure := ProcessCard(state.currentCard, opts, setWriter);
          if failure.Some? {
            logger.Log(Error, HandlePrefixFailed(e.prefix));
            return Some(StreamProcessingError(e.prefix, failure.value));
          }
        }
      } else if StartsWith(e.prefix, "data." + setName + ".cards.item.") {
        var cardKey := FilterParser.LastSegment(e.prefix);
        state.currentCard := Set(state.currentCard, cardKey, e.value);
      }
      return None;
    }

    method WriteMetadata(outfile: Sink, meta: Json, dumps: Json -> string)
      modifies outfile
      ensures outfile.text == old(outfile.text) + MetaHeader(meta, dumps)
    {
      outfile.Write("{");
      var metadataJson := dumps(meta);
      outfile.Write("\"meta\":");
      outfile.Write(metadataJson);
      outfile.Write(",\"data\":{}");
    }

    method ProcessFileStream(events: seq<Event>, outfile: Sink, opts: Options, bufferSize: int, dumps: Json -> string)
      returns (err: Option<StreamError>)
      modifies outfile, logger
      ensures var s := StreamSpec(old(outfile.text), events, opts, bufferSize, dumps);
              outfile.text == s.text && err == s.error && logger.entries == old(logger.entries) + s.log
    {
      var setWriter := new CardSetWriter(outfile, bufferSize, dumps);
      var state := new StreamState();

      // First pass: the first `meta` event's value.
      var i := 0;
      while i < |events|
        invariant i <= |events|
        invariant FirstMetaFrom(events, i) == FirstMetaFrom(events, 0)
        invariant state.metaValue == Null
      {
        if events[i].prefix == "meta" {
          state.metaValue := events[i].value;
          break;
        }
        i := i + 1;
      }
      assert state.metaValue == FirstMetaFrom(events, 0);

      WriteMetadata(outfile, MetaOrEmpty(state.metaValue), dumps);
      state.metaWritten := true;
      assert Snapshot(state, setWriter) == StartView(old(outfile.text), events, dumps);

      // Main pass.
      i := 0;
      while i < |events|
        invariant i <= |events|
        invariant RunFrom(Snapshot(state, setWriter), events, i, opts, bufferSize, dumps)
                  == RunFrom(StartView(old(outfile.text), events, dumps), events, 0, opts, bufferSize, dumps)
        invariant logger.entries == old(logger.entries)
      {
        if StartsWith(events[i].prefix, "data.") {
          err := HandlePrefix(events[i], state, setWriter, opts);
          if err.Some? {
            return err;
          }
        }
        i := i + 1;
      }

      outfile.Write("}");
      return None;
    }
  }
}

=== FILE: filter_parser.dfy ===
/**
 * The filter-string parser and the card-data event handler.
 *
 * A filter string is decoded by a JSON decoder that is not part of this
 * model: `ParseFilterString` takes the decoder's result, `None` standing for
 * a decoding error (malformed or empty text).
 */
module FilterParser {
  import opened Wrappers
  import opened PyStrings
  import opened JsonValues
  import opened Logging
  import Cards

  // ---------------------------------------------------------------------
  // Filter strings

  /** The two kinds of FilterParseError. */
  datatype ParseError = InvalidFilterJson | ErrorParsingFilter

  function ParseErrorMessage(e: ParseError): string
  {
    match e
    case InvalidFilterJson => "Invalid filter JSON"
    case ErrorParsingFilter => "Error parsing filter"
  }

  /** Whether a filter value is a shorthand for equality (`str`, `int` and `float`, so also `bool`). */
  predicate IsScalar(v: Json)
  {
    v.Str? || v.Bool? || v.Int? || v.Float?
  }

  /** A bare value `v` means `{"eq": v}`, a list `{"in": v}`; anything else is taken as written. */
  function NormalizeCondition(v: Json): Json
  {
    if IsScalar(v) then Obj([("eq", v)])
    else if v.Arr? then Obj([("in", v)])
    else v
  }

  /** Every field of a decoded filter with its condition normalised, in the same order. */
  function NormalizeFilters(raw: Record): (r: Record)
    ensures |r| == |raw|
    ensures Keys(r) == Keys(raw)
    ensures forall i :: 0 <= i < |raw| ==> r[i] == (raw[i].0, NormalizeCondition(raw[i].1))
  {
    if raw == [] then []
    else
      var rest := NormalizeFilters(raw[1..]);
      var r := [(raw[0].0, NormalizeCondition(raw[0].1))] + rest;
      assert Keys(r) == [raw[0].0] + Keys(rest);
      assert Keys(raw) == [raw[0].0] + Keys(raw[1..]);
      r
  }

  /**
   * `parse_filter_string`: a decoding error is "Invalid filter JSON"; a
   * decoded value that is not an object is "Error parsing filter"; both log
   * one error. An object is normalised field by field.
   */
  function ParseFilterString(decoded: Option<Json>): (r: Logged<Result<Record, ParseError>>)
    ensures decoded.None? ==> r.value == Failure(InvalidFilterJson)
    ensures decoded.Some? && !decoded.value.Obj? ==> r.value == Failure(ErrorParsingFilter)
    ensures r.value.Failure? <==> |r.log| == 1
    ensures r.value.Failure? ==> r.log == [LogEntry(Error, ParseErrorMessage(r.value.error))]
    ensures r.value.Success? ==> decoded.Some? && decoded.value.Obj?
                                 && Keys(r.value.value) == Keys(decoded.value.fields)
                                 && r.value.value == NormalizeFilters(decoded.value.fields)
                                 && r.log == []
    ensures decoded.Some? && decoded.value.Obj? ==>
              r.value == Success(NormalizeFilters(decoded.value.fields)) && r.log == []
  {
    match decoded
    case None => Logged(Failure(InvalidFilterJson), [LogEntry(Error, ParseErrorMessage(InvalidFilterJson))])
    case Some(Obj(raw)) => Logged(Success(NormalizeFilters(raw)), [])
    case Some(_) => Logged(Failure(ErrorParsingFilter), [LogEntry(Error, ParseErrorMessage(ErrorParsingFilter))])
  }

  /** Looking a field up in the parsed filter finds its normalised condition. */
  lemma {:induction false} ParsedFilterGet(raw: Record, k: string)
    ensures Get(NormalizeFilters(raw), k) ==
            (match Get(raw, k) case None => None case Some(v) => Some(NormalizeCondition(v)))
    decreases |raw|
  {
    if raw != [] && raw[0].0 != k {
      ParsedFilterGet(raw[1..], k);
      assert NormalizeFilters(raw)[1..] == NormalizeFilters(raw[1..]);
    }
  }

  /** A parsed filter is already in structured form: parsing it again changes nothing. */
  lemma ParseIdempotent(raw: Record)
    ensures ParseFilterString(Some(Obj(NormalizeFilters(raw)))) == ParseFilterString(Some(Obj(raw)))
  {
    NormalizeTwice(raw);
  }

  /** Normalising a normalised filter gives it back. */
  lemma NormalizeTwice(raw: Record)
    ensures NormalizeFilters(NormalizeFilters(raw)) == NormalizeFilters(raw)
  {
    var once := NormalizeFilters(raw);
    var twice := NormalizeFilters(once);
    forall i | 0 <= i < |once| ensures twice[i] == once[i] {
      NormalizeConditionTwice(raw[i].1);
    }
  }

  /** A normalised condition is left as it is. */
  lemma NormalizeConditionTwice(v: Json)
    ensures NormalizeCondition(NormalizeCondition(v)) == NormalizeCondition(v)
  {
  }

  /** Every condition of a parsed filter is an object or `null`. */
  lemma ParsedConditionsShape(raw: Record)
    ensures forall i :: 0 <= i < |raw| ==>
              NormalizeFilters(raw)[i].1.Obj? || NormalizeFilters(raw)[i].1.Null?
  {
  }

  /**
   * What the shorthands mean to the card processor: a bare value on a field
   * is equality with the card's value, a list is membership of the card's
   * value in the list, and a card without the field does not match.
   */
  lemma ShorthandMeaning(card: Record, k: string, v: Json)
    requires IsScalar(v) || v.Arr?
    ensures !HasKey(card, k) ==> Cards.FieldOutcome(card, (k, NormalizeCondition(v))) == Success(false)
    ensures HasKey(card, k) && IsScalar(v) ==>
              Cards.FieldOutcome(card, (k, NormalizeCondition(v))) == Success(PyEq(Get(card, k).value, v))
    ensures HasKey(card, k) && v.Arr? ==>
              Cards.FieldOutcome(card, (k, NormalizeCondition(v))) ==
              Success(exists i :: 0 <= i < |v.items| && PyEq(v.items[i], Get(card, k).value))
  {
    if HasKey(card, k) {
      var c := NormalizeCondition(v);
      var os := Cards.Outcomes(Get(card, k).value, c.fields);
      assert |os| == 1;
      assert Cards.ScanFrom(os, 1) == Success(true);
    }
  }

  // ---------------------------------------------------------------------
  // Prefixes and card-data events

  const NotAStringMessage := "Invalid prefix: None or non-string value"

  /**
   * `validate_prefix`: a path is valid when it has at least two dot-separated
   * segments and the first is `data`; the second names the set. `None`
   * stands for a missing or non-string prefix.
   */
  function ValidatePrefix(prefix: Option<string>): (r: (bool, string))
    ensures prefix.None? || prefix == Some("") ==> r == (false, NotAStringMessage)
    ensures prefix.Some? && prefix.value != "" ==>
              && (r.0 <==> |Split(prefix.value, '.')| >= 2 && Split(prefix.value, '.')[0] == "data")
              && (r.0 ==> r.1 == Split(prefix.value, '.')[1])
              && (!r.0 ==> r.1 == "Invalid prefix format: " + prefix.value)
  {
    if prefix.None? || prefix.value == "" then (false, NotAStringMessage)
    else
      var parts := Split(prefix.value, '.');
      if |parts| < 2 then (false, "Invalid prefix format: " + prefix.value)
      else if parts[0] != "data" then (false, "Invalid prefix format: " + prefix.value)
      else (true, parts[1])
  }

  /** Any path `data.<set>....` whose segments hold no dot names its set, whatever follows. */
  lemma ValidPathNamesSet(parts: seq<string>)
    requires |parts| >= 2 && parts[0] == "data"
    requires forall i :: 0 <= i < |parts| ==> '.' !in parts[i]
    ensures ValidatePrefix(Some(Join(parts, '.'))) == (true, parts[1])
  {
    var path := Join(parts, '.');
    SplitJoin(parts, '.');
    assert path != "" by {
      assert path == "data" + "." + Join(parts[1..], '.');
    }
    ValidWhenSplits(path);
  }

  lemma ValidWhenSplits(path: string)
    requires path != "" && |Split(path, '.')| >= 2 && Split(path, '.')[0] == "data"
    ensures ValidatePrefix(Some(path)) == (true, Split(path, '.')[1])
  {
  }

  /** The last dot-separated segment of a path. */
  function LastSegment(prefix: string): (key: string)
    ensures '.' !in key
  {
    var parts := Split(prefix, '.');
    parts[|parts| - 1]
  }

  /** What a card-data event does to the card being assembled. */
  datatype CardUpdate =
    | Keep                          // the card is left as it is
    | StartCard                     // a new, empty card
    | Assign(key: string, value: Json)  // the card's `key` is set to `value`

  /**
   * The decision `process_card_data` takes for one event: `.block` paths are
   * ignored before any validation; an invalid path is an error with the
   * validator's message; a `start_map` at a card starts a new card; a path
   * inside a card sets the field named by its last segment.
   */
  function CardDataStep(prefix: string, event: string, value: Json): (r: Result<(Option<string>, CardUpdate), string>)
    ensures EndsWith(prefix, ".block") ==> r == Success((None, Keep))
    ensures !EndsWith(prefix, ".block") ==>
              (r.Failure? <==> !ValidatePrefix(Some(prefix)).0)
              && (r.Failure? ==> r.error == ValidatePrefix(Some(prefix)).1)
              && (r.Success? ==> r.value.0 == Some(ValidatePrefix(Some(prefix)).1))
    ensures r.Success? && r.value.1.Assign? ==>
              r.value.1 == Assign(LastSegment(prefix), value)
              && r.value.0.Some? && StartsWith(prefix, "data." + r.value.0.value + ".cards.item.")
    ensures !EndsWith(prefix, ".block") && ValidatePrefix(Some(prefix)).0 && EndsWith(prefix, ".cards.item") ==>
              && (event == "start_map" ==> r == Success((Some(ValidatePrefix(Some(prefix)).1), StartCard)))
              && (event == "end_map" ==> r == Success((Some(ValidatePrefix(Some(prefix)).1), Keep)))
    ensures r.Success? && r.value.1.StartCard? ==> EndsWith(prefix, ".cards.item") && event == "start_map"
    ensures (r.Success? && r.value.1.Assign?) <==>
              && !EndsWith(prefix, ".block") && ValidatePrefix(Some(prefix)).0
              && !(EndsWith(prefix, ".cards.item") && (event == "start_map" || event == "end_map"))
              && StartsWith(prefix, "data." + ValidatePrefix(Some(prefix)).1 + ".cards.item.")
  {
    if EndsWith(prefix, ".block") then Success((None, Keep))
    else
      var (valid, result) := ValidatePrefix(Some(prefix));
      if !valid then Failure(result)
      else if EndsWith(prefix, ".cards.item") && event == "start_map" then Success((Some(result), StartCard))
      else if EndsWith(prefix, ".cards.item") && event == "end_map" then Success((Some(result), Keep))
      else if StartsWith(prefix, "data." + result + ".cards.item.") then
        Success((Some(result), Assign(LastSegment(prefix), value)))
      else Success((Some(result), Keep))
  }

  /** The dotted path of a card field, as a join of its five segments. */
  lemma FieldPathJoin(setName: string, key: string)
    ensures Join(["data", setName, "cards", "item", key], '.') == "data." + setName + ".cards.item." + key
  {
    var parts := ["data", setName, "cards", "item", key];
    assert Join(parts[4..], '.') == key;
    assert Join(parts[3..], '.') == "item" + "." + key;
    assert Join(parts[2..], '.') == "cards" + "." + "item" + "." + key;
    assert Join(parts[1..], '.') == setName + "." + "cards" + "." + "item" + "." + key;
  }

  /** A field event under a card sets that field, whatever the event's kind. */
  lemma FieldEventAssigns(setName: string, key: string, event: string, value: Json)
    requires '.' !in setName && '.' !in key
    requires !EndsWith("data." + setName + ".cards.item." + key, ".block")
    requires !EndsWith("data." + setName + ".cards.item." + key, ".cards.item")
    ensures CardDataStep("data." + setName + ".cards.item." + key, event, value) == Success((Some(setName), Assign(key, value)))
  {
    var prefix := "data." + setName + ".cards.item." + key;
    var parts := ["data", setName, "cards", "item", key];
    assert ValidatePrefix(Some(prefix)) == (true, setName) by {
      FieldPathJoin(setName, key);
      ValidPathNamesSet(parts);
    }
    assert LastSegment(prefix) == key by {
      FieldPathJoin(setName, key);
      SplitJoin(parts, '.');
    }
    assert StartsWith(prefix, "data." + setName + ".cards.item.") by {
      assert prefix == ("data." + setName + ".cards.item.") + key;
    }
  }

  /** At a card's own path, `start_map` starts a new card and `end_map` keeps the one assembled. */
  lemma CardEventsAtItem(setName: string, event: string, value: Json)
    requires '.' !in setName
    ensures event == "start_map" ==>
              CardDataStep("data." + setName + ".cards.item", event, value) == Success((Some(setName), StartCard))
    ensures event == "end_map" ==>
              CardDataStep("data." + setName + ".cards.item", event, value) == Success((Some(setName), Keep))
  {
    var prefix := "data." + setName + ".cards.item";
    var parts := ["data", setName, "cards", "item"];
    assert Join(parts, '.') == prefix by {
      assert Join(parts[3..], '.') == "item";
      assert Join(parts[2..], '.') == "cards" + "." + "item";
      assert Join(parts[1..], '.') == setName + "." + "cards" + "." + "item";
    }
    ValidPathNamesSet(parts);
    assert EndsWith(prefix, ".cards.item") && !EndsWith(prefix, ".block") by {
      assert prefix == ("data." + setName) + ".cards.item";
      assert prefix[|prefix| - 6..] == "s.item";
    }
  }

  /** A dictionary that its users share and update in place. */
  class CardDict {
    var items: Record

    constructor(items: Record)
      ensures this.items == items
    {
      this.items := items;
    }
  }

  /** The parser object; its logger receives one error per rejected event. */
  class CardParser {
    const logger: Logger

    constructor(logger: Logger)
      ensures this.logger == logger
    {
      this.logger := logger;
    }

    /**
     * `process_card_data`: returns the set name and the card to go on with.
     * A `start_map` at a card hands back a new empty card; a field event
     * assigns into `currentCard` itself, which is also handed back; an
     * invalid path logs its message once and fails.
     */
    method ProcessCardData(prefix: string, event: string, value: Json, currentCard: CardDict)
      returns (r: Result<(Option<string>, CardDict), string>)
      modifies logger, currentCard
      ensures CardDataStep(prefix, event, value).Failure? ==>
                && r == Failure(CardDataStep(prefix, event, value).error)
                && logger.entries == old(logger.entries) + [LogEntry(Error, r.error)]
                && currentCard.items == old(currentCard.items)
      ensures var step := CardDataStep(prefix, event, value);
              step.Success? ==>
                && r.Success? && r.value.0 == step.value.0
                && logger.entries == old(logger.entries)
                && (step.value.1 == StartCard ==>
                      fresh(r.value.1) && r.value.1.items == [] && currentCard.items == old(currentCard.items))
                && (step.value.1 == Keep ==>
                      r.value.1 == currentCard && currentCard.items == old(currentCard.items))
                && (step.value.1.Assign? ==>
                      r.value.1 == currentCard
                      && currentCard.items == Set(old(currentCard.items), step.value.1.key, step.value.1.value))
    {
      if EndsWith(prefix, ".block") {
        return Success((None, currentCard));
      }
      var (valid, result) := ValidatePrefix(Some(prefix));
      if !valid {
        logger.Log(Error, result);
        return Failure(result);
      }
      var setName := result;
      if EndsWith(prefix, ".cards.item") && event == "start_map" {
        var card := new CardDict([]);
        return Success((Some(setName), card));
      } else if EndsWith(prefix, ".cards.item") && event == "end_map" {
        return Success((Some(setName), currentCard));
      } else if StartsWith(prefix, "data." + setName + ".cards.item.") {
        var cardKey := LastSegment(prefix);
        currentCard.items := Set(currentCard.items, cardKey, value);
      }
      return Success((Some(setName), currentCard));
    }
  }
}

=== FILE: filters.dfy ===
/**
 * The seven comparison operators a card filter may use. Every operator is
 * total: a comparison between values of incompatible kinds is false, never
 * an error.
 */
module Filters {
  import opened Wrappers
  import opened PyStrings
  import opened JsonValues

  datatype Operator = Eq | Gt | Lt | Gte | Lte | Contains | In

  /** The operator's name in a filter expression. */
  function Name(op: Operator): string
  {
    match op
    case Eq => "eq"
    case Gt => "gt"
    case Lt => "lt"
    case Gte => "gte"
    case Lte => "lte"
    case Contains => "contains"
    case In => "in"
  }

  /** The names the operator table knows. */
  const OperatorNames: seq<string> := ["eq", "gt", "lt", "gte", "lte", "contains", "in"]

  /** Looks an operator up by name; unknown names have no operator. */
  function GetOperatorFunction(name: string): (r: Option<Operator>)
    ensures r.Some? <==> name in OperatorNames
    ensures r.Some? ==> Name(r.value) == name
  {
    if name == "eq" then Some(Eq)
    else if name == "gt" then Some(Gt)
    else if name == "lt" then Some(Lt)
    else if name == "gte" then Some(Gte)
    else if name == "lte" then Some(Lte)
    else if name == "contains" then Some(Contains)
    else if name == "in" then Some(In)
    else None
  }

  /** Every operator is found under its own name. */
  lemma LookupByName(op: Operator)
    ensures GetOperatorFunction(Name(op)) == Some(op)
  {
  }

  /** The operators that compare numbers. */
  predicate IsNumeric(op: Operator)
  {
    op == Gt || op == Lt || op == Gte || op == Lte
  }

  function CompareReals(op: Operator, x: real, y: real): bool
    requires IsNumeric(op)
  {
    match op
    case Gt => x > y
    case Lt => x < y
    case Gte => x >= y
    case Lte => x <= y
  }

  /** Converts both operands with `float()` and compares; a failed conversion is false. */
  function SafeNumericComparison(a: Json, b: Json, op: Operator): bool
    requires IsNumeric(op)
  {
    match (ToNumber(a), ToNumber(b))
    case (Some(x), Some(y)) => CompareReals(op, x, y)
    case _ => false
  }

  /** Python `x is e or x == e` over a list, by a scan from the front. */
  function ListContains(xs: seq<Json>, item: Json): (found: bool)
    ensures found <==> exists i :: 0 <= i < |xs| && PyEq(xs[i], item)
  {
    if xs == [] then false
    else if PyEq(xs[0], item) then true
    else
      var found := ListContains(xs[1..], item);
      assert forall i :: 1 <= i < |xs| ==> xs[i] == xs[1..][i - 1];
      found
  }

  /**
   * Python `item in container`, with False where Python raises TypeError:
   * substring test on strings (a non-string item raises), membership on lists,
   * key membership on dictionaries (an unhashable item raises; only strings can
   * be keys of a decoded object), and False for scalars.
   */
  function Membership(item: Json, container: Json): bool
  {
    match container
    case Str(s) => item.Str? && PyStrings.Contains(s, item.s)
    case Arr(xs) => ListContains(xs, item)
    case Obj(fs) => item.Str? && HasKey(fs, item.s)
    case _ => false
  }

  /** Applies an operator to a card value `a` and a filter value `b`. */
  function Apply(op: Operator, a: Json, b: Json): bool
  {
    match op
    case Eq => PyEq(a, b)
    case Contains => Membership(b, a)
    case In => Membership(a, b)
    case _ => SafeNumericComparison(a, b, op)
  }

  // ---------------------------------------------------------------------
  // Properties of the operators

  /** `eq` is reflexive on every value the model represents; NaN is not one of them. */
  lemma {:induction false} EqReflexive(a: Json)
    ensures PyEq(a, a)
    decreases a
  {
    match a
    case Arr(xs) =>
      forall i | 0 <= i < |xs| ensures PyEq(xs[i], xs[i]) {
        EqReflexive(xs[i]);
      }
    case Obj(fs) =>
      forall i | 0 <= i < |fs| && FirstBinding(fs, i)
        ensures Get(fs, fs[i].0).Some? && PyEq(fs[i].1, Get(fs, fs[i].0).value)
      {
        GetFirstBinding(fs, i);
        EqReflexive(fs[i].1);
      }
      forall j | 0 <= j < |fs| ensures HasKey(fs, fs[j].0) {
        assert Keys(fs)[j] == fs[j].0;
      }
    case _ =>
  }

  /** A numeric operator whose operand does not convert with `float()` is false. */
  lemma NumericNeedsNumbers(op: Operator, a: Json, b: Json)
    requires IsNumeric(op)
    ensures Apply(op, a, b) ==> ToNumber(a).Some? && ToNumber(b).Some?
    ensures a.Null? || a.Arr? || a.Obj? || b.Null? || b.Arr? || b.Obj? ==> !Apply(op, a, b)
  {
  }

  /** `gt` and `lt`, `gte` and `lte` are mirror images of each other. */
  lemma ComparisonDuality(a: Json, b: Json)
    ensures Apply(Gt, a, b) == Apply(Lt, b, a)
    ensures Apply(Gte, a, b) == Apply(Lte, b, a)
  {
  }

  /**
   * On operands that convert, exactly one of `gt`, `lt` and "both `gte` and
   * `lte`" holds.
   */
  lemma ComparisonTrichotomy(a: Json, b: Json)
    requires ToNumber(a).Some? && ToNumber(b).Some?
    ensures Apply(Gt, a, b) || Apply(Lt, a, b) || (Apply(Gte, a, b) && Apply(Lte, a, b))
    ensures !(Apply(Gt, a, b) && Apply(Lte, a, b))
    ensures !(Apply(Lt, a, b) && Apply(Gte, a, b))
  {
  }

  /** `in` is `contains` with its operands swapped. */
  lemma InIsFlippedContains(a: Json, b: Json)
    ensures Apply(In, a, b) == Apply(Contains, b, a)
  {
  }

  /**
   * What `contains` means for each kind of card value: a substring for
   * strings, an equal element for lists, a key for dictionaries, and never
   * for scalars.
   */
  lemma ContainsMeaning(a: Json, b: Json)
    ensures a.Str? ==> (Apply(Contains, a, b) <==> b.Str? && IsSubstring(b.s, a.s))
    ensures a.Arr? ==> (Apply(Contains, a, b) <==> exists i :: 0 <= i < |a.items| && PyEq(a.items[i], b))
    ensures a.Obj? ==> (Apply(Contains, a, b) <==> b.Str? && HasKey(a.fields, b.s))
    ensures a.Null? || IsNumber(a) ==> !Apply(Contains, a, b)
  {
  }

  /** Equality compares numbers across bool, int and float, but never converts strings. */
  lemma EqDoesNotConvertStrings()
    ensures Apply(Eq, Bool(true), Int(1)) && Apply(Eq, Int(1), Float(1.0))
    ensures !Apply(Eq, Int(3), Str("3"))
    ensures Apply(Gte, Int(3), Str("3")) && Apply(Lte, Int(3), Str("3"))
  {
    SplitNoSeparator("3", '.');
  }

  /** Ordering operators convert numeric strings: 123.0 >= "123" and not 123.0 > "123". */
  lemma MixedStringNumberComparison()
    ensures Apply(Gte, Float(123.0), Str("123"))
    ensures Apply(Lte, Str("123"), Float(123.0))
    ensures !Apply(Gt, Str("123"), Float(123.0))
    ensures !Apply(Gt, Str("abc"), Int(0)) && !Apply(Lt, Str("abc"), Int(0))
  {
    DecimalExamples();
  }
}

=== FILE: json.dfy ===
/**
 * JSON values as the pipeline sees them after decoding: Python `None`, `bool`,
 * `int`, `float`, `str`, `list` and `dict`. Objects keep their insertion order,
 * as Python dictionaries do, so they are association lists.
 */
module JsonValues {
  import opened Wrappers
  import opened PyStrings

  datatype Json =
    | Null
    | Bool(b: bool)
    | Int(i: int)
    | Float(r: real)
    | Str(s: string)
    | Arr(items: seq<Json>)
    | Obj(fields: seq<(string, Json)>)

  /** A decoded JSON object (a Python `dict` with string keys), in insertion order. */
  type Record = seq<(string, Json)>

  /** Python truthiness (`if value:`). */
  predicate Truthy(j: Json)
  {
    match j
    case Null => false
    case Bool(b) => b
    case Int(i) => i != 0
    case Float(r) => r != 0.0
    case Str(s) => |s| > 0
    case Arr(xs) => |xs| > 0
    case Obj(fs) => |fs| > 0
  }

  // ---------------------------------------------------------------------
  // Dictionary operations on records

  function Keys(d: Record): (ks: seq<string>)
    ensures |ks| == |d|
    ensures forall i :: 0 <= i < |d| ==> ks[i] == d[i].0
  {
    if d == [] then [] else [d[0].0] + Keys(d[1..])
  }

  /** `k in d`. */
  predicate HasKey(d: Record, k: string)
  {
    k in Keys(d)
  }

  /** Every key occurs once, as in a Python dictionary. */
  predicate UniqueKeys(d: Record)
  {
    forall i, j :: 0 <= i < j < |d| ==> d[i].0 != d[j].0
  }

  /** `d.get(k)`: the value bound to the first occurrence of `k`. */
  function Get(d: Record, k: string): (r: Option<Json>)
    ensures r.Some? <==> HasKey(d, k)
  {
    if d == [] then None
    else if d[0].0 == k then Some(d[0].1)
    else
      var r := Get(d[1..], k);
      assert Keys(d) == [d[0].0] + Keys(d[1..]);
      r
  }

  /** A value `get` finds is bound to its key in the record. */
  lemma {:induction false} GetIsBinding(d: Record, k: string)
    requires HasKey(d, k)
    ensures exists i :: 0 <= i < |d| && d[i] == (k, Get(d, k).value)
    decreases |d|
  {
    if d[0].0 != k {
      assert Keys(d) == [d[0].0] + Keys(d[1..]);
      GetIsBinding(d[1..], k);
      var i :| 0 <= i < |d[1..]| && d[1..][i] == (k, Get(d[1..], k).value);
      assert d[i + 1] == d[1..][i];
    }
  }

  /** `d.get(k, default)`. */
  function GetOr(d: Record, k: string, default: Json): (r: Json)
    ensures !HasKey(d, k) ==> r == default
    ensures HasKey(d, k) ==> Some(r) == Get(d, k)
  {
    match Get(d, k)
    case Some(v) => v
    case None => default
  }

  /** `d[k] = v`: replaces the value in place when `k` is present, appends otherwise. */
  function Set(d: Record, k: string, v: Json): (r: Record)
    ensures Get(r, k) == Some(v)
    ensures forall k' :: k' != k ==> Get(r, k') == Get(d, k')
    ensures HasKey(d, k) ==> Keys(r) == Keys(d)
    ensures !HasKey(d, k) ==> r == d + [(k, v)]
  {
    if d == [] then [(k, v)]
    else if d[0].0 == k then
      var r := [(k, v)] + d[1..];
      assert Keys(d) == [k] + Keys(d[1..]) && Keys(r) == [k] + Keys(r[1..]);
      assert r[1..] == d[1..];
      r
    else
      var rest := Set(d[1..], k, v);
      var r := [d[0]] + rest;
      assert r[1..] == rest;
      assert Keys(d) == [d[0].0] + Keys(d[1..]);
      assert Keys(r) == [d[0].0] + Keys(rest);
      assert HasKey(d, k) <==> HasKey(d[1..], k);
      assert forall k' :: Get(r, k') == (if d[0].0 == k' then Some(d[0].1) else Get(rest, k'));
      assert forall k' :: Get(d, k') == (if d[0].0 == k' then Some(d[0].1) else Get(d[1..], k'));
      assert !HasKey(d, k) ==> r == [d[0]] + (d[1..] + [(k, v)]) == d + [(k, v)];
      r
  }

  /** `d.setdefault(k, v)`: adds `k` at the end only when it is missing. */
  function SetDefault(d: Record, k: string, v: Json): (r: Record)
    ensures HasKey(d, k) ==> r == d
    ensures !HasKey(d, k) ==> r == d + [(k, v)]
    ensures Get(r, k) == Some(if HasKey(d, k) then Get(d, k).value else v)
  {
    if HasKey(d, k) then d
    else
      assert Set(d, k, v) == d + [(k, v)];
      d + [(k, v)]
  }

  /** `del d[k]` (every binding of `k` goes). */
  function Remove(d: Record, k: string): (r: Record)
    ensures !HasKey(r, k)
    ensures forall k' :: k' != k ==> Get(r, k') == Get(d, k')
    ensures |r| <= |d|
  {
    if d == [] then []
    else if d[0].0 == k then Remove(d[1..], k)
    else
      var r := [d[0]] + Remove(d[1..], k);
      assert Keys(r) == [d[0].0] + Keys(r[1..]);
      r
  }

  /**
   * `del` keeps the other bindings in their order: removing from a
   * concatenation removes from each part, and a single binding stays exactly
   * when its key is not the one removed.
   */
  lemma {:induction false} RemoveAppend(a: Record, b: Record, k: string)
    ensures Remove(a + b, k) == Remove(a, k) + Remove(b, k)
    ensures |b| == 1 ==> Remove(b, k) == (if b[0].0 == k then [] else b)
    decreases |a|
  {
    if a != [] {
      assert (a + b)[1..] == a[1..] + b;
      RemoveAppend(a[1..], b, k);
    } else {
      assert a + b == b;
    }
    if |b| == 1 {
      RemoveSingle(b, k);
    }
  }

  /** A single binding survives `del` exactly when its key is not the one removed. */
  lemma RemoveSingle(b: Record, k: string)
    requires |b| == 1
    ensures Remove(b, k) == (if b[0].0 == k then [] else b)
  {
    assert b[1..] == [];
  }

  /** Assigning a key keeps a dictionary's keys distinct. */
  lemma SetKeepsUnique(d: Record, k: string, v: Json)
    requires UniqueKeys(d)
    ensures UniqueKeys(Set(d, k, v))
  {
    var r := Set(d, k, v);
    if HasKey(d, k) {
      assert forall i :: 0 <= i < |r| ==> r[i].0 == Keys(d)[i];
    } else {
      assert forall i :: 0 <= i < |d| ==> d[i].0 == Keys(d)[i];
    }
  }

  /** Position `i` holds the first binding of its key (the one a dictionary keeps). */
  predicate FirstBinding(d: Record, i: nat)
    requires i < |d|
  {
    d[i].0 !in Keys(d[..i])
  }

  lemma {:induction false} GetFirstBinding(d: Record, i: nat)
    requires i < |d| && FirstBinding(d, i)
    ensures Get(d, d[i].0) == Some(d[i].1)
    decreases i
  {
    if i > 0 {
      assert Keys(d[..i]) == [d[0].0] + Keys(d[1..][..i - 1]) by {
        assert d[..i] == [d[0]] + d[1..][..i - 1];
      }
      GetFirstBinding(d[1..], i - 1);
    }
  }

  // ---------------------------------------------------------------------
  // Python equality

  predicate IsNumber(j: Json)
  {
    j.Bool? || j.Int? || j.Float?
  }

  /** The numeric value of a `bool`, `int` or `float` (True is 1, False is 0). */
  function NumValue(j: Json): real
    requires IsNumber(j)
  {
    match j
    case Bool(b) => if b then 1.0 else 0.0
    case Int(i) => i as real
    case Float(r) => r
  }

  /**
   * Python `a == b` on decoded values: numbers compare by value across bool,
   * int and float; lists compare element by element; dictionaries compare
   * as mappings, whatever their order; values of different kinds differ.
   */
  function PyEq(a: Json, b: Json): bool
    decreases a
  {
    if IsNumber(a) && IsNumber(b) then NumValue(a) == NumValue(b)
    else
      match a
      case Null => b.Null?
      case Str(s) => b.Str? && b.s == s
      case Arr(xs) =>
        b.Arr? && |xs| == |b.items| && forall i :: 0 <= i < |xs| ==> PyEq(xs[i], b.items[i])
      case Obj(fs) =>
        b.Obj? && (forall j :: 0 <= j < |b.fields| ==> HasKey(fs, b.fields[j].0))
        && forall i :: 0 <= i < |fs| && FirstBinding(fs, i) ==>
             Get(b.fields, fs[i].0).Some? && PyEq(fs[i].1, Get(b.fields, fs[i].0).value)
      case _ => false
  }

  // ---------------------------------------------------------------------
  // str()

  /** `str(value)` for the kinds of value whose text is plain: strings, integers, booleans and `None`. */
  predicate Printable(j: Json)
  {
    j.Str? || j.Int? || j.Bool? || j.Null?
  }

  function PyStr(j: Json): (s: string)
    requires Printable(j)
  {
    match j
    case Str(s) => s
    case Int(i) => IntToString(i)
    case Bool(b) => if b then "True" else "False"
    case Null => "None"
  }

  // ---------------------------------------------------------------------
  // float()

  /**
   * Python `float(x)`: numbers and booleans convert, decimal strings parse,
   * everything else raises (None here).
   */
  function ToNumber(j: Json): (r: Option<real>)
    ensures IsNumber(j) ==> r == Some(NumValue(j))
    ensures j.Null? || j.Arr? || j.Obj? ==> r.None?
  {
    match j
    case Bool(_) => Some(NumValue(j))
    case Int(_) => Some(NumValue(j))
    case Float(_) => Some(NumValue(j))
    case Str(s) => ParseDecimal(s)
    case _ => None
  }
}

=== FILE: logging.dfy ===
/** The pipeline's logger: an append-only list of entries. */
module Logging {
  datatype Level = Debug | Info | Warning | Error

  /** One log line; `message` is the fixed text the source formats, without interpolated details. */
  datatype LogEntry = LogEntry(level: Level, message: string)

  /** A value computed by a pure operation together with the log lines it emitted. */
  datatype Logged<+T> = Logged(value: T, log: seq<LogEntry>)

  /** Counts the entries of a given level. */
  function CountLevel(log: seq<LogEntry>, level: Level): (n: nat)
    ensures n <= |log|
    ensures n == 0 <==> forall i :: 0 <= i < |log| ==> log[i].level != level
  {
    if log == [] then 0
    else (if log[0].level == level then 1 else 0) + CountLevel(log[1..], level)
  }

  /** Counting distributes over concatenation. */
  lemma {:induction false} CountLevelAppend(a: seq<LogEntry>, b: seq<LogEntry>, level: Level)
    ensures CountLevel(a + b, level) == CountLevel(a, level) + CountLevel(b, level)
    decreases |a|
  {
    if a != [] {
      assert (a + b)[1..] == a[1..] + b;
      CountLevelAppend(a[1..], b, level);
    } else {
      assert a + b == b;
    }
  }

  class Logger {
    var entries: seq<LogEntry>

    constructor()
      ensures entries == []
    {
      entries := [];
    }

    method Log(level: Level, message: string)
      modifies this
      ensures entries == old(entries) + [LogEntry(level, message)]
    {
      entries := entries + [LogEntry(level, message)];
    }

    method Append(lines: seq<LogEntry>)
      modifies this
      ensures entries == old(entries) + lines
    {
      entries := entries + lines;
    }
  }
}

=== FILE: models.dfy ===
/**
 * The plain records the pipeline passes around: the writer's state and
 * counters, a validated deck-list card reference, and deck statistics.
 */
module Models {
  import opened Wrappers

  /** The three states of the set writer. */
  datatype WriterState = Initial | SetOpen | SetClosed

  /** The writer's counters; a fresh record has all three at zero. */
  datatype WriterStats = WriterStats(cardsWritten: int, setsProcessed: int, errorsEncountered: int)

  const ZeroStats := WriterStats(0, 0, 0)

  /** One line of a deck list, once validated. */
  datatype CardReference = CardReference(name: string, setCode: string, collectorNumber: string, quantity: int)

  /** Why a card reference was rejected, in the order the checks run. */
  datatype ReferenceError = EmptyName | BadSetCode | EmptyCollectorNumber | NonPositiveQuantity

  function ReferenceMessage(e: ReferenceError): string
  {
    match e
    case EmptyName => "Card name cannot be empty"
    case BadSetCode => "Set code must be exactly 3 characters"
    case EmptyCollectorNumber => "Collector number cannot be empty"
    case NonPositiveQuantity => "Quantity must be positive"
  }

  /** A reference every check accepts. */
  predicate ValidReference(c: CardReference)
  {
    |c.name| > 0 && |c.setCode| == 3 && |c.collectorNumber| > 0 && c.quantity >= 1
  }

  /**
   * Builds a card reference, running the checks in order: the first one
   * that fails decides the error.
   */
  function NewCardReference(name: string, setCode: string, collectorNumber: string, quantity: int)
    : (r: Result<CardReference, ReferenceError>)
    ensures r.Success? <==> ValidReference(CardReference(name, setCode, collectorNumber, quantity))
    ensures r.Success? ==> r.value == CardReference(name, setCode, collectorNumber, quantity)
    ensures r == Failure(EmptyName) <==> |name| == 0
    ensures r == Failure(BadSetCode) <==> |name| > 0 && |setCode| != 3
    ensures r == Failure(EmptyCollectorNumber) <==> |name| > 0 && |setCode| == 3 && |collectorNumber| == 0
    ensures r == Failure(NonPositiveQuantity) <==>
              |name| > 0 && |setCode| == 3 && |collectorNumber| > 0 && quantity < 1
  {
    if |name| == 0 then Failure(EmptyName)
    else if |setCode| != 3 then Failure(BadSetCode)
    else if |collectorNumber| == 0 then Failure(EmptyCollectorNumber)
    else if quantity < 1 then Failure(NonPositiveQuantity)
    else Success(CardReference(name, setCode, collectorNumber, quantity))
  }

  /** Deck extraction counters. */
  datatype DeckListStats = DeckListStats(cardsFound: int, cardsMissing: int, totalCards: int)

  /** The percentage of cards found; zero for an empty deck. */
  function SuccessRate(s: DeckListStats): (rate: real)
    ensures s.totalCards == 0 ==> rate == 0.0
    ensures s.totalCards > 0 && 0 <= s.cardsFound <= s.totalCards ==> 0.0 <= rate <= 100.0
    ensures s.totalCards > 0 ==> (rate == 100.0 <==> s.cardsFound == s.totalCards)
    ensures s.totalCards > 0 ==> rate * (s.totalCards as real) == (s.cardsFound as real) * 100.0
  {
    if s.totalCards == 0 then 0.0
    else (s.cardsFound as real / s.totalCards as real) * 100.0
  }
}

=== FILE: schema.dfy ===
/**
 * `SchemaValidator.get_required_fields` for a schema given as a decoded
 * dictionary: the `required` list of the card items, found by a chain of
 * `.get` lookups that gives up on the first missing, empty or non-object
 * level.
 */
module Schema {
  import opened Wrappers
  import opened JsonValues

  /** The keys from the schema's root down to the card items. */
  function RequiredPath(): (p: seq<string>)
    ensures |p| == 7
  {
    ["properties", "data", "patternProperties", ".*", "properties", "cards", "items"]
  }

  /**
   * The lookups from `level` along `path`: each step is `.get(key, {})` on
   * the current level, which must be a dictionary (any other value has no
   * `.get`, and the `AttributeError` is caught as `None`), and an empty
   * result stops the walk with `None`.
   */
  function Walk(level: Json, path: seq<string>): (r: Option<Json>)
    ensures path != [] && r.Some? ==> Truthy(r.value)
    ensures path == [] ==> r == Some(level)
    decreases |path|
  {
    if path == [] then Some(level)
    else if !level.Obj? then None
    else
      var next := GetOr(level.fields, path[0], Obj([]));
      if !Truthy(next) then None
      else Walk(next, path[1..])
  }

  /** `get_required_fields(schema)`, with `None` as `NoneValue` and a dictionary as `Some`. */
  function GetRequiredFields(schema: Option<Json>): (r: Option<Json>)
    requires schema.Some? ==> !schema.value.Str?
    ensures schema.None? ==> r.None?
  {
    match schema
    case None => None
    case Some(root) =>
      match Walk(root, RequiredPath())
      case None => None
      case Some(items) =>
        if items.Obj? then Some(GetOr(items.fields, "required", Arr([]))) else None
  }

  /** Walking a path in two parts is walking the first part, then the second from where it ends. */
  lemma {:induction false} WalkAppend(level: Json, p: seq<string>, q: seq<string>)
    ensures Walk(level, p + q) == match Walk(level, p) case None => None case Some(m) => Walk(m, q)
    decreases |p|
  {
    if p == [] {
      assert p + q == q;
    } else if level.Obj? {
      var next := GetOr(level.fields, p[0], Obj([]));
      assert (p + q)[0] == p[0] && (p + q)[1..] == p[1..] + q;
      if Truthy(next) {
        WalkAppend(next, p[1..], q);
      }
    }
  }

  /**
   * A level along the path that is not a dictionary, or whose next key is
   * missing or bound to an empty value, makes the result `None`.
   */
  lemma BrokenLevel(root: Json, k: nat, m: Json)
    requires !root.Str? && k < |RequiredPath()| && Walk(root, RequiredPath()[..k]) == Some(m)
    requires !m.Obj? || !HasKey(m.fields, RequiredPath()[k]) || !Truthy(Get(m.fields, RequiredPath()[k]).value)
    ensures GetRequiredFields(Some(root)).None?
  {
    var p := RequiredPath();
    assert p == p[..k] + p[k..];
    WalkAppend(root, p[..k], p[k..]);
    assert p[k..][0] == p[k];
  }

  /** The schema that holds `required` at the card items and nothing else. */
  function SchemaWith(required: Json): Json
  {
    Nest(RequiredPath(), Obj([("required", required)]))
  }

  /** `{path[0]: {path[1]: ... inner}}`. */
  function Nest(path: seq<string>, inner: Json): (j: Json)
    ensures path != [] ==> j.Obj? && Truthy(j)
    decreases |path|
  {
    if path == [] then inner else Obj([(path[0], Nest(path[1..], inner))])
  }

  /** Walking the path a nest was built from reaches what it wraps. */
  lemma {:induction false} WalkNest(path: seq<string>, inner: Json)
    requires Truthy(inner)
    ensures Walk(Nest(path, inner), path) == Some(inner)
    decreases |path|
  {
    if path != [] {
      WalkNest(path[1..], inner);
    }
  }

  /** The `required` value put at the card items is the one found there. */
  lemma RequiredRoundTrip(required: Json)
    ensures GetRequiredFields(Some(SchemaWith(required))) == Some(required)
  {
    WalkNest(RequiredPath(), Obj([("required", required)]));
  }

  /** Card items without `required` give the empty list. */
  lemma ItemsWithoutRequired(root: Json, items: Json)
    requires !root.Str? && Walk(root, RequiredPath()) == Some(items) && items.Obj?
    requires !HasKey(items.fields, "required")
    ensures GetRequiredFields(Some(root)) == Some(Arr([]))
  {
  }

  /** A schema with no `properties`, or `properties` that is an empty object or a string, gives `None`. */
  lemma NoPropertiesExamples()
    ensures GetRequiredFields(Some(Obj([]))).None?
    ensures GetRequiredFields(Some(Obj([("properties", Obj([]))]))).None?
    ensures GetRequiredFields(Some(Obj([("properties", Str("invalid"))]))).None?
  {
    assert Walk(Obj([("properties", Str("invalid"))]), RequiredPath()).None? by {
      var p := RequiredPath();
      assert p[0] == "properties";
      assert p[1..] != [];
    }
  }
}

=== FILE: strings.dfy ===
/** The parts of Python's `str` behaviour the pipeline relies on. */
module PyStrings {
  import opened Wrappers

  predicate StartsWith(s: string, prefix: string)
  {
    |prefix| <= |s| && s[..|prefix|] == prefix
  }

  predicate EndsWith(s: string, suffix: string)
  {
    |suffix| <= |s| && s[|s| - |suffix|..] == suffix
  }

  /** `t in s` for two strings: `t` occurs as a contiguous piece of `s`. */
  predicate IsSubstring(t: string, s: string)
  {
    exists i, j :: 0 <= i <= j <= |s| && s[i..j] == t
  }

  /** `t` occurs in `s` starting at position `i`. */
  predicate OccursAt(t: string, s: string, i: nat)
  {
    i + |t| <= |s| && s[i..i + |t|] == t
  }

  /** Substring search by scanning the start positions one by one. */
  function FindsAt(t: string, s: string, start: nat): (found: bool)
    requires start <= |s|
    ensures found <==> exists i: nat :: start <= i && OccursAt(t, s, i)
    decreases |s| - start
  {
    if start + |t| > |s| then false
    else if s[start..start + |t|] == t then assert OccursAt(t, s, start); true
    else FindsAt(t, s, start + 1)
  }

  /** Python's `t in s`, computed by the scan above. */
  function Contains(s: string, t: string): (found: bool)
    ensures found <==> IsSubstring(t, s)
  {
    var r := FindsAt(t, s, 0);
    if r then
      var i: nat :| OccursAt(t, s, i);
      assert 0 <= i <= i + |t| <= |s| && s[i..i + |t|] == t;
      r
    else
      assert forall i, j :: 0 <= i <= j <= |s| && s[i..j] == t ==> OccursAt(t, s, i);
      r
  }

  // ---------------------------------------------------------------------
  // str.split and str.join with a one-character separator

  /** `s.split(sep)`: the pieces between separators, always at least one. */
  function Split(s: string, sep: char): (parts: seq<string>)
    ensures |parts| >= 1
    ensures forall i :: 0 <= i < |parts| ==> sep !in parts[i]
  {
    if |s| == 0 then [""]
    else
      var rest := Split(s[1..], sep);
      if s[0] == sep then [""] + rest
      else [[s[0]] + rest[0]] + rest[1..]
  }

  /** `sep.join(parts)`. */
  function Join(parts: seq<string>, sep: char): string
    requires |parts| >= 1
  {
    if |parts| == 1 then parts[0]
    else parts[0] + [sep] + Join(parts[1..], sep)
  }

  lemma {:induction false} SplitNoSeparator(s: string, sep: char)
    requires sep !in s
    ensures Split(s, sep) == [s]
    decreases |s|
  {
    if |s| > 0 {
      SplitNoSeparator(s[1..], sep);
      assert [s[0]] + s[1..] == s;
    }
  }

  lemma {:induction false} SplitPrefix(a: string, sep: char, b: string)
    requires sep !in a
    ensures Split(a + [sep] + b, sep) == [a] + Split(b, sep)
    decreases |a|
  {
    if |a| == 0 {
      assert a + [sep] + b == [sep] + b;
      assert ([sep] + b)[1..] == b;
    } else {
      SplitPrefix(a[1..], sep, b);
      assert (a + [sep] + b)[1..] == a[1..] + [sep] + b;
      assert [a[0]] + a[1..] == a;
    }
  }

  /** Splitting a join of separator-free pieces gives the pieces back. */
  lemma {:induction false} SplitJoin(parts: seq<string>, sep: char)
    requires |parts| >= 1
    requires forall i :: 0 <= i < |parts| ==> sep !in parts[i]
    ensures Split(Join(parts, sep), sep) == parts
    decreases |parts|
  {
    if |parts| == 1 {
      SplitNoSeparator(parts[0], sep);
    } else {
      SplitJoin(parts[1..], sep);
      SplitPrefix(parts[0], sep, Join(parts[1..], sep));
      assert [parts[0]] + parts[1..] == parts;
    }
  }

  // ---------------------------------------------------------------------
  // Whitespace (`str.strip()` and the regular-expression class `\s`)

  /** The characters Python treats as whitespace in `str.strip()` and in `\s`. */
  predicate IsSpace(c: char)
  {
    c == ' ' || ('\t' <= c <= '\r') || ('\U{1c}' <= c <= '\U{1f}') || c == '\U{85}' || c == '\U{a0}'
    || c == '\U{1680}' || ('\U{2000}' <= c <= '\U{200a}') || c == '\U{2028}' || c == '\U{2029}'
    || c == '\U{202f}' || c == '\U{205f}' || c == '\U{3000}'
  }

  /** `s.lstrip()`: drops the leading whitespace. */
  function TrimStart(s: string): (r: string)
    ensures |r| <= |s| && r == s[|s| - |r|..]
    ensures forall i :: 0 <= i < |s| - |r| ==> IsSpace(s[i])
    ensures |r| > 0 ==> !IsSpace(r[0])
  {
    if |s| > 0 && IsSpace(s[0]) then
      var r := TrimStart(s[1..]);
      assert forall i :: 1 <= i < |s| ==> s[i] == s[1..][i - 1];
      r
    else s
  }

  /** `s.rstrip()`: drops the trailing whitespace. */
  function TrimEnd(s: string): (r: string)
    ensures |r| <= |s| && r == s[..|r|]
    ensures forall i :: |r| <= i < |s| ==> IsSpace(s[i])
    ensures |r| > 0 ==> !IsSpace(r[|r| - 1])
  {
    if |s| > 0 && IsSpace(s[|s| - 1]) then
      var r := TrimEnd(s[..|s| - 1]);
      assert s[..|s| - 1][..|r|] == s[..|r|];
      r
    else s
  }

  /** `r` is `s` with `i` whitespace characters cut from the front and the rest cut from the back. */
  predicate StrippedAt(s: string, r: string, i: nat)
  {
    i + |r| <= |s| && r == s[i..i + |r|]
    && (forall j :: 0 <= j < i ==> IsSpace(s[j]))
    && (forall j :: i + |r| <= j < |s| ==> IsSpace(s[j]))
  }

  /** `s.strip()`: no whitespace at either end of the result. */
  function Strip(s: string): (r: string)
    ensures |r| <= |s|
    ensures |r| > 0 ==> !IsSpace(r[0]) && !IsSpace(r[|r| - 1])
  {
    TrimEnd(TrimStart(s))
  }

  /** What `strip` removes is whitespace, from the two ends only. */
  lemma StripCutsSpace(s: string)
    ensures exists i: nat :: StrippedAt(s, Strip(s), i)
  {
    var t := TrimStart(s);
    var r := TrimEnd(t);
    assert Strip(s) == r;
    var i: nat := |s| - |t|;
    assert StrippedAt(s, r, i) by {
      assert t == s[i..];
      assert r == t[..|r|] == s[i..i + |r|];
      forall j | i + |r| <= j < |s| ensures IsSpace(s[j]) {
        assert s[j] == t[j - i];
      }
    }
  }

  // ---------------------------------------------------------------------
  // Decimal digits and integers

  predicate IsDigit(c: char)
  {
    '0' <= c <= '9'
  }

  predicate AllDigits(s: string)
  {
    forall i :: 0 <= i < |s| ==> IsDigit(s[i])
  }

  function DigitValue(c: char): (d: nat)
    requires IsDigit(c)
    ensures d < 10
  {
    (c as int - '0' as int)
  }

  function DigitChar(d: nat): (c: char)
    requires d < 10
    ensures IsDigit(c) && DigitValue(c) == d
  {
    ('0' as int + d) as char
  }

  /** The value of a run of decimal digits (leading zeros allowed; empty is 0). */
  function DigitsValue(s: string): nat
    requires AllDigits(s)
  {
    if |s| == 0 then 0
    else DigitsValue(s[..|s| - 1]) * 10 + DigitValue(s[|s| - 1])
  }

  /** `str(n)` for a natural number. */
  function NatToString(n: nat): (s: string)
    ensures |s| >= 1 && AllDigits(s)
    ensures DigitsValue(s) == n
  {
    if n < 10 then [DigitChar(n)]
    else
      var s := NatToString(n / 10) + [DigitChar(n % 10)];
      assert s[..|s| - 1] == NatToString(n / 10);
      s
  }

  /** `str(i)` for an integer. */
  function IntToString(i: int): (s: string)
    ensures '.' !in s
  {
    if i < 0 then "-" + NatToString(-i) else NatToString(i)
  }

  /** `int(s)` for a string of an optional sign and decimal digits. */
  function ParseInt(s: string): (r: Option<int>)
    ensures r.Some? ==> |s| >= 1
  {
    if |s| >= 2 && (s[0] == '-' || s[0] == '+') && AllDigits(s[1..]) then
      Some(if s[0] == '-' then -(DigitsValue(s[1..]) as int) else DigitsValue(s[1..]))
    else if |s| >= 1 && AllDigits(s) then Some(DigitsValue(s))
    else None
  }

  /** Parsing an integer's printed form gives the integer back. */
  lemma ParseIntToString(i: int)
    ensures ParseInt(IntToString(i)) == Some(i)
  {
    if i < 0 {
      var s := IntToString(i);
      assert s[1..] == NatToString(-i);
    }
  }

  function Pow10(n: nat): (p: nat)
    ensures p >= 1
  {
    if n == 0 then 1 else 10 * Pow10(n - 1)
  }

  /** The value of digits, an optional '.' and more digits, with at least one digit. */
  function ParseUnsignedDecimal(s: string): Option<real>
  {
    var parts := Split(s, '.');
    if |parts| == 1 && |s| >= 1 && AllDigits(s) then Some(DigitsValue(s) as real)
    else if |parts| == 2 && AllDigits(parts[0]) && AllDigits(parts[1]) && |parts[0]| + |parts[1]| >= 1 then
      Some(DigitsValue(parts[0]) as real + (DigitsValue(parts[1]) as real) / (Pow10(|parts[1]|) as real))
    else None
  }

  /** `float(s)` for a decimal string with an optional sign. */
  function ParseDecimal(s: string): Option<real>
  {
    if |s| >= 1 && (s[0] == '-' || s[0] == '+') then
      match ParseUnsignedDecimal(s[1..])
      case None => None
      case Some(v) => Some(if s[0] == '-' then -v else v)
    else ParseUnsignedDecimal(s)
  }

  /** A printed integer is a valid decimal literal with the same value. */
  lemma ParseDecimalOfInt(i: int)
    ensures ParseDecimal(IntToString(i)) == Some(i as real)
  {
    var s := IntToString(i);
    if i < 0 {
      var t := NatToString(-i);
      assert s[1..] == t;
      SplitNoSeparator(t, '.');
    } else {
      SplitNoSeparator(s, '.');
    }
  }

  /** Text that starts with neither a sign nor a digit and holds no dot is not a decimal: `float()` raises. */
  lemma WordIsNotDecimal(s: string)
    requires |s| > 0 && !IsDigit(s[0]) && s[0] != '-' && s[0] != '+' && '.' !in s
    ensures ParseDecimal(s).None?
  {
    SplitNoSeparator(s, '.');
  }

  /** `float("not a number")` raises. */
  lemma NotANumberText()
    ensures ParseDecimal("not a number").None?
  {
    WordIsNotDecimal("not a number");
  }

  /** `float("123")` is 123.0 and `float("abc")` raises. */
  lemma DecimalExamples()
    ensures ParseDecimal("123") == Some(123.0)
    ensures ParseDecimal("abc").None?
  {
    SplitNoSeparator("123", '.');
    assert "123"[..2] == "12" && "12"[..1] == "1";
    assert DigitsValue("123") == 123;
    SplitNoSeparator("abc", '.');
    assert !IsDigit("abc"[0]);
  }

  // ---------------------------------------------------------------------
  // Case

  function UpperChar(c: char): (u: char)
    ensures !('a' <= u <= 'z')
  {
    if 'a' <= c <= 'z' then (c as int - 32) as char else c
  }

  /** `s.upper()` restricted to ASCII letters. */
  function Upper(s: string): (u: string)
    ensures |u| == |s|
    ensures forall i :: 0 <= i < |s| ==> u[i] == UpperChar(s[i])
  {
    seq(|s|, i requires 0 <= i < |s| => UpperChar(s[i]))
  }
}

=== FILE: wrappers.dfy ===
/** Optional values and results with an error path, as returned by the pipeline's operations. */
module Wrappers {
  datatype Option<+T> = None | Some(value: T)

  datatype Result<+T, +E> = Success(value: T) | Failure(error: E)
  {
    predicate IsFailure() { Failure? }
  }

  /** Concatenation regrouped, as a step for the solver. */
  lemma AppendAssoc<T>(a: seq<T>, b: seq<T>, c: seq<T>)
    ensures (a + b) + c == a + (b + c)
  {
  }
}

=== FILE: writer.dfy ===
/**
 * The incremental card-set writer: a small state machine that emits
 * `"<set>":{"block":null,"cards":[card,card,...` pieces to an output sink,
 * holding card fragments in a buffer that is flushed at a threshold.
 *
 * Each operation is specified by a function on a value view of the writer
 * (`WriterView`); the class's methods are proved to follow those functions,
 * and the properties are proved about the functions.
 */
module Writer {
  import opened Wrappers
  import opened PyStrings
  import opened JsonValues
  import opened Models

  /** A text output that only ever grows. */
  class Sink {
    var text: string

    constructor()
      ensures text == ""
    {
      text := "";
    }

    method Write(data: string)
      modifies this
      ensures text == old(text) + data
    {
      text := text + data;
    }
  }

  /** `"".join(parts)`. */
  function Concat(parts: seq<string>): string
  {
    if parts == [] then "" else parts[0] + Concat(parts[1..])
  }

  lemma {:induction false} ConcatAppend(parts: seq<string>, p: string)
    ensures Concat(parts + [p]) == Concat(parts) + p
    decreases |parts|
  {
    if parts == [] {
      assert [p][1..] == [];
    } else {
      ConcatAppend(parts[1..], p);
      assert (parts + [p])[1..] == parts[1..] + [p];
    }
  }

  /** What opening a set writes. */
  function SetHeader(name: string): string
  {
    "\"" + name + "\":{\"block\":null,\"cards\":["
  }

  /** Everything the writer holds: the sink's text, its fields and its buffer. */
  datatype WriterView = WriterView(
    out: string,
    currentSet: Option<string>,
    firstSetWritten: bool,
    state: WriterState,
    isFirstCard: bool,
    stats: WriterStats,
    buffer: seq<string>)

  /** A new writer over a sink that already holds `out`. */
  function InitialView(out: string): WriterView
  {
    WriterView(out, None, false, Initial, true, ZeroStats, [])
  }

  /** The text written so far followed by the text still buffered. */
  function Logical(v: WriterView): string
  {
    v.out + Concat(v.buffer)
  }

  /** The most fragments the buffer can hold between operations. */
  function Capacity(bufferSize: int): nat
  {
    if bufferSize < 1 then 1 else bufferSize
  }

  /**
   * The writer's invariant: no set means the initial state and nothing
   * buffered; only an open set has fragments waiting; fewer fragments wait
   * than the flush threshold; the counters are never negative.
   */
  predicate Valid(v: WriterView, bufferSize: int)
  {
    && (v.currentSet.None? <==> v.state == Initial)
    && (v.currentSet.None? <==> !v.firstSetWritten)
    && (v.state != SetOpen ==> v.buffer == [])
    && |v.buffer| < Capacity(bufferSize)
    && v.stats.cardsWritten >= 0 && v.stats.setsProcessed >= 0 && v.stats.errorsEncountered >= 0
  }

  lemma InitialValid(out: string, bufferSize: int)
    ensures Valid(InitialView(out), bufferSize)
    ensures Logical(InitialView(out)) == out
  {
  }

  // ---------------------------------------------------------------------
  // The operations on the view

  /** Writes out the buffered fragments, if any, and empties the buffer. */
  function FlushSpec(v: WriterView): (r: WriterView)
    ensures r.buffer == [] && Logical(r) == Logical(v)
    ensures r.(out := v.out, buffer := v.buffer) == v
  {
    if v.buffer == [] then v else v.(out := v.out + Concat(v.buffer), buffer := [])
  }

  /**
   * Switches to set `name`. The same set again changes nothing. Otherwise an
   * open set is flushed and closed with `}` (not `]}`), a comma separates it
   * from the new set's header, and the new set is open with no card yet.
   */
  function TransitionSpec(v: WriterView, name: string): (r: WriterView)
    ensures v.currentSet == Some(name) ==> r == v
    ensures v.currentSet != Some(name) ==>
              && r.currentSet == Some(name) && r.firstSetWritten && r.state == SetOpen && r.isFirstCard
              && r.stats == v.stats.(setsProcessed := v.stats.setsProcessed + 1)
    ensures v.currentSet != Some(name) && (v.currentSet.None? ==> v.buffer == []) ==>
              && r.buffer == []
              && r.out == Logical(v) + (if v.currentSet.Some? then "}" else "")
                          + (if v.firstSetWritten then "," else "") + SetHeader(name)
  {
    if v.currentSet == Some(name) then v
    else
      var closed := if v.currentSet.Some? then var f := FlushSpec(v); f.(out := f.out + "}") else v;
      var separated := if v.firstSetWritten then closed.(out := closed.out + ",") else closed;
      separated.(out := separated.out + SetHeader(name), currentSet := Some(name), firstSetWritten := true,
                 stats := v.stats.(setsProcessed := v.stats.setsProcessed + 1), state := SetOpen,
                 isFirstCard := true)
  }

  /** `_validate_card`: a dictionary with both `name` and `type`. */
  predicate CardWritable(card: Json)
  {
    card.Obj? && HasKey(card.fields, "name") && HasKey(card.fields, "type")
  }

  /** Why a write failed: the state check (not counted) or the card check (counted). */
  datatype WriteError =
    | InvalidState(expected: WriterState, actual: WriterState)
    | InvalidCard(name: Option<Json>)

  /** The name a failed write reports: the card's `name`, or none for "unknown". */
  function CardName(card: Json): Option<Json>
  {
    if card.Obj? then Get(card.fields, "name") else None
  }

  function StateName(s: WriterState): string
  {
    match s
    case Initial => "WriterState.INITIAL"
    case SetOpen => "WriterState.SET_OPEN"
    case SetClosed => "WriterState.SET_CLOSED"
  }

  /**
   * The head of an error's message; a failed card check names the card as
   * `str()` shows its `name` (so a `None` name reads "None"), or says
   * "unknown" when there is no name.
   */
  function Message(e: WriteError): (m: string)
    ensures e.InvalidState? ==> StartsWith(m, "Invalid state: ")
    ensures e.InvalidCard? ==> StartsWith(m, "Error writing card ")
    ensures e == InvalidCard(None) ==> m == "Error writing card unknown: "
    ensures e.InvalidCard? && e.name.Some? && Printable(e.name.value) ==>
              m == "Error writing card " + PyStr(e.name.value) + ": "
    ensures e == InvalidCard(Some(Null)) ==> m == "Error writing card None: "
  {
    match e
    case InvalidState(expected, actual) =>
      "Invalid state: " + "expected " + StateName(expected) + ", got " + StateName(actual)
    case InvalidCard(name) =>
      var shown := match name
        case None => "unknown"
        case Some(j) => if Printable(j) then PyStr(j) else "";
      "Error writing card " + (shown + ": ")
  }

  datatype WriteStep = WriteStep(view: WriterView, error: Option<WriteError>)

  /**
   * `write_processed_card`: no card does nothing; a writer without an open
   * set refuses without counting an error; an invalid card counts an error
   * and changes nothing else; a valid card's serialisation is buffered,
   * after a comma unless it is the set's first card, and the buffer is
   * flushed once it holds `bufferSize` fragments.
   */
  function WriteSpec(v: WriterView, card: Option<Json>, bufferSize: int, dumps: Json -> string): (r: WriteStep)
    ensures card.None? ==> r == WriteStep(v, None)
    ensures card.Some? && v.state != SetOpen ==> r == WriteStep(v, Some(InvalidState(SetOpen, v.state)))
    ensures card.Some? && v.state == SetOpen && !CardWritable(card.value) ==>
              r == WriteStep(v.(stats := v.stats.(errorsEncountered := v.stats.errorsEncountered + 1)),
                             Some(InvalidCard(CardName(card.value))))
    ensures card.Some? && v.state == SetOpen && CardWritable(card.value) ==>
              && r.error.None?
              && Logical(r.view) == Logical(v) + (if v.isFirstCard then "" else ",") + dumps(card.value)
              && !r.view.isFirstCard
              && r.view.stats == v.stats.(cardsWritten := v.stats.cardsWritten + 1)
              && r.view.(out := v.out, buffer := v.buffer, isFirstCard := v.isFirstCard, stats := v.stats) == v
              && (|v.buffer| + 1 >= bufferSize ==> r.view.buffer == [])
              && (|v.buffer| + 1 < bufferSize ==> r.view.out == v.out && |r.view.buffer| == |v.buffer| + 1)
  {
    if card.None? then WriteStep(v, None)
    else if v.state != SetOpen then WriteStep(v, Some(InvalidState(SetOpen, v.state)))
    else if !CardWritable(card.value) then
      WriteStep(v.(stats := v.stats.(errorsEncountered := v.stats.errorsEncountered + 1)),
                Some(InvalidCard(CardName(card.value))))
    else
      var fragment := (if v.isFirstCard then "" else ",") + dumps(card.value);
      var buffered := v.(isFirstCard := false, buffer := v.buffer + [fragment]);
      ConcatAppend(v.buffer, fragment);
      var flushed := if |buffered.buffer| >= bufferSize then FlushSpec(buffered) else buffered;
      WriteStep(flushed.(stats := v.stats.(cardsWritten := v.stats.cardsWritten + 1)), None)
  }

  /** `close`: with a set opened, flushes, writes `]}` and enters SET_CLOSED; otherwise nothing. */
  function CloseSpec(v: WriterView): (r: WriterView)
    ensures v.currentSet.None? ==> r == v
    ensures v.currentSet.Some? ==>
              && r.buffer == [] && r.out == Logical(v) + "]}" && r.state == SetClosed
              && r.(out := v.out, buffer := v.buffer, state := v.state) == v
  {
    if v.currentSet.None? then v
    else
      var f := FlushSpec(v);
      f.(out := f.out + "]}", state := SetClosed)
  }

  // ---------------------------------------------------------------------
  // Properties of the operations

  lemma AppendExtends(a: string, b: string, c: string)
    requires StartsWith(b, a)
    ensures StartsWith(b + c, a)
  {
    assert (b + c)[..|a|] == b[..|a|];
  }

  /** The sink only grows: no operation takes back text already written. */
  lemma OutputOnlyGrows(v: WriterView, name: string, card: Option<Json>, bufferSize: int, dumps: Json -> string)
    ensures StartsWith(FlushSpec(v).out, v.out)
    ensures StartsWith(TransitionSpec(v, name).out, v.out)
    ensures StartsWith(WriteSpec(v, card, bufferSize, dumps).view.out, v.out)
    ensures StartsWith(CloseSpec(v).out, v.out)
  {
    assert StartsWith(v.out, v.out);
    AppendExtends(v.out, v.out, Concat(v.buffer));
    var f := FlushSpec(v);
    AppendExtends(v.out, f.out, "}");
    AppendExtends(v.out, f.out, "]}");
    if v.currentSet != Some(name) {
      var c := if v.currentSet.Some? then f.out + "}" else v.out;
      AppendExtends(v.out, c, ",");
      var sep := if v.firstSetWritten then c + "," else c;
      AppendExtends(v.out, sep, SetHeader(name));
    }
  }

  /** Switching to the set that is already current writes nothing and counts nothing. */
  lemma SameSetIsNoOp(v: WriterView, name: string)
    requires v.currentSet == Some(name)
    ensures TransitionSpec(v, name) == v
    ensures TransitionSpec(v, name).stats.setsProcessed == v.stats.setsProcessed
  {
  }

  lemma TransitionKeepsValid(v: WriterView, name: string, bufferSize: int)
    requires Valid(v, bufferSize)
    ensures Valid(TransitionSpec(v, name), bufferSize)
  {
  }

  lemma WriteKeepsValid(v: WriterView, card: Option<Json>, bufferSize: int, dumps: Json -> string)
    requires Valid(v, bufferSize)
    ensures Valid(WriteSpec(v, card, bufferSize, dumps).view, bufferSize)
  {
  }

  lemma CloseKeepsValid(v: WriterView, bufferSize: int)
    requires Valid(v, bufferSize)
    ensures Valid(CloseSpec(v), bufferSize)
  {
  }

  /** The operations a writer's user performs. */
  datatype WriterOp = Transition(name: string) | Write(card: Option<Json>) | Close

  function Step(v: WriterView, op: WriterOp, bufferSize: int, dumps: Json -> string): WriterView
  {
    match op
    case Transition(name) => TransitionSpec(v, name)
    case Write(card) => WriteSpec(v, card, bufferSize, dumps).view
    case Close => CloseSpec(v)
  }

  /** The writer after a sequence of operations (failed writes leave their effect and go on). */
  function Run(v: WriterView, ops: seq<WriterOp>, bufferSize: int, dumps: Json -> string): WriterView
    decreases |ops|
  {
    if ops == [] then v else Run(Step(v, ops[0], bufferSize, dumps), ops[1..], bufferSize, dumps)
  }

  lemma StepKeepsValid(v: WriterView, op: WriterOp, bufferSize: int, dumps: Json -> string)
    requires Valid(v, bufferSize)
    ensures Valid(Step(v, op, bufferSize, dumps), bufferSize)
  {
    match op
    case Transition(name) => TransitionKeepsValid(v, name, bufferSize);
    case Write(card) => WriteKeepsValid(v, card, bufferSize, dumps);
    case Close => CloseKeepsValid(v, bufferSize);
  }

  /**
   * Buffering is invisible: flushing after any operation gives the same
   * writer as flushing first and then running the operation unbuffered.
   */
  lemma StepFlushCommutes(v: WriterView, op: WriterOp, bufferSize: int, dumps: Json -> string)
    requires Valid(v, bufferSize)
    ensures FlushSpec(Step(v, op, bufferSize, dumps)) == Step(FlushSpec(v), op, 1, dumps)
  {
    match op
    case Transition(name) =>
    case Close =>
    case Write(card) =>
      if card.Some? && v.state == SetOpen && CardWritable(card.value) {
        var fragment := (if v.isFirstCard then "" else ",") + dumps(card.value);
        ConcatAppend(v.buffer, fragment);
        assert Concat([fragment]) == fragment;
      }
  }

  lemma {:induction false} RunFlushCommutes(v: WriterView, ops: seq<WriterOp>, bufferSize: int, dumps: Json -> string)
    requires Valid(v, bufferSize)
    ensures FlushSpec(Run(v, ops, bufferSize, dumps)) == Run(FlushSpec(v), ops, 1, dumps)
    decreases |ops|
  {
    if ops != [] {
      StepKeepsValid(v, ops[0], bufferSize, dumps);
      RunFlushCommutes(Step(v, ops[0], bufferSize, dumps), ops[1..], bufferSize, dumps);
      StepFlushCommutes(v, ops[0], bufferSize, dumps);
    }
  }

  lemma {:induction false} RunKeepsValid(v: WriterView, ops: seq<WriterOp>, bufferSize: int, dumps: Json -> string)
    requires Valid(v, bufferSize)
    ensures Valid(Run(v, ops, bufferSize, dumps), bufferSize)
    decreases |ops|
  {
    if ops != [] {
      StepKeepsValid(v, ops[0], bufferSize, dumps);
      RunKeepsValid(Step(v, ops[0], bufferSize, dumps), ops[1..], bufferSize, dumps);
    }
  }

  lemma {:induction false} RunAppend(v: WriterView, ops: seq<WriterOp>, op: WriterOp, bufferSize: int,
                                     dumps: Json -> string)
    ensures Run(v, ops + [op], bufferSize, dumps) == Step(Run(v, ops, bufferSize, dumps), op, bufferSize, dumps)
    decreases |ops|
  {
    if ops == [] {
      assert [op][1..] == [];
    } else {
      assert (ops + [op])[1..] == ops[1..] + [op];
      RunAppend(Step(v, ops[0], bufferSize, dumps), ops[1..], op, bufferSize, dumps);
    }
  }

  /**
   * The final output does not depend on the buffer size: two writers that
   * start alike, perform the same operations and are closed have written
   * the same text.
   */
  lemma SameOutputForAnyBufferSize(v: WriterView, ops: seq<WriterOp>, size1: int, size2: int, dumps: Json -> string)
    requires v.buffer == [] && Valid(v, size1) && Valid(v, size2)
    ensures Run(v, ops + [Close], size1, dumps).out == Run(v, ops + [Close], size2, dumps).out
  {
    RunAppend(v, ops, Close, size1, dumps);
    RunAppend(v, ops, Close, size2, dumps);
    RunKeepsValid(v, ops + [Close], size1, dumps);
    RunKeepsValid(v, ops + [Close], size2, dumps);
    RunFlushCommutes(v, ops + [Close], size1, dumps);
    RunFlushCommutes(v, ops + [Close], size2, dumps);
    var r1 := Run(v, ops + [Close], size1, dumps);
    var r2 := Run(v, ops + [Close], size2, dumps);
    assert r1.buffer == [] && r2.buffer == [];
    assert FlushSpec(r1) == r1 && FlushSpec(r2) == r2;
  }

  /**
   * Opening set A, writing one card and switching to set B writes A's header
   * and card, then `}` (the array of A's cards is left unclosed), a comma and
   * B's header.
   */
  lemma TwoSetsExample(card: Json, bufferSize: int, dumps: Json -> string)
    requires CardWritable(card)
    ensures Run(InitialView(""), [Transition("A"), Write(Some(card)), Transition("B")], bufferSize, dumps).out
            == SetHeader("A") + dumps(card) + "}" + "," + SetHeader("B")
  {
    var v0 := InitialView("");
    var v1 := TransitionSpec(v0, "A");
    assert v1.out == SetHeader("A") && v1.buffer == [];
    var v2 := WriteSpec(v1, Some(card), bufferSize, dumps).view;
    assert Logical(v2) == SetHeader("A") + dumps(card);
    assert v2.currentSet == Some("A") && v2.firstSetWritten;
    var v3 := TransitionSpec(v2, "B");
    assert v3.out == SetHeader("A") + dumps(card) + "}" + "," + SetHeader("B");
    var ops := [Transition("A"), Write(Some(card)), Transition("B")];
    assert Run(v0, ops, bufferSize, dumps) == Run(v1, ops[1..], bufferSize, dumps);
    assert Run(v1, ops[1..], bufferSize, dumps) == Run(v2, ops[2..], bufferSize, dumps);
    assert Run(v2, ops[2..], bufferSize, dumps) == Run(v3, [], bufferSize, dumps);
  }

  // ---------------------------------------------------------------------
  // The writer object

  class CardSetWriter {
    const outfile: Sink
    const bufferSize: int
    const dumps: Json -> string
    var currentSet: Option<string>
    var firstSetWritten: bool
    var state: WriterState
    var isFirstCard: bool
    var stats: WriterStats
    var buffer: seq<string>

    function View(): WriterView
      reads this, outfile
    {
      WriterView(outfile.text, currentSet, firstSetWritten, state, isFirstCard, stats, buffer)
    }

    /** A writer in INITIAL over `outfile`, with nothing buffered and zero counters. */
    constructor(outfile: Sink, bufferSize: int, dumps: Json -> string)
      ensures this.outfile == outfile && this.bufferSize == bufferSize && this.dumps == dumps
      ensures View() == InitialView(outfile.text)
    {
      this.outfile := outfile;
      this.bufferSize := bufferSize;
      this.dumps := dumps;
      currentSet := None;
      firstSetWritten := false;
      state := Initial;
      isFirstCard := true;
      stats := ZeroStats;
      buffer := [];
    }

    method FlushBuffer()
      modifies outfile, this
      ensures View() == FlushSpec(old(View()))
    {
      if buffer == [] {
        return;
      }
      outfile.Write(Concat(buffer));
      buffer := [];
    }

    method HandleSetTransition(name: string)
      modifies outfile, this
      ensures View() == TransitionSpec(old(View()), name)
    {
      if currentSet == Some(name) {
        return;
      }
      if currentSet.Some? {
        FlushBuffer();
        outfile.Write("}");
      }
      if firstSetWritten {
        outfile.Write(",");
      }
      outfile.Write(SetHeader(name));
      currentSet := Some(name);
      firstSetWritten := true;
      stats := stats.(setsProcessed := stats.setsProcessed + 1);
      state := SetOpen;
      isFirstCard := true;
    }

    method WriteProcessedCard(card: Option<Json>) returns (err: Option<WriteError>)
      modifies outfile, this
      ensures WriteStep(View(), err) == WriteSpec(old(View()), card, bufferSize, dumps)
    {
      if card.None? {
        return None;
      }
      if state != SetOpen {
        return Some(InvalidState(SetOpen, state));
      }
      if !CardWritable(card.value) {
        stats := stats.(errorsEncountered := stats.errorsEncountered + 1);
        return Some(InvalidCard(CardName(card.value)));
      }
      var cardJson := dumps(card.value);
      if isFirstCard {
        isFirstCard := false;
        buffer := buffer + [cardJson];
        assert "" + cardJson == cardJson;
      } else {
        buffer := buffer + ["," + cardJson];
      }
      if |buffer| >= bufferSize {
        FlushBuffer();
      }
      stats := stats.(cardsWritten := stats.cardsWritten + 1);
      return None;
    }

    method Close()
      modifies outfile, this
      ensures View() == CloseSpec(old(View()))
    {
      if currentSet.Some? {
        FlushBuffer();
        outfile.Write("]}");
        state := SetClosed;
      }
    }

    method GetStats() returns (s: WriterStats)
      ensures s == stats
    {
      return stats;
    }
  }
}
